=== FILE: README.md ===
# Sudoku engines and generator, modelled in Dafny

This project models the puzzle core of the Sudoku generator in `Generator/`:

- **The constraint grid and the guess-tree solver** (`Generator/sudoku_solver.py`).
  `SudokuGrid` keeps an N x N cell array, with N = w * w and 0 for an empty
  cell. It also keeps the value sets of every row, column and box. `add` and
  `remove` are its only mutators; they raise `AlreadySetError`,
  `ConflictError` or `KeyError`.
  `SudokuSolver` adds two propagation rules:
  - `fill_must_fills`, the hidden single: a digit that only one cell of a unit admits;
  - `fill_deterministically`, the naked single: a cell with one candidate.

  It also has a minimum-remaining-values guesser and a tree of guesses with
  their consequences (`Guess`, `GuessList`, `BreadcrumbTrail`, `unwrap_guess`),
  and decides uniqueness with `has_unique_solution`.
  `SudokuRater` counts, tier by tier, the moves each rule could make.
  `DifficultyRating` turns those counts into a score and a label.
  The string form of a grid (`to_string` and the string branch of the
  constructor) is a parser/printer pair.
- **The rectangular-box solver** (`Generator/sudoku.py`). `Sudoku` holds a
  board of `width * height` rows with boxes of `width` columns and `height`
  rows; `None` is empty. `validate` checks rows, columns and boxes with flag
  tables. `_SudokuSolver` lists the blanks and works out each blank's allowed
  values, then runs the backtracking search `__get_solution`. That search
  changes the board, the allowed-value table and the filled flags in place
  and undoes every change on failure.
- **The generator** (`Generator/sudoku_maker.py`). `SudokuGenerator` solves an
  empty grid to get a start grid. It then copies the start grid's values at
  randomly drawn coordinates into new puzzles. Those coordinates are closed
  under the point reflection `reflect` when the puzzle must be symmetric. It
  keeps the puzzles a rater finds unique, or whose difficulty falls in a band.

How the model stands in for Python:

- **Empty cells.** A Python `None` or a 0 cell is the integer 0.
- **Floats.** Python floats are Dafny `real`s.
- **Lists, dicts and sets** the program mutates are `seq`, `map` and `set`
  fields of classes that the methods reassign. The grid's cell array is an
  `array2`. The rectangular solver's board, allowed-value table and filled
  flags are fields of `RectSearch.RectSolver`, changed in place by its methods.
- **Randomness.** `random.choice`, `random.sample`, the order in which a set
  is walked, and `shuffle` are nondeterministic choices or caller-supplied
  sequences. Every property holds for every possible draw.
- **Unbounded loops.** The solver's `while not self.guess_least_open_square()`
  loops and the recursion inside `guess_least_open_square` are bounded by a
  `fuel` count. A search cut short ends in the model's own `OutOfFuel` error.
  `unique_generator`'s endless loop is bounded by a number of tries.
- **The rater's "fake add" mode.** Here it is a pair of dry runs:
  `DryMustFills` and `OneChoices` compute the moves `fill_must_fills` and
  `fill_deterministically` would make without touching the grid. In that mode
  `SudokuRater.add` only records its arguments, so the grid is unchanged either
  way.
- **`SudokuRater` and `SudokuSolver`** are one class, `Solver.SudokuSolver`.
  Its `rating` flag selects the rater's versions of `add` and
  `guess_least_open_square`.
- **Disabled bounds.** A falsy bound of `generate_puzzle_for_difficulty` is a
  bound of `0.0`.

The solving rules are stated against a reference definition of Sudoku in
`SquareBoard`: the candidates of a cell, a solution of a board, a value forced
by every solution, and two boards with the same solutions. `SquareBoard`
proves that each propagation rule only makes moves every solution agrees on,
and that its error cases are puzzles without solutions.

Two points where the code says more than its names suggest:

- `reflect` (sudoku_maker.py:43-49) carries the comment "downward sloping",
  which names a mirror in a diagonal, but its two swaps compute
  (N-1-x, N-1-y): the point reflection through the centre, a half turn. The
  model follows the computation.
- The rater's tier (sudoku_solver.py:650) is not the number of guesses. It
  goes up by one after every real `add` made before the first guess and
  stays put once guessing starts.

## Model

| member | source | states |
|---|---|---|
| SquareBoard.Digits | Generator/sudoku_solver.py:43 | gen_set holds exactly the digits 1..group_size |
| SquareBoard.BoxOfRange | Generator/sudoku_solver.py:73-85 | every cell of the grid gets a box number below group_size |
| SquareBoard.BoxCoordAt | Generator/sudoku_solver.py:73-85 | the k-th cell listed for box i lies on the grid, in box i, and is listed at position k |
| SquareBoard.BoxIndexAt | Generator/sudoku_solver.py:73-85 | every cell of box i is listed in box_coords[i], at the position IndexInUnit gives |
| SquareBoard.UnitCoordAt | Generator/sudoku_solver.py:53-58 | position k of a row, column or box list names a cell of that unit, and IndexInUnit gives k back |
| SquareBoard.UnitIndexAt | Generator/sudoku_solver.py:53-58 | every cell of a unit appears in that unit's coordinate list |
| SquareBoard.UnitCoordsDistinct | Generator/sudoku_solver.py:53-85 | no unit's coordinate list names a cell twice |
| SquareBoard.UnitCellsDistinct | Generator/sudoku_solver.py:100-106 | on a board without duplicates the filled cells of one unit hold pairwise distinct values |
| SquareBoard.UnitHasEveryDigit | Generator/sudoku_solver.py:212-233 | a complete valid grid holds every digit 1..N in every row, column and box (pigeonhole), so a finished unit needs nothing |
| SquareBoard.SolutionValueIsCandidate | Generator/sudoku_solver.py:128-129 | the value any solution puts in an empty cell is one of possible_values for that cell |
| SquareBoard.HiddenSingleForced | Generator/sudoku_solver.py:227-241 | a digit missing from a unit that exactly one empty cell of the unit admits is forced into that cell in every solution |
| SquareBoard.MissingDigitUnsolvable | Generator/sudoku_solver.py:234-237 | a digit missing from a unit that no cell of the unit admits means the board has no solution |
| SquareBoard.NakedSingleForced | Generator/sudoku_solver.py:347-356 | an empty cell with exactly one candidate holds that candidate in every solution |
| SquareBoard.PlaceForcedKeepsSolutions | Generator/sudoku_solver.py:238-241 | writing a forced value into an empty cell leaves exactly the same set of solutions |
| SquareBoard.ForcedClashUnsolvable | Generator/sudoku_solver.py:242-245 | a forced value that cannot be written (the cell holds another value, or a unit already has it) means the board has no solution |
| SquareBoard.RowValuesAfterPlace | Generator/sudoku_solver.py:108 | changing one cell changes only its row's value set: the old value leaves it and the new value joins it |
| SquareBoard.ColValuesAfterPlace | Generator/sudoku_solver.py:109 | the same for the cell's column set |
| SquareBoard.BoxValuesAfterPlace | Generator/sudoku_solver.py:110 | the same for the cell's box set |
| SquareBoard.MirrorsAfterPlace | Generator/sudoku_solver.py:108-122 | on a board without duplicates, replacing a cell's value moves exactly that value in and out of its three unit sets and leaves every other set unchanged |
| SquareBoard.FillKeepsNoDuplicates | Generator/sudoku_solver.py:100-113 | filling an empty cell with one of its candidates keeps the board free of duplicates |
| SquareBoard.ClearKeepsNoDuplicates | Generator/sudoku_solver.py:116-122 | emptying a cell keeps the board free of duplicates |
| SquareBoard.FullerBoardFewerSolutions | Generator/sudoku_solver.py:405-475 | a solution of a board that extends another is a solution of the other |
| SquareBoard.ForcedStaysForced | Generator/sudoku_solver.py:194-210 | a value forced on a board stays forced on every board extending it |
| SquareBoard.SolvableNoRepeats | Generator/sudoku_solver.py:100-106 | a board with a solution repeats no digit within a row, column or box, so loading it raises no ConflictError |
| SquareBoard.UnsolvableStaysUnsolvable | Generator/sudoku_solver.py:405-475 | a board without solutions has no extension with a solution |
| SquareBoard.UnitValueNotCandidate | Generator/sudoku_solver.py:128-129 | a value filled anywhere in a unit is a candidate of no cell of that unit |
| SquareBoard.EmptiesShrink | Generator/sudoku_solver.py:194-210 | filling cells never adds an empty cell, and filling an empty one removes at least one |
| SquareBoard.CandidatesShrink | Generator/sudoku_solver.py:155-161 | filling cells only takes candidates away from every cell |
| ConstraintGrid.AddSpecOutcome | Generator/sudoku_solver.py:87-113 | add without force leaves the board unchanged whenever it raises; otherwise it fills exactly the chosen empty cell with a value absent from its row, column and box |
| ConstraintGrid.AddSpecExtends | Generator/sudoku_solver.py:87-113 | whatever add without force does, every filled cell keeps its value |
| ConstraintGrid.AddForcedOutcome | Generator/sudoku_solver.py:87-113 | adding a forced value either keeps the same solutions or raises on a board with no solution |
| ConstraintGrid.AddCandidateSucceeds | Generator/sudoku_solver.py:100-113 | adding a candidate value to an empty cell never raises and writes exactly that cell |
| ConstraintGrid.AddRemoveRoundTrip | Generator/sudoku_solver.py:87-122 | a successful add followed by remove on the same cell gives the original board back |
| ConstraintGrid.SudokuGrid.constructor | Generator/sudoku_solver.py:36-58 | a new grid has side group_size = w * w, every cell empty, and the mirrors invariant established |
| ConstraintGrid.SudokuGrid.EmptyMirrors | Generator/sudoku_solver.py:44-48 | on an all-empty board every row, column and box set is empty and there are no duplicates |
| ConstraintGrid.SudokuGrid.Write | Generator/sudoku_solver.py:108-113 | writing a value into an empty cell, or emptying a cell, together with the mirror update keeps the mirrors equal to the board's unit value sets |
| ConstraintGrid.SudokuGrid.Add | Generator/sudoku_solver.py:87-114 | the error raised and the new board are exactly those of AddSpec: AlreadySetError on an occupied cell without force, a ConflictError checked row, then column, then box; the mirrors invariant is kept |
| ConstraintGrid.SudokuGrid.Remove | Generator/sudoku_solver.py:116-122 | KeyError on an empty cell with the board unchanged; otherwise the cell is emptied and its value leaves the three sets |
| ConstraintGrid.SudokuGrid.Snapshot | Generator/sudoku_solver.py:375 | the tuple of rows solution_finder yields equals the board |
| ConstraintGrid.SudokuGrid.Get | Generator/sudoku_solver.py:124 | _get_(x, y) reads grid[y][x], a value in 0..N |
| ConstraintGrid.SudokuGrid.PossibleValues | Generator/sudoku_solver.py:128-129 | computed from the mirrors, the result equals the candidates: the digits absent from the cell's row, column and box |
| ConstraintGrid.SudokuGrid.CalculateOpenSquares | Generator/sudoku_solver.py:155-161 | the entries are exactly the empty cells, each once, with its candidates, in the order the loops visit them |
| ConstraintGrid.SudokuGrid.FindConflict | Generator/sudoku_solver.py:163-172 | returns the first cell of the row, column or box, in unit order, that holds val, and nothing only when no cell of the unit holds it |
| ConstraintGrid.SudokuGrid.PopulateFromGrid | Generator/sudoku_solver.py:139-145 | every filled cell keeps its value; starting from an empty grid, success means the board equals the given grid, and an error is raised exactly when the grid repeats a digit within a row, column or box, and it is then a ConflictError |
| ConstraintGrid.SudokuGrid.PopulateRow | Generator/sudoku_solver.py:141-145 | one row of that loop: on success every non-zero value of the row is on the board; from an empty start an error is a ConflictError and the grid repeats a digit within a unit |
| ConstraintGrid.PopulateConflict | Generator/sudoku_solver.py:141-145 | an add that raises while an empty grid is filled in row order raises a ConflictError, and the given grid holds that digit twice in one unit |
| ConstraintGrid.PopulatedNoRepeats | Generator/sudoku_solver.py:139-145 | a duplicate-free board that holds the whole given grid shows that the grid repeats no digit within a unit |
| ConstraintGrid.OpenInColumnFacts | Generator/sudoku_solver.py:157-160 | the entries collected for one column are open squares of that column, sorted, and list every empty cell of it scanned so far |
| ConstraintGrid.OpenBeforeFacts | Generator/sudoku_solver.py:155-161 | the entries collected for the first x columns are sorted open squares and list every empty cell of those columns |
| ConstraintGrid.UnitIndex | Generator/sudoku_solver.py:163-169 | the unit a conflict type selects for (x, y) is in range and contains (x, y) |
| GridText.NatToString | Generator/sudoku_solver.py:174-176 | str(v) of a natural is a non-empty string of decimal digits |
| GridText.IntToString | Generator/sudoku_solver.py:174-176 | str(v) of any integer is non-empty and contains no whitespace |
| GridText.Split | Generator/sudoku_solver.py:61 | re.split of whitespace runs yields at least one piece, and no piece holds a whitespace character (ASCII whitespace; see Left out) |
| GridText.ParseInt | Generator/sudoku_solver.py:66 | int() succeeds on exactly the tokens made of an optional sign followed by ASCII digits; every other token raises ValueError (see Left out for the tokens Python also accepts) |
| GridText.Isqrt | Generator/sudoku_solver.py:62 | int(math.sqrt(m)) is the r with r * r <= m < (r + 1) * (r + 1) |
| GridText.ParseInts | Generator/sudoku_solver.py:66 | on success every token parses to the value at its position; on failure some token does not parse |
| GridText.Rows | Generator/sudoku_solver.py:63-66 | every row cut from the values has side entries |
| GridText.NatToStringValue | Generator/sudoku_solver.py:66 | reading back the digits of str(v) gives v |
| GridText.IntToStringRoundTrip | Generator/sudoku_solver.py:66 | int(str(v)) == v for every integer |
| GridText.ParseIntsStrings | Generator/sudoku_solver.py:66 | parsing the printed values gives the values back |
| GridText.SplitJoin | Generator/sudoku_solver.py:61 | splitting the space-joined tokens gives the tokens back |
| GridText.RowsFlatten | Generator/sudoku_solver.py:63-66 | cutting the flattened cells of a grid with rows of length n gives the grid back |
| GridText.IsqrtOfSquare | Generator/sudoku_solver.py:62 | the integer square root of n * n is n |
| GridText.ParseGridShape | Generator/sudoku_solver.py:59-66 | a parsed grid has side rows of side values, side being the integer square root of the token count |
| GridText.ParseToStringRoundTrip | Generator/sudoku_solver.py:174-176 | parsing what to_string writes gives the board back, for every square board |
| GuessTree.AddConsequence | Generator/sudoku_solver.py:751-753 | the consequence map gains (x, y) with value val, keeps every other entry, and the guess's cell, value and children are unchanged |
| GuessTree.SubtreeBounds | Generator/sudoku_solver.py:443-445 | every guess reachable from a guess through its children was made no earlier than it |
| GuessTree.FootprintSubtree | Generator/sudoku_solver.py:484-495 | the cells unwrap_guess empties are the guess's own cells plus those of its children's subtrees |
| GuessTree.ForestStep | Generator/sudoku_solver.py:490-495 | the children up to j + 1 cover those up to j and the subtree of child j |
| GuessTree.RemoveFirst | Generator/sudoku_solver.py:494-495 | list.remove(d) drops one occurrence of d and only when d is present |
| GuessTree.RemoveFirstOfDistinct | Generator/sudoku_solver.py:494-495 | on a list without repeats, list.remove(d) removes exactly d and keeps the order |
| GuessTree.RemoveIfPresent | Generator/sudoku_solver.py:497-498 | `if d in s: s.remove(d)` on a list without repeats removes exactly d |
| GuessTree.GuessesForCoord | Generator/sudoku_solver.py:705-706 | a value is in the result exactly when some listed guess at (x, y) has that value |
| GuessTree.BreadcrumbAppend | Generator/sudoku_solver.py:733-740 | ValueError exactly when a crumb on the trail has the new guess's coordinate; otherwise the trail with the guess appended |
| GuessTree.BreadcrumbAppendKeepsOneCrumbPerCell | Generator/sudoku_solver.py:733-740 | a trail with one crumb per cell keeps that property after a successful append |
| Rating.SortedKeys | Generator/sudoku_solver.py:581-583 | the keys of the dict, each once, in strictly ascending order |
| Rating.CountValues | Generator/sudoku_solver.py:581-584 | one entry per key: the size of the set at the i-th smallest key |
| Rating.AddWithDiminishingImportance | Generator/sudoku_solver.py:764-767 | the accumulator loop returns the sum of lst[i] / (i + 1) |
| Rating.DiminishingSumBounds | Generator/sudoku_solver.py:764-767 | the diminishing sum lies between zero and the plain sum of the counts |
| Rating.DiminishingSnoc | Generator/sudoku_solver.py:764-767 | appending a count n adds n / (position + 1) to the sum |
| Rating.Calculate | Generator/sudoku_solver.py:586-590 | value * squares_filled = squares_filled - fillable_ease - elimination_ease + guesses + backtraces |
| Rating.Rate | Generator/sudoku_solver.py:547-579 | KeyError exactly when a non-empty tally has no tier 0 (raised first); when there is no KeyError, ZeroDivisionError exactly when squares_filled is 0; otherwise the eases are the diminishing sums of the tallies' counts and the value is calculate() |
| Rating.ValueString | Generator/sudoku_solver.py:612-621 | the label is one of the four labels |
| Rating.ValueStringMonotone | Generator/sudoku_solver.py:612-621 | a higher value never gets an easier label |
| Rating.ValueStringBands | Generator/sudoku_solver.py:612-621 | "Very hard" iff value > 0.75, "Hard" iff 0.59 <= value <= 0.75, "Medium" iff 0.45 < value < 0.59, "Easy" iff value <= 0.45 |
| Solver.Register | Generator/sudoku_solver.py:227-233 | a needed digit the cell admits gets the cell when it had none and is dropped when it already had one; other digits keep their entries |
| Solver.NeedsOf | Generator/sudoku_solver.py:218-233 | the needs dict after scanning a unit holds only digits 1..N |
| Solver.NeedsOfAt | Generator/sudoku_solver.py:218-233 | a digit stays in needs iff it is absent from the unit and at most one cell admits it; its entry is False iff no cell admits it, else the one admitting cell |
| Solver.UnitListing | Generator/sudoku_solver.py:53-85 | the coordinate list of a unit names its cells, each once, at position IndexInUnit |
| Solver.UnitNeedsKeys | Generator/sudoku_solver.py:218-233 | the digits needs keeps for a unit are those it lacks that at most one of its cells admits |
| Solver.UnitNeedsNoCell | Generator/sudoku_solver.py:234-237 | a digit left with no cell is admitted by no cell of the unit |
| Solver.UnitNeedsDead | Generator/sudoku_solver.py:234-237 | a digit the unit lacks and no cell admits stays in needs with no cell |
| Solver.UnitNeedsOneCell | Generator/sudoku_solver.py:238-241 | the cell a needed digit keeps lies in the unit, admits the digit and is the only cell that does |
| Solver.NeedNoCellUnsolvable | Generator/sudoku_solver.py:234-237 | UnsolvablePuzzle for a missing digit is raised only on a board with no solution |
| Solver.NeedOneCellSound | Generator/sudoku_solver.py:238-241 | the move made for a needed digit is forced in every solution |
| Solver.LateClashUnsolvable | Generator/sudoku_solver.py:242-245 | a cell filled earlier in the same unit pass that must take a second value means the board had no solution |
| Solver.PlacementOf | Generator/sudoku_solver.py:234-241 | the digit loop makes a move for v exactly when needs[v] holds a cell |
| Solver.PlacementsSpec | Generator/sudoku_solver.py:234-241 | the moves for digits below v are exactly the needed digits below v with a cell, in ascending order of digit |
| Solver.PlacementsSound | Generator/sudoku_solver.py:234-241 | every move of the digit loop is a hidden single of the board the needs came from |
| Solver.UnitPlacements | Generator/sudoku_solver.py:234-241 | when every needed digit has a cell, the moves are exactly those cells and the unit has no dead digit |
| Solver.MoveSet | Generator/sudoku_solver.py:665-666 | set(fake_additions) holds exactly the moves of the list |
| Solver.FewerEmpties | Generator/sudoku_solver.py:200-209 | filling cells never adds empty cells, and filling an empty one leaves strictly fewer |
| Solver.Progress | Generator/sudoku_solver.py:200-209 | a round of auto_fill that made a move leaves at least one empty cell fewer, so the loop ends |
| Solver.SinglesSound | Generator/sudoku_solver.py:347-356 | naked singles are moves every solution agrees with |
| Solver.SinglesSet | Generator/sudoku_solver.py:673-674 | a list holding exactly the naked singles has exactly the naked singles as its set |
| Solver.ScanFacts | Generator/sudoku_solver.py:656-678 | the must-fill moves are sound, the elimination moves are exactly the naked singles, and both together are sound |
| Solver.Pick | Generator/sudoku_solver.py:353 | set.pop() of a one-element set hands out its element |
| Solver.SinglesNaked | Generator/sudoku_solver.py:347-349 | one_choice holds exactly the naked singles, in ascending order of cell |
| Solver.Recorded | Generator/sudoku_solver.py:529-533 | only the current guess gains (x, y) among its cells; every guess keeps its cell, value and children |
| Solver.RecordedKeepsTree | Generator/sudoku_solver.py:529-533 | recording a consequence on a cell that is not a clue keeps the tree invariant |
| Solver.TreeAfterWithout | Generator/sudoku_solver.py:494-498 | dropping guesses from the GuessList and the trail keeps the tree invariant |
| Solver.ChildStep | Generator/sudoku_solver.py:490-495 | after child j is unwrapped and dropped, the state is the one expected after j + 1 children |
| Solver.UnwrapGlue | Generator/sudoku_solver.py:477-498 | the guess's own cells, then its children's subtrees, empties the whole subtree and drops it from the trail |
| Solver.FirstMinimum | Generator/sudoku_solver.py:415-417 | poss[0] after the sort: an entry with the fewest candidates, before every other such entry |
| Solver.OpenSquaresFacts | Generator/sudoku_solver.py:407-412 | the open-squares list is empty iff the board is complete, and no empty candidate set in it means no dead cell on the board |
| Solver.CompleteSolves | Generator/sudoku_solver.py:409-412 | a complete board free of duplicates that extends the puzzle is a solution of it |
| Solver.LeastSquare | Generator/sudoku_solver.py:407-419 | the square chosen is empty, its set is its candidates, it has the fewest candidates, and it is the first such square |
| Solver.WithGuess | Generator/sudoku_solver.py:443-445 | the new guess is appended with no children or consequences and becomes a child of the last crumb; every older guess keeps its cell and value |
| Solver.GuessKeepsTree | Generator/sudoku_solver.py:443-455 | a new guess on a non-clue empty cell, with a value not guessed there before, keeps the tree invariant |
| Solver.RootCleared | Generator/sudoku_solver.py:484-485 | after unwrapping a guess the board is not complete, so the search goes on |
| Solver.RowClues | Generator/sudoku_solver.py:690-691 | the clues of a row are at most its length, and equal to it iff no cell is empty |
| Solver.ClueCount | Generator/sudoku_solver.py:688-691 | the clue count is at most the cell count, and equal to it iff the board is complete |
| Solver.SudokuSolver.constructor | Generator/sudoku_solver.py:181-191 | an empty grid of side w * w, no guesses, no crumbs, no current guess, initialized set as __init__ leaves it, and (626-635) empty rater tallies at tier 0 |
| Solver.SudokuSolver.Load | Generator/sudoku_solver.py:184-189 | on success the board equals the given grid, virgin is that board and the solver is initialized; a ConflictError is raised exactly when the grid repeats a digit within a unit; the guess tree and the rater tallies are untouched |
| Solver.SudokuSolver.SolverAdd | Generator/sudoku_solver.py:529-533 | the move is recorded as a consequence of the current guess, then the board changes exactly as SudokuGrid.add without force |
| Solver.SudokuSolver.ScanUnit | Generator/sudoku_solver.py:217-233 | the needs dict built by scanning a unit's cells in order is NeedsOf of the board |
| Solver.SudokuSolver.Dispatch | Generator/sudoku_solver.py:637-655 | self.add of a forced move: outside rating mode it behaves exactly as SudokuGrid.add; success keeps the solutions and fills the cell, AlreadySetError only outside rating mode on an occupied cell with the board unchanged, any other error is a ConflictError on a board with no solution; in rating mode every changed cell was empty and took the value of a queued move or of the move, and on success all their cells are filled |
| Solver.SudokuSolver.AddIfEmpty | Generator/sudoku_solver.py:645-647 | a forced move added only to an empty cell keeps the solutions, or conflicts on an unsolvable board |
| Solver.SudokuSolver.QueuedStep | Generator/sudoku_solver.py:645-647 | one queued move, added when its cell is empty: the solutions are kept and the move's cell is filled, or a ConflictError on an unsolvable board; the only change is that move |
| Solver.SudokuSolver.AddQueued | Generator/sudoku_solver.py:643-647 | the queued sound moves, each added when its cell is empty, keep the solutions, or conflict on an unsolvable board; on success every queued move's cell is filled, and every cell that changed was empty and now holds the value of a queued move |
| Solver.SudokuSolver.RaterAdd | Generator/sudoku_solver.py:637-655 | scan, add the queue, add the move if its cell is empty: success keeps the solutions, fills the cell of the move and of every queued move and counts one more tier; every cell that changed was empty and now holds the value of a queued move or of the move; a ConflictError only on a board with no solution; the tier's tallies are those the scan computed |
| Solver.SudokuSolver.AddTiered | Generator/sudoku_solver.py:648-650 | the move is added when its cell is empty, changing nothing else; success keeps the solutions, fills the cell and raises the tier by one; a ConflictError only on an unsolvable board; queue and tallies untouched |
| Solver.SudokuSolver.ScanFillables | Generator/sudoku_solver.py:656-678 | the board is unchanged; the tier's elimination tally is the naked singles not already counted, the must-fill tally holds sound moves not already counted, and filled grows by both |
| Solver.SudokuSolver.RecordScan | Generator/sudoku_solver.py:665-677 | the tier's must-fill and elimination tallies become the new moves found, filled grows by both, and add_me_queue becomes both lists |
| Solver.SudokuSolver.DryMustFills | Generator/sudoku_solver.py:656-666 | every move fill_must_fills records in dry-run mode is forced in every solution |
| Solver.SudokuSolver.OneChoices | Generator/sudoku_solver.py:347-349 | the one_choice moves are exactly the naked singles, in ascending order of cell |
| Solver.SudokuSolver.FillUnit | Generator/sudoku_solver.py:217-245 | one unit: on success the solutions are unchanged, the moves made are sound, and the unit has no dead digit; UnsolvablePuzzle or ConflictError only on an unsolvable board |
| Solver.SudokuSolver.PlaceNeeds | Generator/sudoku_solver.py:234-245 | the moves made are exactly the placements of the needs, in digit order; errors only on an unsolvable board |
| Solver.SudokuSolver.PlaceDigit | Generator/sudoku_solver.py:234-245 | one digit: no move when it is not needed, UnsolvablePuzzle when it has no cell, else its one move |
| Solver.SudokuSolver.FillFamily | Generator/sudoku_solver.py:214-245 | all units of one family: success keeps the solutions and makes only sound moves; errors only on an unsolvable board |
| Solver.SudokuSolver.FillMustFills | Generator/sudoku_solver.py:212-246 | columns, rows, then boxes: the moves returned are sound and made, the solutions are unchanged, and an error means the board has no solution |
| Solver.SudokuSolver.FillDeterministically | Generator/sudoku_solver.py:347-360 | the moves returned are exactly the naked singles of the starting board, all made and sound; a conflict means no solution |
| Solver.SudokuSolver.AddSingle | Generator/sudoku_solver.py:353-356 | one naked single added: on success its cell is filled and the solutions are unchanged |
| Solver.SudokuSolver.AutoFill | Generator/sudoku_solver.py:194-210 | the board only gains cells and keeps exactly the same solutions; the moves returned are sound |
| Solver.SudokuSolver.ClearCell | Generator/sudoku_solver.py:484-485 | the cell is emptied if filled and no other cell changes |
| Solver.SudokuSolver.ClearNode | Generator/sudoku_solver.py:484-488 | the guess's cell and its consequence cells are emptied and nothing else changes |
| Solver.SudokuSolver.UnwrapGuess | Generator/sudoku_solver.py:477-498 | every cell of the guess's subtree is emptied and no other cell changes; the children's subtrees leave the GuessList, the guess itself stays in it, and the whole subtree leaves the trail |
| Solver.SudokuSolver.ClearConsequences | Generator/sudoku_solver.py:486-488 | the loop over the consequences: each cell of the guess and its consequences is emptied, and no other cell changes |
| Solver.SudokuSolver.UnwrapChildren | Generator/sudoku_solver.py:490-495 | the loop over the children empties their subtrees and drops them from both lists |
| Solver.SudokuSolver.UnwrapChild | Generator/sudoku_solver.py:493-495 | one child: its subtree is emptied and dropped from both lists |
| Solver.SudokuSolver.DropCrumb | Generator/sudoku_solver.py:497-498 | the trail loses exactly that guess |
| Solver.SudokuSolver.DropGuess | Generator/sudoku_solver.py:494-495 | the GuessList loses exactly that guess |
| Solver.SudokuSolver.MakeGuess | Generator/sudoku_solver.py:443-455 | the guess is hung under the last crumb, written to the board, made current and listed; it goes on the trail unless a crumb already sits on its cell (ValueError) |
| Solver.SudokuSolver.AddGuess | Generator/sudoku_solver.py:443-449 | the guess node is added and the board gets exactly the guessed value, with no current guess |
| Solver.SudokuSolver.CommitGuess | Generator/sudoku_solver.py:450-455 | the guess becomes current, joins the GuessList, and the trail becomes BreadcrumbAppend's result |
| Solver.SudokuSolver.HangGuess | Generator/sudoku_solver.py:443-448 | the arena becomes WithGuess of the old arena and there is no current guess |
| Solver.SudokuSolver.ListGuess | Generator/sudoku_solver.py:450-453 | the guess is current and appended to the GuessList |
| Solver.SudokuSolver.PushCrumb | Generator/sudoku_solver.py:455 | the trail becomes BreadcrumbAppend's result |
| Solver.SudokuSolver.GuessLeastOpenSquare | Generator/sudoku_solver.py:405-475 | True iff the board was complete, and then it is a solution of the puzzle; UnsolvablePuzzle only with an empty trail; a normal return leaves the newest guess current and no dead square |
| Solver.SudokuSolver.GuessOrBacktrack | Generator/sudoku_solver.py:419-426 | with untried values a guess is made, otherwise backtracking; the outcomes are those of guess_least_open_square |
| Solver.SudokuSolver.Backtrack | Generator/sudoku_solver.py:421-426 | backtraces grows and the last crumb is unwrapped before searching again |
| Solver.SudokuSolver.MarkGuessing | Generator/sudoku_solver.py:680-683 | the rater's guess_least_open_square sets guessing |
| Solver.SudokuSolver.PickSquare | Generator/sudoku_solver.py:407-419 | no square iff complete; otherwise an empty cell with the fewest candidates, the first such in list order, and its candidates minus the values guessed there |
| Solver.SudokuSolver.GuessAt | Generator/sudoku_solver.py:435-454 | a value not yet guessed at the square is guessed there; the trail's ValueError passes through; otherwise the outcome is FillAfterGuess's, never True |
| Solver.SudokuSolver.FillAfterGuess | Generator/sudoku_solver.py:455-475 | after auto_fill a ConflictError passes through; a dead square unwraps the guess and searches again; a normal return leaves the newest guess current and no open square without candidates; the puzzle, the flags and every guess so far are kept |
| Solver.SudokuSolver.Retry | Generator/sudoku_solver.py:473-474 | unwrap the guess and search again; the outcomes are those of guess_least_open_square |
| Solver.SudokuSolver.GuessUntilSolved | Generator/sudoku_solver.py:364-365 | success means the board is a solution of the puzzle; UnsolvablePuzzle only with an empty trail |
| Solver.SudokuSolver.Solve | Generator/sudoku_solver.py:362-368 | auto_fill, then the guessing loop: success sets solved and leaves a solution of the puzzle on the board |
| Solver.SudokuSolver.HasUniqueSolution | Generator/sudoku_solver.py:370-394 | on an answer a first solution was found and solved is set; True only when the trail is empty; False only with a solution on the board after resuming the search; errors only of the search's kinds, UnsolvablePuzzle with an empty trail |
| Solver.SudokuSolver.CountClues | Generator/sudoku_solver.py:688-691 | the clue count of difficulty is the number of filled cells of the puzzle as loaded |
| Solver.SudokuSolver.Difficulty | Generator/sudoku_solver.py:685-699 | solve unless solved; then the rating of the tallies, guesses and backtraces with squares_filled = N * N - clues |
| RectBoard.BoxIndexRange | Generator/sudoku.py:230 | the box number (row // height) * height + col // width of a board cell is below the size |
| RectBoard.BoxIndexSame | Generator/sudoku.py:230 | two cells get the same box number iff they share their band of rows and stack of columns |
| RectBoard.IsNeighbor | Generator/sudoku.py:91-98 | on the board: true iff the cells share a row, a column or a box |
| RectBoard.RepeatBreaks | Generator/sudoku.py:219-243 | two distinct neighbouring cells holding the same value break the no-repeat rule |
| RectBoard.Validate | Generator/sudoku.py:219-243 | True iff no filled value repeats within a row, a column or a box |
| RectBoard.ScanStart | Generator/sudoku.py:220-225 | all-False flag tables are exact for the empty prefix of the scan |
| RectBoard.ScanRow | Generator/sudoku.py:228-242 | a clash found in a row means a repeat; otherwise the flags are exact up to the next row |
| RectBoard.ScanCell | Generator/sudoku.py:229-242 | one cell: a clash means a repeat; otherwise the flags stay exact one cell further |
| RectBoard.Clash | Generator/sudoku.py:234-239 | a flag already set for the cell's value means an earlier neighbour holds it |
| RectBoard.MarkStep | Generator/sudoku.py:240-242 | setting the flag of a filled cell keeps the flags exact |
| RectBoard.SkipStep | Generator/sudoku.py:231-232 | skipping an empty cell keeps the flags exact |
| RectBoard.NoRepeatsStep | Generator/sudoku.py:234-242 | a cell whose value is flagged in none of its units repeats nothing scanned so far |
| RectBoard.AllScanned | Generator/sudoku.py:243 | no repeat among all scanned cells is no repeat at all |
| RectBoard.EmptyInRowMembers | Generator/sudoku.py:86-88 | the blanks listed for a row prefix are exactly its empty cells, left to right |
| RectBoard.EmptyRowsMembers | Generator/sudoku.py:85-88 | the blanks listed for the first k rows are exactly their empty cells, in row-major order |
| RectBoard.EmptyCells | Generator/sudoku.py:83-89 | __get_blanks lists exactly the empty cells, each once |
| RectSudoku.HeightOf | Generator/sudoku.py:174 | a zero (None) height means square boxes |
| RectSudoku.Cleaned | Generator/sudoku.py:192-194 | a cell stays iff it is in 1..size; otherwise it becomes empty |
| RectSudoku.NormaliseCells | Generator/sudoku.py:186-194 | every cell is cleaned, the shape is kept, and the blank count is the number of empty cells afterwards |
| RectSudoku.CleanRow | Generator/sudoku.py:190-194 | one row cleaned, with the count of its empty cells |
| RectSudoku.SeedBoard | Generator/sudoku.py:205-206 | the seed board is size by size |
| RectSudoku.SeedBoardValid | Generator/sudoku.py:201-206 | with positions a permutation, each row has one filled cell at column positions[j] holding positions[j] + 1, and the board has no repeats |
| RectSudoku.CleanedKeeps | Generator/sudoku.py:56 | cleaning a board whose cells are all in 1..size changes nothing, so the solution keeps its values |
| RectSudoku.NewSudoku | Generator/sudoku.py:172-206 | a given board is copied and cleaned; without a difficulty it gets blanks / size² if it validates and -2 otherwise; without a board it gets the seed board |
| RectSudoku.CopyBoard | Generator/sudoku.py:246-247 | _copy_board equals its input |
| RectSudoku.EmptyBoard | Generator/sudoku.py:251-252 | a size by size board of empty cells |
| RectSudoku.EmptyBoardValid | Generator/sudoku.py:250-253 | the empty board has blanks and no repeats |
| RectSudoku.Empty | Generator/sudoku.py:250-253 | Sudoku.empty: the given box shape, an empty board, difficulty 0 |
| RectSudoku.SolveFallbackAsWritten | Generator/sudoku.py:215-217 | the fallback as written has 3 x 3 boxes, difficulty -2 and an empty board of the puzzle's size, so its box shape fits its board only when width * height is 9 |
| RectSudoku.SolveFallback | Generator/sudoku.py:215-217 | the fallback with the puzzle's own box shape, an empty board that fits it, and difficulty -2 |
| RectSudoku.Chunks | Generator/sudoku.py:30-33 | every chunk has 1..n elements, all but the last exactly n, and there are ceil(len / n) of them |
| RectSudoku.ChunksConcat | Generator/sudoku.py:30-33 | the chunks put back together give the list |
| RectSearch.PlaceChosen | Generator/sudoku.py:124-135 | the chosen blank, set to an allowed value, becomes a filled blank that clashes with no neighbour |
| RectSearch.PlaceOther | Generator/sudoku.py:137-145 | every other blank keeps its state once the chosen value is cleared from its neighbours' allowed values |
| RectSearch.PlaceKeepsSearching | Generator/sudoku.py:124-145 | placing an allowed value and clearing it from the neighbours keeps the search invariant |
| RectSearch.KeepsAfterPlace | Generator/sudoku.py:146-150 | a solution found after a placement keeps the cells the board held before it |
| RectSearch.RestoreUndoesClear | Generator/sudoku.py:154-157 | setting back the flags recorded in revert_list gives exactly the allowed-value table from before the clearing |
| RectSearch.FreeByParts | Generator/sudoku.py:62-80 | the row, column and box loops together clear exactly the values held by another cell of the row, column or box |
| RectSearch.RectSolver.constructor | Generator/sudoku.py:40-44 | the solver takes the puzzle's width, height, size and board |
| RectSearch.RectSolver.GetBlanks | Generator/sudoku.py:83-89 | the blanks are the empty cells in row-major order |
| RectSearch.RectSolver.BlankFillers | Generator/sudoku.py:62-81 | a value stays allowed for the blank iff no other cell of its row, column or box holds it |
| RectSearch.RectSolver.BoxRowFillers | Generator/sudoku.py:73-80 | one row of the box loop clears the values held in that box row, other than by the cell itself |
| RectSearch.RectSolver.CalculateBlankCellFillers | Generator/sudoku.py:58-81 | fillers[r][c][v - 1] is false iff (r, c) is a blank and v is held by another cell of its row, column or box |
| RectSearch.RectSolver.ChooseBlank | Generator/sudoku.py:104-119 | dead iff some open blank has no allowed value; otherwise none chosen iff every blank is filled, else the first open blank with the fewest allowed values |
| RectSearch.RectSolver.ClearNeighbours | Generator/sudoku.py:137-145 | the chosen value is cleared from exactly the neighbouring blanks that allowed it, and revert_list marks exactly those |
| RectSearch.RectSolver.RestoreNeighbours | Generator/sudoku.py:154-157 | the flags marked in revert_list are set back to true and no other flag changes |
| RectSearch.RectSolver.TryNumber | Generator/sudoku.py:129-157 | a failed try restores the allowed-value table and filled flags and leaves only the tried value in the chosen cell, which the caller resets; a successful one leaves every blank filled, the search invariant, and the old cells kept |
| RectSearch.RectSolver.GetSolution | Generator/sudoku.py:101-166 | None when an open blank has no allowed value; the board as is when all are filled; on failure board, table and flags are exactly restored; on success every blank is filled with a value no neighbour holds and the clues are kept |
| RectSearch.RectSolver.StartSearch | Generator/sudoku.py:51-52 | the search starts on the given board, table and flags |
| RectSearch.RectSolver.SolveBlanks | Generator/sudoku.py:46-56 | a solution found keeps the box shape, has difficulty 0, completes the puzzle, and has no repeats when the puzzle has none |
| RectSearch.RectSolver.PrepareSearch | Generator/sudoku.py:47-52 | the blanks are exactly the empty cells, the board searched is a copy of the puzzle, and every blank's state is consistent: an unfilled blank is empty on the copy and every filler of it is a value free in its row, column and box |
| RectSearch.SearchStart | Generator/sudoku.py:47-52 | the state _solve starts from is a search state with every blank open |
| RectSearch.SearchEnd | Generator/sudoku.py:117-119 | a finished search completes the puzzle, without repeats when the puzzle has none |
| RectSearch.Solve | Generator/sudoku.py:208-217 | a solution returned comes from a valid puzzle, completes it and has no repeats; otherwise "No solution found" when raising, else an empty board with difficulty -2 and, as corrected, the puzzle's own width and height (see Findings and Left out) |
| Generator.Reflect | Generator/sudoku_maker.py:43-49 | (N-1-x, N-1-y); a coordinate is on the grid iff its reflection is |
| Generator.ReflectInvolution | Generator/sudoku_maker.py:43-49 | reflecting twice gives the coordinate back |
| Generator.ReflectFixedPoint | Generator/sudoku_maker.py:43-49 | the only fixed point is the centre cell, and only on an odd grid |
| Generator.Clues | Generator/sudoku_maker.py:80-87 | the puzzle has the shape of the start grid |
| Generator.CluesOfSolution | Generator/sudoku_maker.py:80-87 | the filled cells are exactly the chosen coordinates, each holding the start grid's value, and the start grid solves the puzzle |
| Generator.CluesAdd | Generator/sudoku_maker.py:84-85 | one more copied clue is the puzzle of one more coordinate |
| Generator.CoordsListed | Generator/sudoku_maker.py:13-17 | all_coords holds every coordinate of the grid, n * n distinct ones |
| Generator.CoordsDistinct | Generator/sudoku_maker.py:13-17 | all_coords has no repeats |
| Generator.HalfTruncated | Generator/sudoku_maker.py:52-54 | int(clues / 2) truncates toward zero: 2k is clues or clues - 1 for clues >= 0, clues or clues + 1 below zero; k is negative iff clues <= -2 |
| Generator.Mean | Generator/sudoku_maker.py:32-35 | None iff there are no values; otherwise mean * count = sum |
| Generator.MeanBetween | Generator/sudoku_maker.py:32-35 | the mean lies between any lower and upper bound of the values |
| Generator.RatingValues | Generator/sudoku_maker.py:33 | the difficulties list holds each rated puzzle's value, in rating order |
| Generator.GenerateGrid | Generator/sudoku_maker.py:37-41 | a grid returned is a solution of the empty puzzle |
| Generator.NewGenerator | Generator/sudoku_maker.py:10-26 | a generator with a solved start grid, the coordinate list, and empty generated, puzzles and rated lists; an error is the solver's |
| Generator.SampleSet | Generator/sudoku_maker.py:54 | a ValueError iff k is negative or above the population size; otherwise k distinct members of the population |
| Generator.SudokuGenerator.constructor | Generator/sudoku_maker.py:10-26 | all_coords lists the grid's coordinates; the start grid is the solved grid; the lists start empty |
| Generator.SudokuGenerator.CoordPool | Generator/sudoku_maker.py:64 | set(all_coords) is every coordinate of the grid, n * n of them |
| Generator.SudokuGenerator.MakePuzzleFromCoords | Generator/sudoku_maker.py:80-87 | the new grid holds the start grid's value at each coordinate and nothing elsewhere; generated and puzzles each gain one entry |
| Generator.SudokuGenerator.EmptyPuzzle | Generator/sudoku_maker.py:81-82 | a fresh empty grid of the generator's size |
| Generator.SudokuGenerator.CopyClues | Generator/sudoku_maker.py:84-85 | after the loop the grid holds exactly the clues of the coordinates, in any order of the set |
| Generator.SudokuGenerator.AddClue | Generator/sudoku_maker.py:85 | adding the start grid's value at a new coordinate never raises |
| Generator.SudokuGenerator.MakeSymmetricPuzzle | Generator/sudoku_maker.py:51-72 | a ValueError iff clues <= -2 or clues > n * n; otherwise a set closed under reflect, on the grid, with at least clues coordinates, turned into a puzzle |
| Generator.SudokuGenerator.SymmetricCoords | Generator/sudoku_maker.py:52-71 | the same error condition; otherwise a symmetric coordinate set with at least clues members |
| Generator.SudokuGenerator.ReflectionClosure | Generator/sudoku_maker.py:57-63 | the draw united with its reflections: symmetric, on the grid, and nothing beyond the draw and its reflections |
| Generator.SudokuGenerator.MakePuzzle | Generator/sudoku_maker.py:74-78 | a ValueError iff clues is negative or above n * n; otherwise a puzzle of exactly clues coordinates |
| Generator.SudokuGenerator.AssessDifficulty | Generator/sudoku_maker.py:148-166 | a rating is appended with its grid, its squares_filled the empty cells of the grid; an error appends nothing |
| Generator.SudokuGenerator.NewRater | Generator/sudoku_maker.py:151-152 | a fresh rater whose loaded puzzle is the grid; a SolverError holding a ConflictError exactly when the grid repeats a digit within a unit |
| Generator.SudokuGenerator.IsUnique | Generator/sudoku_maker.py:168-177 | an answer means the grid has a solution; None comes exactly when has_unique_solution answers False, and then the resumed search holds a second completed solution of the grid; a rating returned counts the grid's empty cells |
| Generator.RateIfUnique | Generator/sudoku_maker.py:174-177 | with the rater loaded: None exactly when has_unique_solution answers False, with a second completed solution found; otherwise the rating, whose squares_filled is the grid's empty-cell count |
| Generator.SudokuGenerator.NextUnique | Generator/sudoku_maker.py:207-218 | at most tries puzzles are made, each recorded with its coordinates; a puzzle yielded is the newest one, built from the last draw (symmetric when asked), solvable, with squares_filled its empty-cell count |
| Generator.SudokuGenerator.UniqueAttempt | Generator/sudoku_maker.py:210-218 | one puzzle made and recorded; with a rating it is the newest one, built from the last draw (symmetric when asked), solvable, with squares_filled its empty-cell count |
| Generator.SudokuGenerator.GeneratePuzzleForDifficulty | Generator/sudoku_maker.py:179-196 | at most max_tries ratings; a puzzle returned has lower < value < upper (a 0 bound disabled), is the last one rated and every rating before it in this call misses the band, so it is the first candidate in the band; None only after max_tries ratings, all outside the band |
| Generator.SudokuGenerator.RatedAttempt | Generator/sudoku_maker.py:188-190 | one puzzle made and rated, the rating appended with it |
| Generator.SudokuGenerator.AverageDifficulty | Generator/sudoku_maker.py:32-35 | None iff nothing is rated; otherwise average * count = sum of the rated values |

## Left out

- Presentation and I/O: PDF layout (`draw_board`, `position_numbers`, `generate_pdf`, `generate_four_pdf`, `generate_pdf2`, `Generator/printpuzzles.py`), font registration, `main.py` and `conf.py`, printing, `pretty_print`, `__repr__`, `__str__`, `show`, `show_full`, the ASCII formatter, the verbose flag and the `trail` log list.
- The pseudo-random generator itself: every draw is a nondeterministic choice.
- `make_puzzle_by_boxes`, `Sudoku.difficulty`, `generate_puzzles_by_difficulty` and `make_puzzles`: their clue counts come from float rounding and truncation, which is not modelled.
- `make_unique_puzzles`, `generate_puzzles`, `get_board_sizes`, `show_difficulty`, `puzzlenum` and `InterruptibleSudokuGenerator`: thin wrappers or constant getters with no logic beyond the members modelled.
- `find_all_solutions`, `fill_must_fills_2`, `fill_must_fills_old`, `scan_must_fills`, `print_possibilities`, `pad`, `GuessList.remove_children` and `GuessList.remove_guesses_for_coord`: code no modelled operation calls.
- The `start_grid` argument of `SudokuGenerator.__init__` (sudoku_maker.py:18-19): that branch names an undefined variable `grid` and cannot run; only the branch that generates a start grid is modelled.
- The retry loop of `make_puzzle` (sudoku_maker.py:76-77): it compares a list with a list of sets, so it never retries.
- numpy `int8` storage of the grid: cells are unbounded integers; every value stored is 0..N under the model's requires (Add takes 1..N, PopulateFromGrid takes 0..N), which every call site in the model meets, so no wrap-around arises for N <= 127; a caller of the source passing a larger value would wrap, and that is not modelled.
- `SudokuGrid` boxes are square (`int(math.sqrt(group_size))`): the model takes group_size = w * w.
- `random.sample` on a set (sudoku_maker.py:66) raises a TypeError from Python 3.11 on; the model follows older Pythons, which draw from the set.
- The order in which a Python set or dict is walked is a nondeterministic choice (make_puzzle_from_coords) or ascending order where the rules do not depend on it.
- `Solver.SudokuSolver.GuessUntilSolved`: at most fuel rounds of `guess_least_open_square`, each with at most fuel nested retries; running out is the `OutOfFuel` error, which the source cannot raise.
- `Solver.SudokuSolver.GuessLeastOpenSquare`: UnsolvablePuzzle is proved to come only with an empty trail, not to mean that the puzzle has no solution (completeness of the guess tree is not proved).
- `Solver.SudokuSolver.HasUniqueSolution`: True is proved to come only with an empty trail; that the puzzle then has exactly one solution is not proved.
- `Generator.SudokuGenerator.IsUnique`: a rating returned is not proved to mean the puzzle has exactly one solution, for the same reason; and for None, the second completed solution the resumed search finds is not proved to differ from the first.
- `Generator.SudokuGenerator.NextUnique`: `unique_generator` loops forever; here it gives up after the given number of tries.
- `Solver.SudokuSolver.ScanFillables`: the must-fill tally of a tier is proved to hold only sound moves not counted before; it is not stated as exactly the moves fill_must_fills would make, because the dry run stops at the first UnsolvablePuzzle.
- `Solver.SudokuSolver.DryMustFills`: states only that every recorded move is sound, not which moves are recorded.
- `RectSearch.RectSolver.GetSolution`: a failed search (None) is not proved to mean the puzzle has no solution.
- `RectSearch.Solve`: the fallback returns the corrected `RectSudoku.SolveFallback`, which keeps the puzzle's width and height; the code as written (sudoku.py:217) gives 3 x 3 boxes, which `RectSudoku.SolveFallbackAsWritten` models (see Findings).
- `RectSearch.Solve`: the fallback is not proved to mean the puzzle has no solution, for the same reason.
- `GridText.Split`: splits only at the ASCII whitespace characters space, tab, newline, carriage return, vertical tab and form feed; `\s` on a Python str also matches Unicode whitespace such as U+00A0 and U+2003, which the model keeps inside a token.
- `GridText.ParseInt`: accepts only an optional sign followed by ASCII digits; Python's int() also accepts `_` between digits (`"1_0"` is 10) and any Unicode decimal digit (`"\u0663"` is 3), which the model rejects as a ValueError.
- The search in `__get_solution` is recursive in the source and here; `blank_fillers` and the board are sequences reassigned in place rather than aliased Python lists, so aliasing between the caller's board and the copy is not modelled (the source always passes a fresh copy).

## Findings

| source | as written | input that shows it | evidently intended | confidence | as-written member | corrected member |
|---|---|---|---|---|---|---|
| Generator/sudoku.py:215-217 | the fallback of `solve` calls `Sudoku(board=..., difficulty=-2)` without width and height, so it gets the default 3 x 3 boxes whatever the puzzle's shape | a puzzle with 2 x 2 boxes (a 4 x 4 board) that fails `validate`, e.g. two 1s in its first row: the result claims 3 x 3 boxes (size 9) but holds a 4 x 4 board | the fallback keeps the puzzle's own width and height | not executed | RectSudoku.SolveFallbackAsWritten | RectSudoku.SolveFallback |

=== FILE: generator.dfy ===
/**
 * SudokuGenerator of Generator/sudoku_maker.py: it copies clues from a solved
 * start grid at coordinates drawn at random, keeps the puzzles a rater finds
 * a unique solution for, and searches for a puzzle whose rating falls in a
 * band.
 *
 * Every random draw (random.sample, and the order in which a set is walked)
 * is a nondeterministic choice here, so each property holds for every
 * outcome of the draw.  The lists the generator appends to are the fields
 * generated, puzzles and ratedPuzzles.
 */
module Generator {
  import opened Wrappers
  import opened SquareBoard
  import opened ConstraintGrid
  import opened Solver
  import opened Rating

  /**
   * What the generator raises besides the solver's errors: the ValueError
   * of random.sample asked for more elements than the population has, or
   * for a negative number of them.
   */
  datatype MakerError = SampleError | SolverError(e: SudokuError)

  /** The all-empty n by n board. */
  function Zeros(n: int): (b: Board)
    ensures n >= 0 ==> |b| == n && forall y :: 0 <= y < n ==> |b[y]| == n && forall x :: 0 <= x < n ==> b[y][x] == 0
  {
    seq(if n >= 0 then n else 0, _ => seq(if n >= 0 then n else 0, _ => 0))
  }

  /** A board of the right shape whose cells are all empty is Zeros. */
  lemma ZerosOf(b: Board, w: int)
    requires Shape(b, w) && forall y, x :: InRange(w, x, y) ==> b[y][x] == 0
    ensures b == Zeros(w * w)
  {
    forall y | 0 <= y < w * w
      ensures b[y] == Zeros(w * w)[y]
    {
    }
  }

  /** Two boards of the same shape that agree on every cell are equal. */
  lemma SameCells(a: Board, b: Board, w: int)
    requires Shape(a, w) && Shape(b, w) && forall y, x :: InRange(w, x, y) ==> a[y][x] == b[y][x]
    ensures a == b
  {
    forall y | 0 <= y < w * w
      ensures a[y] == b[y]
    {
    }
  }

  /** Every (x, y) of an n by n grid. */
  function CoordSet(n: int): set<Coord> {
    set x, y | 0 <= x < n && 0 <= y < n :: (x, y)
  }

  /**
   * reflect(x, y): the point reflection through the centre of the grid, a
   * half turn rather than the mirror along the diagonal its comment names.
   */
  function Reflect(n: int, c: Coord): (r: Coord)
    ensures c in CoordSet(n) <==> r in CoordSet(n)
  {
    var upper := n - 1;
    var (x, y) := (upper - c.1, upper - c.0);
    (y, x)
  }

  /** Reflecting twice gives the coordinate back. */
  lemma ReflectInvolution(n: int, c: Coord)
    ensures Reflect(n, Reflect(n, c)) == c
  {
  }

  /** The only coordinate reflect keeps in place is the centre cell, and only on an odd grid. */
  lemma ReflectFixedPoint(n: int, c: Coord)
    ensures Reflect(n, c) == c <==> 2 * c.0 == n - 1 && 2 * c.1 == n - 1
  {
  }

  /** A coordinate set that holds the reflection of each of its members. */
  predicate Symmetric(n: int, s: set<Coord>) {
    forall c :: c in s ==> Reflect(n, c) in s
  }

  /** The puzzle holding s's value at each coordinate of cs and nothing elsewhere. */
  function Clues(s: Board, cs: set<Coord>): (b: Board)
    ensures |b| == |s| && forall y :: 0 <= y < |s| ==> |b[y]| == |s[y]|
  {
    seq(|s|, y requires 0 <= y < |s| => seq(|s[y]|, x requires 0 <= x < |s[y]| => if (x, y) in cs then s[y][x] else 0))
  }

  /**
   * The puzzle made from a solved grid has exactly the chosen cells filled,
   * each with the grid's value, and the grid is one of its solutions.
   */
  lemma CluesOfSolution(s: Board, w: int, cs: set<Coord>)
    requires IsSolution(s, Zeros(w * w), w)
    ensures forall y, x :: InRange(w, x, y) ==>
      (Clues(s, cs)[y][x] != 0 <==> (x, y) in cs) && (Clues(s, cs)[y][x] != 0 ==> Clues(s, cs)[y][x] == s[y][x])
    ensures IsSolution(s, Clues(s, cs), w)
  {
  }

  /** One more clue copied from the solved grid. */
  lemma CluesAdd(s: Board, cs: set<Coord>, x: int, y: int)
    requires 0 <= y < |s| && 0 <= x < |s[y]|
    ensures Place(Clues(s, cs), x, y, s[y][x]) == Clues(s, cs + {(x, y)})
  {
    var a, b := Place(Clues(s, cs), x, y, s[y][x]), Clues(s, cs + {(x, y)});
    forall r | 0 <= r < |s|
      ensures a[r] == b[r]
    {
    }
  }

  /** A sequence without repeats has as many distinct elements as entries. */
  lemma {:induction false} DistinctCard<T>(s: seq<T>)
    requires forall i, j :: 0 <= i < j < |s| ==> s[i] != s[j]
    ensures |set e | e in s| == |s|
  {
    if s != [] {
      var init := s[..|s| - 1];
      DistinctCard(init);
      assert (set e | e in s) == (set e | e in init) + {s[|s| - 1]};
    }
  }

  /** A set has a subset of every size up to its own: random.sample can draw k of them. */
  lemma {:induction false} SubsetOfSize<T>(s: set<T>, k: nat)
    requires k <= |s|
    ensures exists t :: t <= s && |t| == k
  {
    if k > 0 {
      var e :| e in s;
      SubsetOfSize(s - {e}, k - 1);
      var t :| t <= s - {e} && |t| == k - 1;
      var t' := t + {e};
      assert e !in t;
      assert |t'| == |t| + 1;
      assert t' <= s && |t'| == k;
    } else {
      var t: set<T> := {};
      assert t <= s && |t| == k;
    }
  }

  /** all_coords lists every coordinate of the grid once, x-major. */
  predicate CoordList(cs: seq<Coord>, n: int) {
    n >= 1 && |cs| == n * n && forall i :: 0 <= i < n * n ==> cs[i] == (i / n, i % n)
  }

  /** The entries of all_coords are distinct and are the coordinates of the grid, n * n of them. */
  lemma CoordsListed(cs: seq<Coord>, n: int)
    requires CoordList(cs, n)
    ensures (set c | c in cs) == CoordSet(n) && |CoordSet(n)| == n * n
  {
    CoordsDistinct(cs, n);
    forall c | c in CoordSet(n)
      ensures c in cs
    {
      ProductBound(n, c.0, c.1);
      DivModOf(n, c.0, c.1);
      assert cs[c.0 * n + c.1] == c;
    }
    forall c | c in cs
      ensures c in CoordSet(n)
    {
      var i :| 0 <= i < |cs| && cs[i] == c;
      Decompose(n, i);
    }
    DistinctCard(cs);
  }

  /** all_coords has no repeats. */
  lemma CoordsDistinct(cs: seq<Coord>, n: int)
    requires CoordList(cs, n)
    ensures forall i, j :: 0 <= i < j < |cs| ==> cs[i] != cs[j]
  {
    forall i, j | 0 <= i < j < |cs|
      ensures cs[i] != cs[j]
    {
      Decompose(n, i);
      Decompose(n, j);
    }
  }

  /**
   * random.sample's population check: k elements of a population of size
   * `size` can be drawn exactly when 0 <= k <= size.
   */
  predicate CanSample(k: int, size: int) {
    0 <= k <= size
  }

  /** int(clues / 2): true division, then truncation toward zero. */
  function HalfTruncated(clues: int): (k: int)
    ensures clues >= 0 ==> 0 <= clues - 2 * k <= 1
    ensures clues < 0 ==> 0 <= 2 * k - clues <= 1
    ensures k < 0 <==> clues <= -2
  {
    if clues >= 0 then clues / 2 else -((-clues) / 2)
  }

  /** A rating passes the band test of generate_puzzle_for_difficulty; a zero bound is switched off. */
  predicate InBand(lower: real, upper: real, v: real) {
    (lower == 0.0 || v > lower) && (upper == 0.0 || v < upper)
  }

  /** sum(values) */
  function RealSum(values: seq<real>): real {
    if values == [] then 0.0 else RealSum(values[..|values| - 1]) + values[|values| - 1]
  }

  /** The arithmetic mean, or None (a Python function falling off its end) for no values. */
  function Mean(values: seq<real>): (r: Option<real>)
    ensures r.None? <==> values == []
    ensures r.Some? ==> r.value * (|values| as real) == RealSum(values)
  {
    if values == [] then None else Some(RealSum(values) / (|values| as real))
  }

  /** A sum of values between lo and hi lies between |values| * lo and |values| * hi. */
  lemma {:induction false} SumBounds(values: seq<real>, lo: real, hi: real)
    requires forall i :: 0 <= i < |values| ==> lo <= values[i] <= hi
    ensures (|values| as real) * lo <= RealSum(values) <= (|values| as real) * hi
  {
    if values != [] {
      SumBounds(values[..|values| - 1], lo, hi);
    }
  }

  /** The mean of values between lo and hi lies between lo and hi. */
  lemma MeanBetween(values: seq<real>, lo: real, hi: real)
    requires values != [] && forall i :: 0 <= i < |values| ==> lo <= values[i] <= hi
    ensures lo <= Mean(values).value <= hi
  {
    SumBounds(values, lo, hi);
    var k := |values| as real;
    var m := Mean(values).value;
    assert m == RealSum(values) / k;
    assert lo == (lo * k) / k && hi == (hi * k) / k;
  }

  /** The value of each rated puzzle, in rating order: the difficulties list. */
  function RatingValues(rated: seq<(Board, DifficultyRating)>): (vs: seq<real>)
    ensures |vs| == |rated| && forall i :: 0 <= i < |rated| ==> vs[i] == rated[i].1.value
  {
    seq(|rated|, i requires 0 <= i < |rated| => rated[i].1.value)
  }

  /**
   * generate_grid: solve an empty grid with a plain solver.  A solution
   * found is a full valid grid; the solver's errors pass through.
   */
  method GenerateGrid(w: int, fuel: nat) returns (r: Result<Board, SudokuError>)
    requires w >= 1
    ensures r.Ok? ==> IsSolution(r.value, Zeros(w * w), w)
    ensures r.Err? ==> r.error == Unsolvable || r.error == OutOfFuel || r.error.Conflict? || r.error.CrumbExists?
  {
    var solver := new SudokuSolver(w, false);
    VirginEmpty(solver.virgin, solver.g.board, w);
    var e := solver.Solve(fuel);
    if e.Err? {
      return Err(e.error);
    }
    var b := solver.g.Snapshot();
    return Ok(b);
  }

  /** A puzzle as loaded that an empty board extends is itself empty. */
  lemma VirginEmpty(virgin: Board, b: Board, w: int)
    requires Shape(virgin, w) && Shape(b, w) && Extends(b, virgin)
    requires forall y, x :: InRange(w, x, y) ==> b[y][x] == 0
    ensures virgin == Zeros(w * w)
  {
    forall y, x | InRange(w, x, y)
      ensures virgin[y][x] == 0
    {
    }
    ZerosOf(virgin, w);
  }

  /**
   * SudokuGenerator(start_grid=None, clues, group_size=w*w): generate the
   * start grid, trying a second time when the first attempt raises.
   */
  method NewGenerator(clues: int, w: int, fuel: nat) returns (r: Result<SudokuGenerator, MakerError>)
    requires w >= 1
    ensures r.Ok? ==> fresh(r.value) && r.value.Ready() && r.value.clues == clues && r.value.w == w
    ensures r.Ok? ==> r.value.generated == [] && r.value.puzzles == [] && r.value.ratedPuzzles == []
    ensures r.Err? ==> r.error.SolverError?
  {
    var grid := GenerateGrid(w, fuel);
    if grid.Err? {
      grid := GenerateGrid(w, fuel);
    }
    if grid.Err? {
      return Err(SolverError(grid.error));
    }
    var g := new SudokuGenerator(grid.value, clues, w, fuel);
    return Ok(g);
  }

  /**
   * random.sample(population, k) as a set: any k distinct members, or the
   * ValueError when k is negative or exceeds the population.
   */
  method SampleSet<T>(population: set<T>, k: int) returns (r: Result<set<T>, MakerError>)
    ensures r.Err? <==> !CanSample(k, |population|)
    ensures r.Err? ==> r.error == SampleError
    ensures r.Ok? ==> r.value <= population && |r.value| == k
  {
    if !CanSample(k, |population|) {
      return Err(SampleError);
    }
    SubsetOfSize(population, k);
    var draw :| draw <= population && |draw| == k;
    return Ok(draw);
  }

  class SudokuGenerator {
    /** group_size */
    const n: int
    /** the width of a box: group_size is w * w */
    const w: int
    const clues: int
    /** all_coords: every (x, y), x-major */
    const allCoords: seq<Coord>
    /** start_grid: the solved grid the clues are copied from */
    const startGrid: Board
    /** the bound on every solver's search loops, which the source leaves unbounded */
    const fuel: nat
    /** generated: the coordinate set of every puzzle made */
    var generated: seq<set<Coord>>
    /** puzzles: every puzzle made */
    var puzzles: seq<SudokuGrid>
    /** rated_puzzles: every (grid, rating) assess_difficulty returned */
    var ratedPuzzles: seq<(Board, DifficultyRating)>

    /** What __init__ establishes: the coordinate list and a solved start grid. */
    ghost predicate Ready() {
      w >= 1 && n == w * w && CoordList(allCoords, n) && IsSolution(startGrid, Zeros(n), w)
    }

    /** __init__ with a start grid already solved (by generate_grid). */
    constructor(start: Board, clues: int, w: int, fuel: nat)
      requires w >= 1 && IsSolution(start, Zeros(w * w), w)
      ensures Ready() && this.clues == clues && this.w == w && startGrid == start && this.fuel == fuel
      ensures generated == [] && puzzles == [] && ratedPuzzles == []
    {
      generated := [];
      this.clues := clues;
      var n := w * w;
      var coords: seq<Coord> := [];
      for x := 0 to n
        invariant |coords| == x * n && forall i :: 0 <= i < x * n ==> coords[i] == (i / n, i % n)
      {
        for y := 0 to n
          invariant |coords| == x * n + y && forall i :: 0 <= i < x * n + y ==> coords[i] == (i / n, i % n)
        {
          DivModOf(n, x, y);
          coords := coords + [(x, y)];
        }
        Distrib(x + 1, 1, n);
      }
      allCoords := coords;
      this.n := n;
      this.w := w;
      startGrid := start;
      this.fuel := fuel;
      puzzles := [];
      ratedPuzzles := [];
    }

    /** set(self.all_coords): every coordinate of the grid, n * n of them. */
    method CoordPool() returns (pool: set<Coord>)
      requires Ready()
      ensures pool == CoordSet(n) && |pool| == n * n
    {
      pool := set c | c in allCoords;
      CoordsListed(allCoords, n);
    }

    /**
     * make_puzzle_from_coords: a new grid with the start grid's value added
     * at each coordinate, in any order; the set goes to generated and the
     * grid to puzzles.
     */
    method MakePuzzleFromCoords(buckshot: set<Coord>) returns (p: SudokuGrid)
      requires Ready() && buckshot <= CoordSet(n)
      modifies this`generated, this`puzzles
      ensures fresh(p) && fresh(p.cells) && p.Valid() && p.w == w
      ensures p.board == Clues(startGrid, buckshot)
      ensures generated == old(generated) + [buckshot] && puzzles == old(puzzles) + [p]
    {
      p := EmptyPuzzle();
      generated := generated + [buckshot];
      CopyClues(p, buckshot);
      puzzles := puzzles + [p];
    }

    /** SudokuGrid(group_size=n): a grid with no clue yet. */
    method EmptyPuzzle() returns (p: SudokuGrid)
      requires Ready()
      ensures fresh(p) && fresh(p.cells) && Holding(p, {})
    {
      p := new SudokuGrid(w);
      ZerosOf(p.board, w);
      SameCells(p.board, Clues(startGrid, {}), w);
    }

    /** The loop of make_puzzle_from_coords: the start grid's value added at each coordinate, in any order. */
    method CopyClues(p: SudokuGrid, buckshot: set<Coord>)
      requires Ready() && buckshot <= CoordSet(n) && Holding(p, {})
      modifies p, p.cells
      ensures Holding(p, buckshot)
    {
      var rest := buckshot;
      assert buckshot - rest == {};
      while rest != {}
        invariant rest <= buckshot && Holding(p, buckshot - rest)
        decreases |rest|
      {
        var c :| c in rest;
        var (x, y) := c;
        AddClue(p, buckshot - rest, x, y);
        assert buckshot - (rest - {c}) == (buckshot - rest) + {c};
        rest := rest - {c};
      }
      assert buckshot - rest == buckshot;
    }

    /** Grid p holds the start grid's values at the coordinates done and nothing else. */
    ghost predicate Holding(p: SudokuGrid, done: set<Coord>)
      reads p, p.cells
    {
      p.Valid() && p.w == w && p.board == Clues(startGrid, done)
    }

    /** new_puzzle.add(x, y, start_grid._get_(x, y)) on a cell not yet copied: it never raises. */
    method AddClue(p: SudokuGrid, done: set<Coord>, x: int, y: int)
      requires Ready() && Holding(p, done) && InRange(w, x, y) && (x, y) !in done
      modifies p, p.cells
      ensures Holding(p, done + {(x, y)})
    {
      CluesOfSolution(startGrid, w, done);
      SolutionValueIsCandidate(startGrid, p.board, w, x, y);
      AddCandidateSucceeds(p.board, w, x, y, startGrid[y][x]);
      CluesAdd(startGrid, done, x, y);
      var e := p.Add(x, y, startGrid[y][x], false);
    }

    /**
     * make_symmetric_puzzle: int(clues / 2) coordinates drawn at random, all
     * their reflections added, then single draws from the coordinates not
     * yet chosen, each with its reflection, until there are at least clues
     * of them.  random.sample raises when the first draw is negative or too
     * large, and when a draw is made from nothing.
     */
    method MakeSymmetricPuzzle() returns (r: Result<SudokuGrid, MakerError>, buckshot: set<Coord>)
      requires Ready()
      modifies this`generated, this`puzzles
      ensures r.Err? <==> clues <= -2 || clues > n * n
      ensures r.Err? ==> r.error == SampleError && generated == old(generated) && puzzles == old(puzzles)
      ensures r.Ok? ==> Symmetric(n, buckshot) && buckshot <= CoordSet(n) && |buckshot| >= clues
      ensures r.Ok? ==> fresh(r.value) && r.value.Valid() && r.value.w == w && r.value.board == Clues(startGrid, buckshot)
      ensures r.Ok? ==> generated == old(generated) + [buckshot] && puzzles == old(puzzles) + [r.value]
    {
      var coords := SymmetricCoords();
      if coords.Err? {
        return Err(coords.error), {};
      }
      buckshot := coords.value;
      var p := MakePuzzleFromCoords(buckshot);
      return Ok(p), buckshot;
    }

    /** The coordinate draws of make_symmetric_puzzle. */
    method SymmetricCoords() returns (r: Result<set<Coord>, MakerError>)
      requires Ready()
      ensures r.Err? <==> clues <= -2 || clues > n * n
      ensures r.Err? ==> r.error == SampleError
      ensures r.Ok? ==> Symmetric(n, r.value) && r.value <= CoordSet(n) && |r.value| >= clues
    {
      var pool := CoordPool();
      var first := SampleSet(pool, HalfTruncated(clues));
      if first.Err? {
        return Err(SampleError);
      }
      var buckshot := ReflectionClosure(first.value);
      var remaining := pool - buckshot;
      while |buckshot| < clues
        invariant buckshot <= pool && Symmetric(n, buckshot) && remaining == pool - buckshot
        decreases |remaining|
      {
        if remaining == {} {
          assert buckshot == pool;
          return Err(SampleError);
        }
        var coord :| coord in remaining;
        ReflectInvolution(n, coord);
        buckshot := buckshot + {coord, Reflect(n, coord)};
        remaining := remaining - buckshot;
      }
      SubsetCard(buckshot, pool);
      return Ok(buckshot);
    }

    /** buckshot | {reflect(c) for c in buckshot}: the smallest symmetric set holding the draw. */
    method ReflectionClosure(first: set<Coord>) returns (s: set<Coord>)
      requires Ready() && first <= CoordSet(n)
      ensures first <= s <= CoordSet(n) && Symmetric(n, s)
      ensures forall c :: c in s ==> c in first || Reflect(n, c) in first
    {
      var reflections := set c | c in first :: Reflect(n, c);
      s := first + reflections;
      forall c | c in s
        ensures Reflect(n, c) in s && (c in first || Reflect(n, c) in first)
      {
        ReflectInvolution(n, c);
      }
    }

    /**
     * make_puzzle: clues coordinates drawn at random.  The retry loop that
     * follows the draw never runs, as a list is never equal to the sets
     * generated holds.
     */
    method MakePuzzle() returns (r: Result<SudokuGrid, MakerError>, buckshot: set<Coord>)
      requires Ready()
      modifies this`generated, this`puzzles
      ensures r.Err? <==> !CanSample(clues, n * n)
      ensures r.Err? ==> r.error == SampleError && generated == old(generated) && puzzles == old(puzzles)
      ensures r.Ok? ==> buckshot <= CoordSet(n) && |buckshot| == clues
      ensures r.Ok? ==> fresh(r.value) && r.value.Valid() && r.value.w == w && r.value.board == Clues(startGrid, buckshot)
      ensures r.Ok? ==> generated == old(generated) + [buckshot] && puzzles == old(puzzles) + [r.value]
    {
      var pool := CoordPool();
      var draw := SampleSet(pool, clues);
      if draw.Err? {
        return Err(SampleError), {};
      }
      buckshot := draw.value;
      var p := MakePuzzleFromCoords(buckshot);
      return Ok(p), buckshot;
    }

    /**
     * assess_difficulty: rate the grid with a new rater and record the grid
     * with its rating; every error is passed on and records nothing.
     */
    method AssessDifficulty(grid: Board) returns (r: Result<DifficultyRating, MakerError>)
      requires Ready() && Shape(grid, w) && InDigits(grid, n)
      modifies this`ratedPuzzles
      ensures r.Ok? ==> ratedPuzzles == old(ratedPuzzles) + [(grid, r.value)]
      ensures r.Ok? ==> r.value.squaresFilled == n * n - ClueCount(grid)
      ensures r.Err? ==> ratedPuzzles == old(ratedPuzzles) && r.error.SolverError?
    {
      var rater := NewRater(grid);
      if rater.Err? {
        return Err(rater.error);
      }
      var solver := rater.value;
      var d := solver.Difficulty(fuel);
      if d.Err? {
        return Err(SolverError(d.error));
      }
      ratedPuzzles := ratedPuzzles + [(grid, d.value)];
      return Ok(d.value);
    }

    /** SudokuRater(grid, group_size=n): a rater loaded with the grid, whose loaded puzzle is the grid. */
    method NewRater(grid: Board) returns (r: Result<SudokuSolver, MakerError>)
      requires Ready() && Shape(grid, w) && InDigits(grid, n)
      ensures r.Ok? ==> fresh(r.value) && fresh(r.value.g) && fresh(r.value.g.cells)
      ensures r.Ok? ==> r.value.Valid() && r.value.rating && r.value.g.w == w && r.value.virgin == grid
      ensures r.Err? <==> Repeats(grid, w)
      ensures r.Err? ==> r.error.SolverError? && r.error.e.Conflict?
    {
      var solver := new SudokuSolver(w, true);
      var e := solver.Load(grid);
      if e.Some? {
        return Err(SolverError(e.value));
      }
      forall y, x | InRange(w, x, y)
        ensures solver.g.board[y][x] == grid[y][x]
      {
        assert Cell(grid, (x, y)) == grid[y][x];
      }
      SameCells(solver.g.board, grid, w);
      return Ok(solver);
    }

    /**
     * is_unique: a new rater looks for a second solution; a unique puzzle
     * gets its rating, any other gets None.  Either way the puzzle has a
     * solution.  Errors pass through.  The ghost outputs are
     * has_unique_solution's answer and, when it is False, the completed
     * grid the resumed search found.
     */
    method IsUnique(grid: Board) returns (r: Result<Option<DifficultyRating>, MakerError>, ghost unique: bool, ghost second: Board)
      requires Ready() && Shape(grid, w) && InDigits(grid, n)
      ensures r.Ok? ==> Solvable(grid, w)
      ensures r.Ok? ==> (r.value.None? <==> !unique)
      ensures r.Ok? && !unique ==> IsSolution(second, grid, w)
      ensures r.Ok? && r.value.Some? ==> r.value.value.squaresFilled == n * n - ClueCount(grid)
      ensures r.Err? ==> r.error.SolverError?
    {
      var rater := NewRater(grid);
      if rater.Err? {
        return Err(rater.error), true, grid;
      }
      r, unique, second := RateIfUnique(rater.value, grid, fuel);
    }

    /**
     * unique_generator, up to the next puzzle it yields: make a puzzle
     * (symmetric or plain) and yield it with its rating once is_unique
     * rates it.  The source loops forever; here at most `tries` puzzles are
     * made, and None says that none of them was unique.
     */
    method NextUnique(symmetrical: bool, tries: nat) returns (r: Result<Option<(SudokuGrid, DifficultyRating)>, MakerError>)
      requires Ready()
      modifies this`generated, this`puzzles
      ensures |old(puzzles)| <= |puzzles| <= |old(puzzles)| + tries && puzzles[..|old(puzzles)|] == old(puzzles)
      ensures |generated| - |old(generated)| == |puzzles| - |old(puzzles)|
      ensures r.Ok? && r.value.Some? ==> Unique(r.value.value.0, r.value.value.1, symmetrical)
    {
      var i := 0;
      while i < tries
        invariant i <= tries && |old(puzzles)| <= |puzzles| <= |old(puzzles)| + i
        invariant puzzles[..|old(puzzles)|] == old(puzzles)
        invariant |generated| - |old(generated)| == |puzzles| - |old(puzzles)|
      {
        ghost var before := puzzles;
        var attempt := UniqueAttempt(symmetrical);
        assert puzzles[..|old(puzzles)|] == before[..|old(puzzles)|];
        if attempt.Err? {
          return Err(attempt.error);
        }
        var (p, diff) := attempt.value;
        if diff.Some? {
          return Ok(Some((p, diff.value)));
        }
        i := i + 1;
      }
      return Ok(None);
    }

    /**
     * What unique_generator yields: the last puzzle made, with the clues of
     * the last coordinate set (a symmetric one when asked for), a solution,
     * and its rating.
     */
    ghost predicate Unique(p: SudokuGrid, d: DifficultyRating, symmetrical: bool)
      reads this`puzzles, this`generated, p
    {
      |puzzles| > 0 && p == puzzles[|puzzles| - 1] && |generated| > 0 &&
      p.board == Clues(startGrid, generated[|generated| - 1]) &&
      Solvable(p.board, w) && d.squaresFilled == n * n - ClueCount(p.board) &&
      (symmetrical ==> Symmetric(n, generated[|generated| - 1]))
    }

    /** One round of unique_generator's loop: make a puzzle and ask is_unique about it. */
    method UniqueAttempt(symmetrical: bool) returns (r: Result<(SudokuGrid, Option<DifficultyRating>), MakerError>)
      requires Ready()
      modifies this`generated, this`puzzles
      ensures |old(puzzles)| <= |puzzles| <= |old(puzzles)| + 1 && puzzles[..|old(puzzles)|] == old(puzzles)
      ensures |generated| - |old(generated)| == |puzzles| - |old(puzzles)|
      ensures r.Ok? && r.value.1.Some? ==> Unique(r.value.0, r.value.1.value, symmetrical)
    {
      var puz: Result<SudokuGrid, MakerError>;
      var buckshot: set<Coord>;
      if symmetrical {
        puz, buckshot := MakeSymmetricPuzzle();
      } else {
        puz, buckshot := MakePuzzle();
      }
      if puz.Err? {
        return Err(puz.error);
      }
      var p := puz.value;
      var grid := p.Snapshot();
      CluesOfSolution(startGrid, w, buckshot);
      var diff, _, _ := IsUnique(grid);
      if diff.Err? {
        return Err(diff.error);
      }
      return Ok((p, diff.value));
    }

    /**
     * generate_puzzle_for_difficulty: up to max_tries plain puzzles, each
     * rated (and recorded) in turn; the first whose rating lies strictly
     * between the bounds is returned, and (None, None) after max_tries
     * misses.  A bound of 0 (or None) is no bound.
     */
    method GeneratePuzzleForDifficulty(lower: real, upper: real, maxTries: int)
      returns (r: Result<Option<(SudokuGrid, DifficultyRating)>, MakerError>)
      requires Ready()
      modifies this`generated, this`puzzles, this`ratedPuzzles
      ensures |old(ratedPuzzles)| <= |ratedPuzzles| && ratedPuzzles[..|old(ratedPuzzles)|] == old(ratedPuzzles)
      ensures maxTries <= 0 ==> r == Ok(None) && ratedPuzzles == old(ratedPuzzles)
      ensures |ratedPuzzles| <= |old(ratedPuzzles)| + (if maxTries > 0 then maxTries else 0)
      ensures r.Ok? && r.value.Some? ==>
        InBand(lower, upper, r.value.value.1.value) && LastRated(r.value.value.0, r.value.value.1) &&
        forall i :: |old(ratedPuzzles)| <= i < |ratedPuzzles| - 1 ==> !InBand(lower, upper, ratedPuzzles[i].1.value)
      ensures r.Ok? && r.value.None? ==>
        |ratedPuzzles| == |old(ratedPuzzles)| + (if maxTries > 0 then maxTries else 0) &&
        forall i :: |old(ratedPuzzles)| <= i < |ratedPuzzles| ==> !InBand(lower, upper, ratedPuzzles[i].1.value)
    {
      var tries := if maxTries > 0 then maxTries else 0;
      ghost var start := |ratedPuzzles|;
      for i := 0 to tries
        invariant |ratedPuzzles| == start + i && ratedPuzzles[..start] == old(ratedPuzzles)
        invariant forall j :: start <= j < |ratedPuzzles| ==> !InBand(lower, upper, ratedPuzzles[j].1.value)
      {
        ghost var rated := ratedPuzzles;
        var attempt := RatedAttempt();
        if attempt.Err? {
          return Err(attempt.error);
        }
        assert ratedPuzzles[..start] == rated[..start];
        var (p, d) := attempt.value;
        if InBand(lower, upper, d.value) {
          return Ok(Some((p, d)));
        }
      }
      return Ok(None);
    }

    /** The last puzzle made, rated with d as the last entry of rated_puzzles. */
    ghost predicate LastRated(p: SudokuGrid, d: DifficultyRating)
      reads this`puzzles, this`ratedPuzzles, p
    {
      |puzzles| > 0 && p == puzzles[|puzzles| - 1] &&
      |ratedPuzzles| > 0 && ratedPuzzles[|ratedPuzzles| - 1] == (p.board, d)
    }

    /** One round of generate_puzzle_for_difficulty's loop: make a plain puzzle and rate it. */
    method RatedAttempt() returns (r: Result<(SudokuGrid, DifficultyRating), MakerError>)
      requires Ready()
      modifies this`generated, this`puzzles, this`ratedPuzzles
      ensures r.Ok? ==> ratedPuzzles == old(ratedPuzzles) + [(r.value.0.board, r.value.1)] && LastRated(r.value.0, r.value.1)
      ensures r.Err? ==> ratedPuzzles == old(ratedPuzzles)
    {
      var puz, buckshot := MakePuzzle();
      if puz.Err? {
        return Err(puz.error);
      }
      var p := puz.value;
      var grid := p.Snapshot();
      var d := AssessDifficulty(grid);
      if d.Err? {
        return Err(d.error);
      }
      return Ok((p, d.value));
    }

    /** average_difficulty: the mean of the rated values, None when nothing is rated. */
    function AverageDifficulty(): (r: Option<real>)
      reads this`ratedPuzzles
      ensures r.None? <==> ratedPuzzles == []
      ensures r.Some? ==> r.value * (|ratedPuzzles| as real) == RealSum(RatingValues(ratedPuzzles))
    {
      Mean(RatingValues(ratedPuzzles))
    }
  }

  /**
   * The rest of is_unique once the rater holds the grid: has_unique_solution,
   * then the rating when the answer is True.  The ghost outputs are the
   * answer and, when it is False, the completed grid the resumed search found.
   */
  method RateIfUnique(solver: SudokuSolver, ghost grid: Board, fuel: nat)
    returns (r: Result<Option<DifficultyRating>, MakerError>, ghost unique: bool, ghost second: Board)
    requires solver.Valid() && solver.rating && solver.virgin == grid
    modifies solver, solver.g, solver.g.cells
    ensures r.Ok? ==> Solvable(grid, solver.g.w)
    ensures r.Ok? ==> (r.value.None? <==> !unique)
    ensures r.Ok? && !unique ==> IsSolution(second, grid, solver.g.w)
    ensures r.Ok? && r.value.Some? ==> r.value.value.squaresFilled == solver.g.n * solver.g.n - ClueCount(grid)
    ensures r.Err? ==> r.error.SolverError?
  {
    unique, second := true, grid;
    var answer, first := solver.HasUniqueSolution(fuel);
    if answer.Err? {
      return Err(SolverError(answer.error)), unique, second;
    }
    assert IsSolution(first, grid, solver.g.w);
    unique := answer.value;
    if !answer.value {
      return Ok(None), unique, solver.g.board;
    }
    var d := solver.Difficulty(fuel);
    if d.Err? {
      return Err(SolverError(d.error)), unique, second;
    }
    return Ok(Some(d.value)), unique, second;
  }

  /** A subset is no larger than the set it is drawn from. */
  lemma {:induction false} SubsetCard<T>(a: set<T>, b: set<T>)
    requires a <= b
    ensures |a| <= |b|
  {
    if a != {} {
      var e :| e in a;
      SubsetCard(a - {e}, b - {e});
    }
  }
}

=== FILE: grid_text.dfy ===
/**
 * The text form of a board used by SudokuGrid (Generator/sudoku_solver.py):
 * to_string writes every cell in row order, separated by single spaces, and
 * the string branch of the constructor splits on runs of whitespace, takes
 * the integer square root of the token count as the side, and reads
 * side * side tokens as rows of side integers.
 */
module GridText {
  import opened Wrappers

  type Board = seq<seq<int>>

  /** The parse failures of the string branch: int() rejected a token. */
  datatype ParseError = NotAnInteger(token: string)

  // ---------------------------------------------------------------------------
  // Writing

  predicate IsSpace(c: char) {
    c == ' ' || c == '\t' || c == '\n' || c == '\r' || c == 11 as char || c == 12 as char
  }

  predicate IsDigit(c: char) {
    '0' <= c <= '9'
  }

  function DigitChar(d: int): (c: char)
    requires 0 <= d < 10
    ensures IsDigit(c)
  {
    (48 + d) as char
  }

  function DigitValue(c: char): (d: int)
    requires IsDigit(c)
    ensures 0 <= d < 10 && DigitChar(d) == c
  {
    c as int - 48
  }

  /** The decimal digits of v, most significant first, as str(v) writes them. */
  function NatToString(v: nat): (t: string)
    ensures |t| >= 1 && forall i :: 0 <= i < |t| ==> IsDigit(t[i])
  {
    if v < 10 then [DigitChar(v)] else NatToString(v / 10) + [DigitChar(v % 10)]
  }

  /** str(v) for an integer of either sign. */
  function IntToString(v: int): (t: string)
    ensures |t| >= 1 && forall i :: 0 <= i < |t| ==> !IsSpace(t[i])
  {
    if v < 0 then "-" + NatToString(-v) else NatToString(v)
  }

  /** The cells of b in row order. */
  function Flatten(b: Board): (r: seq<int>)
  {
    if |b| == 0 then [] else b[0] + Flatten(b[1..])
  }

  /** " ".join(ts) */
  function Join(ts: seq<string>): string {
    if |ts| == 0 then "" else if |ts| == 1 then ts[0] else ts[0] + " " + Join(ts[1..])
  }

  function Strings(vs: seq<int>): (ts: seq<string>)
    ensures |ts| == |vs| && forall i :: 0 <= i < |vs| ==> ts[i] == IntToString(vs[i])
  {
    if |vs| == 0 then [] else [IntToString(vs[0])] + Strings(vs[1..])
  }

  /** to_string: all cells in row order, separated by single spaces. */
  function ToString(b: Board): string {
    Join(Strings(Flatten(b)))
  }

  // ---------------------------------------------------------------------------
  // Reading

  /** The position of the first whitespace character of s, or |s| when there is none. */
  function IndexOfSpace(s: string): (i: nat)
    ensures i <= |s| && (i < |s| ==> IsSpace(s[i]))
    ensures forall j :: 0 <= j < i ==> !IsSpace(s[j])
  {
    if |s| == 0 || IsSpace(s[0]) then 0 else 1 + IndexOfSpace(s[1..])
  }

  /** s without its leading run of whitespace. */
  function SkipSpaces(s: string): (r: string)
    ensures |r| <= |s| && r == s[|s| - |r|..]
    ensures |r| > 0 ==> !IsSpace(r[0])
    ensures |s| > 0 && IsSpace(s[0]) ==> |r| < |s|
  {
    if |s| > 0 && IsSpace(s[0]) then SkipSpaces(s[1..]) else s
  }

  /**
   * re.split("\s+", s): the pieces between maximal runs of whitespace; leading
   * or trailing whitespace yields an empty first or last piece.
   */
  function Split(s: string): (ts: seq<string>)
    ensures |ts| >= 1
    ensures forall k, j :: 0 <= k < |ts| && 0 <= j < |ts[k]| ==> !IsSpace(ts[k][j])
    decreases |s|
  {
    var i := IndexOfSpace(s);
    if i == |s| then [s] else [s[..i]] + Split(SkipSpaces(s[i..]))
  }

  /** The value of a non-empty run of decimal digits. */
  function DigitsValue(t: string): (v: nat)
    requires forall i :: 0 <= i < |t| ==> IsDigit(t[i])
  {
    if |t| == 0 then 0 else DigitsValue(t[..|t| - 1]) * 10 + DigitValue(t[|t| - 1])
  }

  predicate AllDigits(t: string) {
    |t| >= 1 && forall i :: 0 <= i < |t| ==> IsDigit(t[i])
  }

  /** int(t) on a token without whitespace: an optional sign followed by decimal digits. */
  function ParseInt(t: string): (r: Option<int>)
    ensures r.Some? <==> (AllDigits(t) || (|t| >= 2 && (t[0] == '-' || t[0] == '+') && AllDigits(t[1..])))
  {
    if AllDigits(t) then Some(DigitsValue(t))
    else if |t| >= 2 && t[0] == '-' && AllDigits(t[1..]) then Some(-(DigitsValue(t[1..]) as int))
    else if |t| >= 2 && t[0] == '+' && AllDigits(t[1..]) then Some(DigitsValue(t[1..]))
    else None
  }

  /** int(math.sqrt(m)): the largest r with r * r <= m. */
  function Isqrt(m: nat): (r: nat)
    ensures r * r <= m < (r + 1) * (r + 1)
  {
    if m == 0 then 0
    else
      var q := Isqrt(m - 1);
      if (q + 1) * (q + 1) <= m then q + 1 else q
  }

  /** [int(i) for i in ts], failing on the first token int() rejects. */
  function ParseInts(ts: seq<string>): (r: Result<seq<int>, ParseError>)
    ensures r.Ok? ==> |r.value| == |ts| && forall i :: 0 <= i < |ts| ==> ParseInt(ts[i]) == Some(r.value[i])
    ensures r.Err? ==> exists i :: 0 <= i < |ts| && ParseInt(ts[i]).None?
  {
    if |ts| == 0 then Ok([])
    else match ParseInt(ts[0])
      case None => Err(NotAnInteger(ts[0]))
      case Some(v) =>
        match ParseInts(ts[1..])
        case Err(e) => Err(e)
        case Ok(rest) => Ok([v] + rest)
  }

  /** vs cut into consecutive rows of side values. */
  function Rows(vs: seq<int>, side: nat): (b: Board)
    requires side >= 1
    ensures forall y :: 0 <= y < |b| ==> |b[y]| == side
    decreases |vs|
  {
    if |vs| < side then [] else [vs[..side]] + Rows(vs[side..], side)
  }

  /**
   * The string branch of SudokuGrid.__init__: the grid of side * side values,
   * where side is the integer square root of the number of pieces.
   */
  function ParseGrid(s: string): Result<Board, ParseError> {
    var ts := Split(s);
    var side := Isqrt(|ts|);
    match ParseInts(ts[..side * side])
    case Err(e) => Err(e)
    case Ok(vs) => Ok(Rows(vs, side))
  }

  // ---------------------------------------------------------------------------
  // Round trip

  /** str and int are inverse on naturals. */
  lemma {:induction false} NatToStringValue(v: nat)
    ensures DigitsValue(NatToString(v)) == v
  {
    if v >= 10 {
      var t := NatToString(v);
      assert t[..|t| - 1] == NatToString(v / 10);
      NatToStringValue(v / 10);
    }
  }

  /** int(str(v)) == v for every integer. */
  lemma IntToStringRoundTrip(v: int)
    ensures ParseInt(IntToString(v)) == Some(v)
  {
    if v < 0 {
      var t := IntToString(v);
      assert t[1..] == NatToString(-v);
      NatToStringValue(-v);
    } else {
      NatToStringValue(v);
    }
  }

  lemma {:induction false} ParseIntsStrings(vs: seq<int>)
    ensures ParseInts(Strings(vs)) == Ok(vs)
  {
    if |vs| > 0 {
      IntToStringRoundTrip(vs[0]);
      assert Strings(vs)[1..] == Strings(vs[1..]);
      ParseIntsStrings(vs[1..]);
      assert [vs[0]] + vs[1..] == vs;
    }
  }

  lemma IndexOfSpaceNone(t: string)
    requires forall i :: 0 <= i < |t| ==> !IsSpace(t[i])
    ensures IndexOfSpace(t) == |t|
  {
    if |t| > 0 {
      IndexOfSpaceNone(t[1..]);
    }
  }

  lemma IndexOfSpaceAfter(t: string, r: string)
    requires forall i :: 0 <= i < |t| ==> !IsSpace(t[i])
    ensures IndexOfSpace(t + " " + r) == |t|
  {
    if |t| > 0 {
      assert (t + " " + r)[1..] == t[1..] + " " + r;
      IndexOfSpaceAfter(t[1..], r);
    }
  }

  /** Splitting the join of space-free non-empty pieces gives the pieces back. */
  lemma {:induction false} SplitJoin(ts: seq<string>)
    requires |ts| >= 1
    requires forall k :: 0 <= k < |ts| ==> |ts[k]| >= 1 && forall i :: 0 <= i < |ts[k]| ==> !IsSpace(ts[k][i])
    ensures Split(Join(ts)) == ts
  {
    if |ts| == 1 {
      IndexOfSpaceNone(ts[0]);
    } else {
      var t, r := ts[0], Join(ts[1..]);
      var s := t + " " + r;
      assert Join(ts) == s;
      IndexOfSpaceAfter(t, r);
      assert s[..|t|] == t;
      JoinStartsWithToken(ts[1..]);
      assert s[|t|..] == " " + r;
      assert SkipSpaces(" " + r) == SkipSpaces(r);
      SplitJoin(ts[1..]);
    }
  }

  lemma JoinStartsWithToken(ts: seq<string>)
    requires |ts| >= 1 && |ts[0]| >= 1 && !IsSpace(ts[0][0])
    ensures SkipSpaces(Join(ts)) == Join(ts)
  {
    if |ts| > 1 {
      assert Join(ts)[0] == ts[0][0];
    }
  }

  lemma MulPred(a: int, n: int)
    ensures n + (a - 1) * n == a * n
  {
  }

  lemma {:induction false} FlattenLength(b: Board, n: nat)
    requires forall y :: 0 <= y < |b| ==> |b[y]| == n
    ensures |Flatten(b)| == |b| * n
  {
    if |b| > 0 {
      FlattenLength(b[1..], n);
      assert |Flatten(b)| == n + (|b| - 1) * n;
      assert n + (|b| - 1) * n == |b| * n by { MulPred(|b|, n); }
    }
  }

  lemma {:induction false} RowsFlatten(b: Board, n: nat)
    requires n >= 1 && forall y :: 0 <= y < |b| ==> |b[y]| == n
    ensures Rows(Flatten(b), n) == b
  {
    if |b| > 0 {
      var f := Flatten(b);
      FlattenLength(b[1..], n);
      assert f[..n] == b[0];
      assert f[n..] == Flatten(b[1..]);
      RowsFlatten(b[1..], n);
    }
  }

  lemma IsqrtOfSquare(n: nat)
    ensures Isqrt(n * n) == n
  {
    var r := Isqrt(n * n);
    SquareOrder(r, n);
    SquareOrder(r + 1, n);
  }

  lemma MonotoneSquare(a: nat, b: nat)
    requires a <= b
    ensures a * a <= b * b
  {
    assert a * a <= a * b <= b * b;
  }

  lemma SquareOrder(a: nat, b: nat)
    ensures a <= b <==> a * a <= b * b
  {
    if a <= b {
      MonotoneSquare(a, b);
    } else {
      MonotoneSquare(b + 1, a);
    }
  }

  lemma {:induction false} RowsLength(vs: seq<int>, side: nat, m: nat)
    requires side >= 1 && |vs| == m * side
    ensures |Rows(vs, side)| == m
    decreases m
  {
    if m > 0 {
      MulPred(m, side);
      RowsLength(vs[side..], side, m - 1);
    }
  }

  /**
   * A parsed grid is square: side rows of side values, where side is the
   * integer square root of the number of pieces; it fails exactly when one of
   * the first side * side pieces is not an integer.
   */
  lemma ParseGridShape(s: string)
    ensures var side := Isqrt(|Split(s)|);
      match ParseGrid(s)
      case Ok(b) => |b| == side && forall y :: 0 <= y < side ==> |b[y]| == side
      case Err(_) => exists i :: 0 <= i < side * side && ParseInt(Split(s)[i]).None?
  {
    var ts := Split(s);
    var side := Isqrt(|ts|);
    match ParseInts(ts[..side * side])
    case Ok(vs) =>
      if side >= 1 { RowsLength(vs, side, side); }
    case Err(_) =>
  }

  /**
   * Parsing what to_string wrote gives the board back, for every square board
   * with at least one row: the string constructor inverts to_string.
   */
  lemma ParseToStringRoundTrip(b: Board)
    requires |b| >= 1 && forall y :: 0 <= y < |b| ==> |b[y]| == |b|
    ensures ParseGrid(ToString(b)) == Ok(b)
  {
    var n := |b|;
    var f := Flatten(b);
    FlattenLength(b, n);
    var ts := Strings(f);
    assert |ts| == n * n;
    assert |ts| >= 1 by { MonotoneSquare(1, n); }
    SplitJoin(ts);
    IsqrtOfSquare(n);
    assert ts[..n * n] == ts;
    ParseIntsStrings(f);
    RowsFlatten(b, n);
  }
}

=== FILE: guess_tree.dfy ===
/**
 * The guess tree of Generator/sudoku_solver.py: Guess objects, the GuessList
 * of every guess made and the BreadcrumbTrail of the guesses still standing.
 * Guess objects live in an arena `nodes`; a guess is named by its position,
 * which is also its creation order, so a child always has a larger id than
 * its parent.  Lists of guesses are sequences of ids.
 */
module GuessTree {
  import opened Wrappers
  import opened SquareBoard
  import opened ConstraintGrid

  /** Guess(x, y, val) with its children and the consequences recorded while it was current. */
  datatype GuessNode = GuessNode(x: int, y: int, val: int, children: seq<nat>, consequences: map<Coord, int>)

  /** Guess.add_consequence: remember that (x, y) was set to val while this guess was current. */
  function AddConsequence(gn: GuessNode, x: int, y: int, val: int): (r: GuessNode)
    ensures r.consequences.Keys == gn.consequences.Keys + {(x, y)} && r.consequences[(x, y)] == val
    ensures forall c :: c in gn.consequences && c != (x, y) ==> r.consequences[c] == gn.consequences[c]
    ensures r.x == gn.x && r.y == gn.y && r.val == gn.val && r.children == gn.children
  {
    gn.(consequences := gn.consequences[(x, y) := val])
  }

  /** The cell and value of every guess, by id: what a guess never changes after it is made. */
  function Keys(nodes: seq<GuessNode>): (r: seq<(int, int, int)>)
    ensures |r| == |nodes|
  {
    if nodes == [] then []
    else Keys(nodes[..|nodes| - 1]) + [(nodes[|nodes| - 1].x, nodes[|nodes| - 1].y, nodes[|nodes| - 1].val)]
  }

  /** Keys lists each guess's cell and value at its id. */
  lemma {:induction false} KeysAt(nodes: seq<GuessNode>, d: int)
    requires 0 <= d < |nodes|
    ensures Keys(nodes)[d] == (nodes[d].x, nodes[d].y, nodes[d].val)
  {
    if d < |nodes| - 1 {
      KeysAt(nodes[..|nodes| - 1], d);
    }
  }

  /** Two arenas whose guesses agree on cell and value have the same keys. */
  lemma {:induction false} SameKeys(a: seq<GuessNode>, b: seq<GuessNode>)
    requires |a| == |b|
    requires forall d :: 0 <= d < |a| ==> a[d].x == b[d].x && a[d].y == b[d].y && a[d].val == b[d].val
    ensures Keys(a) == Keys(b)
  {
    if a != [] {
      SameKeys(a[..|a| - 1], b[..|b| - 1]);
    }
  }

  /** The cells unwrap_guess empties for one guess: its own cell and its consequences. */
  function NodeCells(gn: GuessNode): set<Coord> {
    {(gn.x, gn.y)} + gn.consequences.Keys
  }

  /** Every child id names a guess created after its parent. */
  ghost predicate WellFormed(nodes: seq<GuessNode>) {
    forall id, j :: 0 <= id < |nodes| && 0 <= j < |nodes[id].children| ==>
      id < nodes[id].children[j] < |nodes|
  }

  /** The guesses unwrap_guess(id) visits: id itself and, recursively, its children. */
  ghost function Subtree(nodes: seq<GuessNode>, id: nat): set<nat>
    requires WellFormed(nodes) && id < |nodes|
    decreases |nodes| - id, 1
  {
    {id} + Forest(nodes, id, nodes[id].children)
  }

  /** The subtrees of a list of children of parent. */
  ghost function Forest(nodes: seq<GuessNode>, parent: nat, kids: seq<nat>): set<nat>
    requires WellFormed(nodes) && parent < |nodes|
    requires forall j :: 0 <= j < |kids| ==> parent < kids[j] < |nodes|
    decreases |nodes| - parent, 0, |kids|
  {
    if kids == [] then {}
    else Forest(nodes, parent, kids[..|kids| - 1]) + Subtree(nodes, kids[|kids| - 1])
  }

  /** Every guess of a subtree was made no earlier than its root. */
  lemma {:induction false} SubtreeBounds(nodes: seq<GuessNode>, id: nat)
    requires WellFormed(nodes) && id < |nodes|
    ensures forall d :: d in Subtree(nodes, id) ==> id <= d < |nodes|
    decreases |nodes| - id, 1
  {
    ForestBounds(nodes, id, nodes[id].children);
  }

  lemma {:induction false} ForestBounds(nodes: seq<GuessNode>, parent: nat, kids: seq<nat>)
    requires WellFormed(nodes) && parent < |nodes|
    requires forall j :: 0 <= j < |kids| ==> parent < kids[j] < |nodes|
    ensures forall d :: d in Forest(nodes, parent, kids) ==> parent < d < |nodes|
    decreases |nodes| - parent, 0, |kids|
  {
    if kids != [] {
      ForestBounds(nodes, parent, kids[..|kids| - 1]);
      SubtreeBounds(nodes, kids[|kids| - 1]);
    }
  }

  /** The cells unwrap_guess(id) empties: the cells of every guess of the subtree. */
  ghost function Footprint(nodes: seq<GuessNode>, ids: set<nat>): set<Coord> {
    set d, c | d in ids && d < |nodes| && c in NodeCells(nodes[d]) :: c
  }

  /** The cells of a union of guesses are the union of their cells. */
  lemma FootprintUnion(nodes: seq<GuessNode>, a: set<nat>, b: set<nat>)
    ensures Footprint(nodes, a + b) == Footprint(nodes, a) + Footprint(nodes, b)
  {
  }

  /** The cells of a subtree: its root's cells and those of the subtrees of its children. */
  lemma FootprintSubtree(nodes: seq<GuessNode>, id: nat)
    requires WellFormed(nodes) && id < |nodes|
    ensures Footprint(nodes, Subtree(nodes, id)) ==
      NodeCells(nodes[id]) + Footprint(nodes, Forest(nodes, id, nodes[id].children))
  {
    FootprintUnion(nodes, {id}, Forest(nodes, id, nodes[id].children));
    assert Footprint(nodes, {id}) == NodeCells(nodes[id]);
  }

  /** The children up to j + 1 cover those up to j and the subtree of child j. */
  lemma ForestStep(nodes: seq<GuessNode>, parent: nat, kids: seq<nat>, j: nat)
    requires WellFormed(nodes) && parent < |nodes| && j < |kids|
    requires forall i :: 0 <= i < |kids| ==> parent < kids[i] < |nodes|
    ensures Forest(nodes, parent, kids[..j + 1]) == Forest(nodes, parent, kids[..j]) + Subtree(nodes, kids[j])
  {
    assert kids[..j + 1][..j] == kids[..j];
  }

  predicate Distinct(s: seq<nat>) {
    forall i, j :: 0 <= i < j < |s| ==> s[i] != s[j]
  }

  /** list.remove(d): drop the first occurrence of d. */
  function RemoveFirst(s: seq<nat>, d: nat): (r: seq<nat>)
    ensures |r| == if d in s then |s| - 1 else |s|
  {
    if s == [] then []
    else if s[0] == d then s[1..]
    else [s[0]] + RemoveFirst(s[1..], d)
  }

  /** s without the ids of ds, in the same order. */
  function Without(s: seq<nat>, ds: set<nat>): (r: seq<nat>)
    ensures forall e :: e in r <==> e in s && e !in ds
    ensures |r| <= |s|
  {
    if s == [] then []
    else if s[|s| - 1] in ds then Without(s[..|s| - 1], ds)
    else Without(s[..|s| - 1], ds) + [s[|s| - 1]]
  }

  /** On a list without repeats, list.remove(d) drops exactly d. */
  lemma {:induction false} RemoveFirstOfDistinct(s: seq<nat>, d: nat)
    requires Distinct(s)
    ensures RemoveFirst(s, d) == Without(s, {d})
  {
    if s != [] {
      RemoveFirstOfDistinct(s[1..], d);
      WithoutCons(s[0], s[1..], {d});
      assert [s[0]] + s[1..] == s;
      if s[0] == d {
        assert d !in s[1..];
        WithoutNothing(s[1..], {d});
      }
    }
  }

  lemma {:induction false} WithoutCons(e: nat, s: seq<nat>, ds: set<nat>)
    ensures Without([e] + s, ds) == (if e in ds then [] else [e]) + Without(s, ds)
    decreases |s|
  {
    var front: seq<nat> := if e in ds then [] else [e];
    if s == [] {
      assert [e] + s == [e];
      assert [e][..0] == [];
    } else {
      var t := [e] + s;
      var s' := s[..|s| - 1];
      var back: seq<nat> := if s[|s| - 1] in ds then [] else [s[|s| - 1]];
      assert t[..|t| - 1] == [e] + s' && t[|t| - 1] == s[|s| - 1];
      assert Without(t, ds) == Without([e] + s', ds) + back;
      WithoutCons(e, s', ds);
      assert Without(s, ds) == Without(s', ds) + back;
      assert Without(t, ds) == front + (Without(s', ds) + back);
    }
  }

  lemma {:induction false} WithoutNothing(s: seq<nat>, ds: set<nat>)
    requires forall e :: e in s ==> e !in ds
    ensures Without(s, ds) == s
  {
    if s != [] {
      WithoutNothing(s[..|s| - 1], ds);
      assert s[..|s| - 1] + [s[|s| - 1]] == s;
    }
  }

  /** Removing two sets of ids one after the other removes their union. */
  lemma {:induction false} WithoutWithout(s: seq<nat>, a: set<nat>, b: set<nat>)
    ensures Without(Without(s, a), b) == Without(s, a + b)
  {
    if s != [] {
      WithoutWithout(s[..|s| - 1], a, b);
    }
  }

  lemma {:induction false} WithoutDistinct(s: seq<nat>, ds: set<nat>)
    requires Distinct(s)
    ensures Distinct(Without(s, ds))
  {
    if s != [] {
      WithoutDistinct(s[..|s| - 1], ds);
      assert s[|s| - 1] !in s[..|s| - 1];
    }
  }

  /** `if d in s: s.remove(d)` on a list without repeats drops exactly d. */
  lemma RemoveIfPresent(s: seq<nat>, d: nat)
    requires Distinct(s)
    ensures (if d in s then RemoveFirst(s, d) else s) == Without(s, {d})
  {
    if d in s {
      RemoveFirstOfDistinct(s, d);
    } else {
      WithoutNothing(s, {d});
    }
  }

  /** GuessList.guesses_for_coord(x, y): the values guessed at (x, y) by the listed guesses. */
  function GuessesForCoord(nodes: seq<GuessNode>, gs: seq<nat>, x: int, y: int): (r: set<int>)
    ensures forall i :: 0 <= i < |gs| && gs[i] < |nodes| && nodes[gs[i]].x == x && nodes[gs[i]].y == y ==>
      nodes[gs[i]].val in r
    ensures forall v :: v in r ==>
      (exists i :: 0 <= i < |gs| && gs[i] < |nodes| && nodes[gs[i]].x == x && nodes[gs[i]].y == y && nodes[gs[i]].val == v)
  {
    set i | 0 <= i < |gs| && gs[i] < |nodes| && nodes[gs[i]].x == x && nodes[gs[i]].y == y :: nodes[gs[i]].val
  }

  /** The cell and value of guess d. */
  function KeyOf(nodes: seq<GuessNode>, d: nat): (int, int, int)
    requires d < |nodes|
  {
    (nodes[d].x, nodes[d].y, nodes[d].val)
  }

  /** No two listed guesses on one coordinate carry the same value. */
  ghost predicate GuessValuesDistinct(nodes: seq<GuessNode>, gs: seq<nat>) {
    forall a, b :: a in gs && b in gs && a < |nodes| && b < |nodes| && a != b ==> KeyOf(nodes, a) != KeyOf(nodes, b)
  }

  /** At most one guess of the list sits on any one coordinate. */
  ghost predicate OneCrumbPerCell(nodes: seq<GuessNode>, trail: seq<nat>) {
    forall i, j :: 0 <= i < j < |trail| && trail[i] < |nodes| && trail[j] < |nodes| ==>
      (nodes[trail[i]].x, nodes[trail[i]].y) != (nodes[trail[j]].x, nodes[trail[j]].y)
  }

  /**
   * BreadcrumbTrail.append: a ValueError when a crumb already sits on the
   * coordinate of the new guess, the trail with the guess appended otherwise.
   */
  function BreadcrumbAppend(nodes: seq<GuessNode>, trail: seq<nat>, id: nat): (r: Result<seq<nat>, SudokuError>)
    requires id < |nodes|
    ensures r.Err? <==>
      (exists i :: 0 <= i < |trail| && trail[i] < |nodes| && nodes[trail[i]].x == nodes[id].x && nodes[trail[i]].y == nodes[id].y)
    ensures r.Err? ==> r.error == CrumbExists(nodes[id].x, nodes[id].y)
    ensures r.Ok? ==> r.value == trail + [id]
  {
    if GuessesForCoord(nodes, trail, nodes[id].x, nodes[id].y) != {} then
      Err(CrumbExists(nodes[id].x, nodes[id].y))
    else
      Ok(trail + [id])
  }

  /** A trail built only through BreadcrumbAppend never holds two crumbs on one coordinate. */
  lemma BreadcrumbAppendKeepsOneCrumbPerCell(nodes: seq<GuessNode>, trail: seq<nat>, id: nat)
    requires id < |nodes| && OneCrumbPerCell(nodes, trail)
    requires BreadcrumbAppend(nodes, trail, id).Ok?
    ensures OneCrumbPerCell(nodes, BreadcrumbAppend(nodes, trail, id).value)
  {
    var t := trail + [id];
    forall i, j | 0 <= i < j < |t| && t[i] < |nodes| && t[j] < |nodes|
      ensures (nodes[t[i]].x, nodes[t[i]].y) != (nodes[t[j]].x, nodes[t[j]].y)
    {
      if j == |trail| {
        assert t[i] == trail[i];
      } else {
        assert t[i] == trail[i] && t[j] == trail[j];
      }
    }
  }
}

=== FILE: rating.dfy ===
/**
 * DifficultyRating and add_with_diminishing_importance: the tallies a
 * SudokuRater collected, per tier, turned into a score and a label.  The
 * source computes in floating point; here the same formulas are computed
 * exactly over the reals.
 */
module Rating {
  import opened Wrappers
  import opened ConstraintGrid

  /** The keys of a dict in ascending order (kk = list(dct.keys()); kk.sort()). */
  function SortedKeys<V>(d: map<int, V>): (r: seq<int>)
    ensures |r| == |d.Keys|
    ensures forall k :: k in r <==> k in d
    ensures forall i, j :: 0 <= i < j < |r| ==> r[i] < r[j]
  {
    Ascending(d.Keys)
  }

  /** The elements of a finite set of keys in ascending order. */
  function Ascending(s: set<int>): (r: seq<int>)
    ensures |r| == |s|
    ensures forall k :: k in r <==> k in s
    ensures forall i, j :: 0 <= i < j < |r| ==> r[i] < r[j]
    decreases |s|
  {
    if s == {} then []
    else
      assert IsLeast(MinOf(s), s);
      var k :| IsLeast(k, s);
      var rest := Ascending(s - {k});
      LeastFirst(k, s, rest);
      [k] + rest
  }

  /** The least key followed by the others in ascending order lists all the keys in ascending order. */
  lemma LeastFirst(k: int, s: set<int>, rest: seq<int>)
    requires IsLeast(k, s) && |rest| == |s - {k}|
    requires forall j :: j in rest <==> j in s - {k}
    requires forall i, j :: 0 <= i < j < |rest| ==> rest[i] < rest[j]
    ensures |[k] + rest| == |s|
    ensures forall j :: j in [k] + rest <==> j in s
    ensures forall i, j :: 0 <= i < j < |[k] + rest| ==> ([k] + rest)[i] < ([k] + rest)[j]
  {
    assert |s - {k}| == |s| - 1;
    assert forall j :: j in rest ==> k < j;
    var r := [k] + rest;
    forall i | 0 < i < |r|
      ensures r[i] == rest[i - 1] && k < r[i]
    {
      assert rest[i - 1] in rest;
    }
  }

  /** k is the least of the keys s. */
  predicate IsLeast(k: int, s: set<int>) {
    k in s && forall j :: j in s ==> k <= j
  }

  /** The least of a non-empty finite set of keys. */
  ghost function MinOf(s: set<int>): (k: int)
    requires s != {}
    ensures IsLeast(k, s)
    decreases |s|
  {
    assert exists v :: v in s by {
      if forall v :: v !in s {
        assert false;
      }
    }
    var x :| x in s;
    var rest := s - {x};
    assert forall j :: j in s ==> j == x || j in rest;
    if rest == {} then x
    else
      var m := MinOf(rest);
      if x < m then x else m
  }

  /** The sizes of the sets at the keys kk, in that order. */
  function SizesAt<T>(d: map<int, set<T>>, kk: seq<int>): (r: seq<nat>)
    requires forall i :: 0 <= i < |kk| ==> kk[i] in d
    ensures |r| == |kk| && forall i :: 0 <= i < |kk| ==> r[i] == |d[kk[i]]|
  {
    if kk == [] then [] else [|d[kk[0]]|] + SizesAt(d, kk[1..])
  }

  /** count_values: the sizes of the dict's sets, in ascending key order. */
  function CountValues<T>(d: map<int, set<T>>): (r: seq<nat>)
    ensures |r| == |d.Keys|
    ensures forall i :: 0 <= i < |r| ==> r[i] == |d[SortedKeys(d)[i]]|
  {
    SizesAt(d, SortedKeys(d))
  }

  /** Σ lst[i] / (i + 1), the sum add_with_diminishing_importance accumulates with its default diminish_by. */
  function DiminishingSum(lst: seq<nat>): real
  {
    if lst == [] then 0.0
    else DiminishingSum(lst[..|lst| - 1]) + (lst[|lst| - 1] as real) / ((|lst| - 1 + 1) as real)
  }

  /** add_with_diminishing_importance(lst): the accumulator loop. */
  method AddWithDiminishingImportance(lst: seq<nat>) returns (sum: real)
    ensures sum == DiminishingSum(lst)
  {
    sum := 0.0;
    for i := 0 to |lst|
      invariant sum == DiminishingSum(lst[..i])
    {
      assert lst[..i + 1][..i] == lst[..i];
      sum := sum + (lst[i] as real) / ((i + 1) as real);
    }
    assert lst[..|lst|] == lst;
  }

  /** The diminishing sum never exceeds the plain sum, and is never negative. */
  lemma {:induction false} DiminishingSumBounds(lst: seq<nat>)
    ensures 0.0 <= DiminishingSum(lst) <= Sum(lst) as real
  {
    if lst != [] {
      var init := lst[..|lst| - 1];
      DiminishingSumBounds(init);
      SumSnoc(init, lst[|lst| - 1]);
      assert init + [lst[|lst| - 1]] == lst;
      WeightBound(lst[|lst| - 1] as real, |lst| as real);
    }
  }

  /** A non-negative count divided by a weight of at least one lies between zero and the count. */
  lemma WeightBound(a: real, d: real)
    requires a >= 0.0 && d >= 1.0
    ensures 0.0 <= a / d <= a
  {
    var q := a / d;
    assert q * d == a;
    assert q >= 0.0;
    assert q * (d - 1.0) >= 0.0;
  }

  /** The plain sum of counts. */
  function Sum(lst: seq<nat>): nat {
    if lst == [] then 0 else Sum(lst[..|lst| - 1]) + lst[|lst| - 1]
  }

  lemma SumSnoc(lst: seq<nat>, n: nat)
    ensures Sum(lst + [n]) == Sum(lst) + n
  {
    assert (lst + [n])[..|lst|] == lst;
  }

  /** Appending one count adds it with weight 1/(position + 1), whatever came before. */
  lemma DiminishingSnoc(lst: seq<nat>, n: nat)
    ensures DiminishingSum(lst + [n]) == DiminishingSum(lst) + (n as real) / ((|lst| + 1) as real)
  {
    assert (lst + [n])[..|lst|] == lst;
  }

  /** A DifficultyRating: the inputs it keeps and the numbers __init__ derives from them. */
  datatype DifficultyRating = DifficultyRating(
    guesses: nat,
    backtraces: nat,
    squaresFilled: int,
    instantFillFillable: real,
    instantEliminationFillable: real,
    proportionInstantEliminationFillable: real,
    proportionInstantFillFillable: real,
    eliminationEase: real,
    fillableEase: real,
    value: real)

  /**
   * calculate: 1 - fillable_ease/squares_filled - elimination_ease/squares_filled
   * + guesses/squares_filled + backtraces/squares_filled.
   */
  function Calculate(fillableEase: real, eliminationEase: real, guesses: nat, backtraces: nat, squaresFilled: int): (v: real)
    requires squaresFilled != 0
    ensures v * (squaresFilled as real)
      == (squaresFilled as real) - fillableEase - eliminationEase + (guesses as real) + (backtraces as real)
  {
    var sf := squaresFilled as real;
    1.0 - fillableEase / sf - eliminationEase / sf + (guesses as real) / sf + (backtraces as real) / sf
  }

  /**
   * DifficultyRating(fill_must_fillables, elimination_fillables, guesses,
   * backtraces, squares_filled).  A non-empty dict without tier 0 raises
   * KeyError (fill_must_fillables is read first); squares_filled == 0 raises
   * ZeroDivisionError.
   */
  function Rate<T>(fillMust: map<int, set<T>>, elimination: map<int, set<T>>, guesses: nat, backtraces: nat,
                   squaresFilled: int): (r: Result<DifficultyRating, SudokuError>)
    ensures r == Err(KeyError) <==> NoTierZero(fillMust) || NoTierZero(elimination)
    ensures r == Err(ZeroDivision) <==> !NoTierZero(fillMust) && !NoTierZero(elimination) && squaresFilled == 0
    ensures r.Ok? || r == Err(KeyError) || r == Err(ZeroDivision)
    ensures r.Ok? ==> squaresFilled != 0 && r.value.squaresFilled == squaresFilled
    ensures r.Ok? ==> r.value.fillableEase == DiminishingSum(CountValues(fillMust))
    ensures r.Ok? ==> r.value.eliminationEase == DiminishingSum(CountValues(elimination))
    ensures r.Ok? ==> r.value.value == Calculate(r.value.fillableEase, r.value.eliminationEase, guesses, backtraces, squaresFilled)
  {
    if NoTierZero(fillMust) then Err(KeyError)
    else if NoTierZero(elimination) then Err(KeyError)
    else if squaresFilled == 0 then Err(ZeroDivision)
    else
      var fill := if fillMust != map[] then |fillMust[0]| as real else 0.0;
      var elim := if elimination != map[] then |elimination[0]| as real else 0.0;
      var sf := squaresFilled as real;
      var elimEase := DiminishingSum(CountValues(elimination));
      var fillEase := DiminishingSum(CountValues(fillMust));
      Ok(DifficultyRating(guesses, backtraces, squaresFilled, fill, elim, elim / sf, fill / sf, elimEase, fillEase,
                          Calculate(fillEase, elimEase, guesses, backtraces, squaresFilled)))
  }

  /** The dict is non-empty but has no entry for tier 0, so reading tier 0 raises KeyError. */
  predicate NoTierZero<V>(d: map<int, V>) {
    d != map[] && 0 !in d
  }

  /** The labels of value_string, from easiest to hardest. */
  const Labels: seq<string> := ["Easy", "Medium", "Hard", "Very hard"]

  /** value_string. */
  function ValueString(value: real): (s: string)
    ensures s in Labels
  {
    if value > 0.75 then "Very hard"
    else if value >= 0.59 then "Hard"
    else if value > 0.45 then "Medium"
    else "Easy"
  }

  /** Where a label stands among Labels. */
  function LabelRank(s: string): (k: nat)
    requires s in Labels
    ensures k < |Labels| && Labels[k] == s
  {
    if s == "Easy" then 0 else if s == "Medium" then 1 else if s == "Hard" then 2 else 3
  }

  /** A higher value never gets an easier label. */
  lemma ValueStringMonotone(a: real, b: real)
    requires a <= b
    ensures LabelRank(ValueString(a)) <= LabelRank(ValueString(b))
  {
  }

  /** The label boundaries: each label is exactly the values of one interval. */
  lemma ValueStringBands(v: real)
    ensures ValueString(v) == "Very hard" <==> 0.75 < v
    ensures ValueString(v) == "Hard" <==> 0.59 <= v <= 0.75
    ensures ValueString(v) == "Medium" <==> 0.45 < v < 0.59
    ensures ValueString(v) == "Easy" <==> v <= 0.45
  {
  }
}

=== FILE: rect_board.dfy ===
/**
 * The board of the rectangular-box Sudoku (Generator/sudoku.py) and the
 * Sudoku value built from it.  Boxes are `width` columns wide and `height`
 * rows tall, the board has size = width * height rows and columns, cells are
 * indexed board[row][col], and 0 stands for Python's None (an empty cell).
 */
module RectBoard {
  import opened Wrappers
  import SquareBoard

  type Board = seq<seq<int>>

  /** A cell position (row, col), as the source's blanks are written. */
  type Cell = (int, int)

  /** The shape assertions of Sudoku.__init__: width > 0, height > 0, size > 1. */
  predicate ShapeOK(w: int, h: int) {
    w > 0 && h > 0 && w * h > 1
  }

  /** n rows of n cells each. */
  predicate IsSquare(b: Board, n: int) {
    |b| == n && forall r :: 0 <= r < n ==> |b[r]| == n
  }

  predicate InBoard(n: int, p: Cell) {
    0 <= p.0 < n && 0 <= p.1 < n
  }

  /** Every cell is empty or one of the values 1..n, as __init__ leaves a board. */
  predicate Normalised(b: Board, n: int) {
    IsSquare(b, n) && forall r, c :: 0 <= r < n && 0 <= c < n ==> 0 <= b[r][c] <= n
  }

  // ---------------------------------------------------------------------------
  // Box numbering

  /** A number below d * m divided by d is below m. */
  lemma QuotientBelow(a: int, d: int, m: int)
    requires d > 0 && 0 <= a < d * m
    ensures 0 <= a / d < m
  {
    var q := a / d;
    assert q * d + a % d == a;
    MulMono(q, m, d);
  }

  /** Multiplying by a positive number keeps the order. */
  lemma MulMono(q: int, m: int, d: int)
    requires d > 0
    ensures q >= m ==> q * d >= m * d
  {
    SquareBoard.Distrib(q, m, d);
    if q >= m {
      assert (q - m) * d >= 0;
    }
  }

  /** The box index validate computes: (row // height) * height + col // width. */
  function BoxIndex(w: int, h: int, row: int, col: int): int
    requires w > 0 && h > 0
  {
    (row / h) * h + col / w
  }

  /** Box indices of cells of the board are below size. */
  lemma BoxIndexRange(w: int, h: int, row: int, col: int)
    requires w > 0 && h > 0 && InBoard(w * h, (row, col))
    ensures 0 <= BoxIndex(w, h, row, col) < w * h
  {
    QuotientBelow(row, h, w);
    QuotientBelow(col, w, h);
    BandBelow(row / h, col / w, w, h);
  }

  /** A band below w and a stack below h give a number below w * h. */
  lemma BandBelow(q: int, r: int, w: int, h: int)
    requires 0 <= q < w && 0 <= r < h
    ensures 0 <= q * h + r < w * h
  {
    assert q * h <= (w - 1) * h by { SquareBoard.Distrib(w - 1, q, h); }
    SquareBoard.Distrib(w, 1, h);
  }

  /** Two cells of the board get the same box index exactly when they lie in the same band of rows and stack of columns. */
  lemma BoxIndexSame(w: int, h: int, r1: int, c1: int, r2: int, c2: int)
    requires w > 0 && h > 0 && InBoard(w * h, (r1, c1)) && InBoard(w * h, (r2, c2))
    ensures BoxIndex(w, h, r1, c1) == BoxIndex(w, h, r2, c2) <==> r1 / h == r2 / h && c1 / w == c2 / w
  {
    QuotientBelow(c1, w, h);
    QuotientBelow(c2, w, h);
    if BoxIndex(w, h, r1, c1) == BoxIndex(w, h, r2, c2) {
      var k := BoxIndex(w, h, r1, c1);
      SquareBoard.DivModOf(h, r1 / h, c1 / w);
      SquareBoard.DivModOf(h, r2 / h, c2 / w);
      assert k / h == r1 / h && k / h == r2 / h;
      assert k % h == c1 / w && k % h == c2 / w;
    }
  }

  /** __is_neighbor: the two cells share a row, a column or a box. */
  function IsNeighbor(w: int, h: int, a: Cell, b: Cell): (r: bool)
    requires w > 0 && h > 0
    ensures InBoard(w * h, a) && InBoard(w * h, b) ==>
      (r <==> a.0 == b.0 || a.1 == b.1 || BoxIndex(w, h, a.0, a.1) == BoxIndex(w, h, b.0, b.1))
  {
    if InBoard(w * h, a) && InBoard(w * h, b) then
      BoxIndexSame(w, h, a.0, a.1, b.0, b.1);
      a.0 == b.0 || a.1 == b.1 || (a.0 / h == b.0 / h && a.1 / w == b.1 / w)
    else
      a.0 == b.0 || a.1 == b.1 || (a.0 / h == b.0 / h && a.1 / w == b.1 / w)
  }

  /** No filled value occurs twice in a row, a column or a box. */
  ghost predicate NoRepeats(b: Board, w: int, h: int)
    requires w > 0 && h > 0 && IsSquare(b, |b|)
  {
    forall r1, c1, r2, c2 ::
      (InBoard(|b|, (r1, c1)) && InBoard(|b|, (r2, c2)) && (r1, c1) != (r2, c2) &&
       IsNeighbor(w, h, (r1, c1), (r2, c2)) && b[r1][c1] != 0) ==> b[r1][c1] != b[r2][c2]
  }

  /** Two distinct neighbouring cells holding the same value break NoRepeats. */
  lemma RepeatBreaks(b: Board, w: int, h: int, r1: int, c1: int, r2: int, c2: int)
    requires w > 0 && h > 0 && IsSquare(b, |b|)
    requires InBoard(|b|, (r1, c1)) && InBoard(|b|, (r2, c2)) && (r1, c1) != (r2, c2)
    requires IsNeighbor(w, h, (r1, c1), (r2, c2)) && b[r1][c1] != 0 && b[r1][c1] == b[r2][c2]
    ensures !NoRepeats(b, w, h)
  {
  }

  // ---------------------------------------------------------------------------
  // validate

  /** Cell (r, c) comes before (row, col) in the row-major scan. */
  predicate Before(r: int, c: int, row: int, col: int) {
    r < row || (r == row && c < col)
  }

  /**
   * The same order as Before, under another name: the flag invariant below
   * is only used at cells a proof names with Seen, which keeps the verifier
   * from chasing flags from cell to cell.
   */
  predicate Seen(r: int, c: int, row: int, col: int) {
    r < row || (r == row && c < col)
  }

  /** No repeat among the cells scanned before (row, col). */
  ghost predicate NoRepeatsBefore(b: Board, w: int, h: int, row: int, col: int)
    requires w > 0 && h > 0 && IsSquare(b, |b|)
  {
    forall r1, c1, r2, c2 ::
      (InBoard(|b|, (r1, c1)) && InBoard(|b|, (r2, c2)) && Before(r1, c1, row, col) && Before(r2, c2, row, col) &&
       (r1, c1) != (r2, c2) && IsNeighbor(w, h, (r1, c1), (r2, c2)) && b[r1][c1] != 0) ==> b[r1][c1] != b[r2][c2]
  }

  /** n lists of n flags: the shape of row_numbers, col_numbers and box_numbers. */
  predicate FlagShape(f: seq<seq<bool>>, n: int) {
    |f| == n && forall i :: 0 <= i < n ==> |f[i]| == n
  }

  /** The flag for value index v of unit k (false for an index off the lists). */
  predicate FlagAt(f: seq<seq<bool>>, k: int, v: int) {
    0 <= k < |f| && 0 <= v < |f[k]| && f[k][v]
  }

  /** The three families of flags validate keeps. */
  datatype Unit = RowUnit | ColUnit | BoxUnit

  /** The index of the unit of the given family that holds cell (r, c). */
  function UnitOf(kind: Unit, w: int, h: int, r: int, c: int): int
    requires w > 0 && h > 0
  {
    match kind
    case RowUnit => r
    case ColUnit => c
    case BoxUnit => BoxIndex(w, h, r, c)
  }

  /** Unit k of the family has met value v among the cells scanned before (row, col). */
  ghost predicate UnitHas(b: Board, w: int, h: int, kind: Unit, k: int, v: int, row: int, col: int)
    requires w > 0 && h > 0 && IsSquare(b, |b|)
  {
    exists r, c :: InBoard(|b|, (r, c)) && Before(r, c, row, col) && UnitOf(kind, w, h, r, c) == k && b[r][c] == v
  }

  /**
   * The flags of one family after scanning up to (row, col): flag [k][v] is
   * set exactly when value v + 1 has been met in unit k.
   */
  ghost predicate Flagged(b: Board, w: int, h: int, kind: Unit, f: seq<seq<bool>>, row: int, col: int)
  {
    w > 0 && h > 0 && Normalised(b, |b|) && FlagShape(f, |b|) &&
    (forall r, c {:trigger Seen(r, c, row, col)} ::
       0 <= r < |b| && 0 <= c < |b| && Seen(r, c, row, col) && b[r][c] != 0 ==>
         FlagAt(f, UnitOf(kind, w, h, r, c), b[r][c] - 1)) &&
    (forall k, v :: 0 <= k < |b| && 0 <= v < |b| && f[k][v] ==> UnitHas(b, w, h, kind, k, v + 1, row, col))
  }

  /** The flags after validate has looked at cell (row, col). */
  function Mark(f: seq<seq<bool>>, k: int, cell: int): seq<seq<bool>>
    requires 0 <= k < |f| && 0 <= cell - 1 < |f[k]|
  {
    f[k := f[k][cell - 1 := true]]
  }

  /** What validate knows after scanning the cells before (row, col) without finding a repeat. */
  ghost predicate Scanned(b: Board, w: int, h: int, rows: seq<seq<bool>>, cols: seq<seq<bool>>, boxes: seq<seq<bool>>,
                          row: int, col: int)
  {
    Flagged(b, w, h, RowUnit, rows, row, col) && Flagged(b, w, h, ColUnit, cols, row, col) &&
    Flagged(b, w, h, BoxUnit, boxes, row, col) && NoRepeatsBefore(b, w, h, row, col)
  }

  /** validate: True exactly when no filled value repeats within a row, a column or a box. */
  method Validate(w: int, h: int, b: Board) returns (ok: bool)
    requires w > 0 && h > 0 && |b| == w * h && Normalised(b, |b|)
    ensures ok <==> NoRepeats(b, w, h)
  {
    var n := w * h;
    var rows := seq(n, _ => seq(n, _ => false));
    var cols, boxes := rows, rows;
    ScanStart(b, w, h);
    for row := 0 to n
      invariant Scanned(b, w, h, rows, cols, boxes, row, 0)
    {
      var clash;
      clash, rows, cols, boxes := ScanRow(w, h, b, rows, cols, boxes, row);
      if clash {
        return false;
      }
    }
    AllScanned(b, w, h);
    return true;
  }

  /** Nothing is flagged before the scan starts. */
  lemma ScanStart(b: Board, w: int, h: int)
    requires w > 0 && h > 0 && |b| == w * h && Normalised(b, |b|)
    ensures var none := seq(w * h, _ => seq(w * h, _ => false));
      Scanned(b, w, h, none, none, none, 0, 0)
  {
  }

  /** validate's inner loop over the cells of one row. */
  method ScanRow(w: int, h: int, b: Board, rows: seq<seq<bool>>, cols: seq<seq<bool>>, boxes: seq<seq<bool>>, row: int)
    returns (clash: bool, rows': seq<seq<bool>>, cols': seq<seq<bool>>, boxes': seq<seq<bool>>)
    requires |b| == w * h && 0 <= row < |b| && Scanned(b, w, h, rows, cols, boxes, row, 0)
    ensures clash ==> !NoRepeats(b, w, h)
    ensures !clash ==> Scanned(b, w, h, rows', cols', boxes', row + 1, 0)
  {
    rows', cols', boxes' := rows, cols, boxes;
    for col := 0 to |b|
      invariant Scanned(b, w, h, rows', cols', boxes', row, col)
    {
      clash, rows', cols', boxes' := ScanCell(w, h, b, rows', cols', boxes', row, col);
      if clash {
        return;
      }
    }
    ScanRowEnd(b, w, h, rows', cols', boxes', row);
    clash := false;
  }

  /** One pass of validate's inner loop: check cell (row, col) against the flags, then set them. */
  method ScanCell(w: int, h: int, b: Board, rows: seq<seq<bool>>, cols: seq<seq<bool>>, boxes: seq<seq<bool>>,
                  row: int, col: int)
    returns (clash: bool, rows': seq<seq<bool>>, cols': seq<seq<bool>>, boxes': seq<seq<bool>>)
    requires |b| == w * h && InBoard(|b|, (row, col)) && Scanned(b, w, h, rows, cols, boxes, row, col)
    ensures clash ==> !NoRepeats(b, w, h)
    ensures !clash ==> Scanned(b, w, h, rows', cols', boxes', row, col + 1)
  {
    var cell := b[row][col];
    var box := (row / h) * h + col / w;
    BoxIndexRange(w, h, row, col);
    rows', cols', boxes' := rows, cols, boxes;
    if cell != 0 {
      if rows[row][cell - 1] {
        Clash(b, w, h, RowUnit, rows, row, col);
        return true, rows', cols', boxes';
      } else if cols[col][cell - 1] {
        Clash(b, w, h, ColUnit, cols, row, col);
        return true, rows', cols', boxes';
      } else if boxes[box][cell - 1] {
        Clash(b, w, h, BoxUnit, boxes, row, col);
        return true, rows', cols', boxes';
      }
      NoRepeatsStep(b, w, h, rows, cols, boxes, row, col);
      MarkStep(b, w, h, RowUnit, rows, row, col);
      MarkStep(b, w, h, ColUnit, cols, row, col);
      MarkStep(b, w, h, BoxUnit, boxes, row, col);
      rows' := Mark(rows, row, cell);
      cols' := Mark(cols, col, cell);
      boxes' := Mark(boxes, box, cell);
    } else {
      NoRepeatsStep(b, w, h, rows, cols, boxes, row, col);
      SkipStep(b, w, h, RowUnit, rows, row, col);
      SkipStep(b, w, h, ColUnit, cols, row, col);
      SkipStep(b, w, h, BoxUnit, boxes, row, col);
    }
    clash := false;
  }

  /** The end of one row of the scan is the start of the next. */
  lemma ScanRowEnd(b: Board, w: int, h: int, rows: seq<seq<bool>>, cols: seq<seq<bool>>, boxes: seq<seq<bool>>, row: int)
    requires Scanned(b, w, h, rows, cols, boxes, row, |b|)
    ensures Scanned(b, w, h, rows, cols, boxes, row + 1, 0)
  {
    RowEnd(b, w, h, RowUnit, rows, row);
    RowEnd(b, w, h, ColUnit, cols, row);
    RowEnd(b, w, h, BoxUnit, boxes, row);
    NoRepeatsRowEnd(b, w, h, row);
  }

  /** A flag already set for the value of the cell being scanned means an earlier neighbour holds that value. */
  lemma Clash(b: Board, w: int, h: int, kind: Unit, f: seq<seq<bool>>, row: int, col: int)
    requires |b| == w * h && Flagged(b, w, h, kind, f, row, col) && InBoard(|b|, (row, col)) && b[row][col] != 0
    requires 0 <= UnitOf(kind, w, h, row, col) < |b| && f[UnitOf(kind, w, h, row, col)][b[row][col] - 1]
    ensures !NoRepeats(b, w, h)
  {
    var r, c :| InBoard(|b|, (r, c)) && Before(r, c, row, col) &&
                UnitOf(kind, w, h, r, c) == UnitOf(kind, w, h, row, col) && b[r][c] == b[row][col];
    BoxIndexSame(w, h, r, c, row, col);
    RepeatBreaks(b, w, h, r, c, row, col);
  }

  /** Scanning a filled cell and setting its flag keeps the flags exact. */
  lemma MarkStep(b: Board, w: int, h: int, kind: Unit, f: seq<seq<bool>>, row: int, col: int)
    requires Flagged(b, w, h, kind, f, row, col) && InBoard(|b|, (row, col)) && b[row][col] != 0
    requires 0 <= UnitOf(kind, w, h, row, col) < |b|
    ensures Flagged(b, w, h, kind, Mark(f, UnitOf(kind, w, h, row, col), b[row][col]), row, col + 1)
  {
    MarkSeen(b, w, h, kind, f, row, col);
    MarkMet(b, w, h, kind, f, row, col);
  }

  /** After the mark, every filled cell scanned so far has its flag set. */
  lemma MarkSeen(b: Board, w: int, h: int, kind: Unit, f: seq<seq<bool>>, row: int, col: int)
    requires Flagged(b, w, h, kind, f, row, col) && InBoard(|b|, (row, col)) && b[row][col] != 0
    requires 0 <= UnitOf(kind, w, h, row, col) < |b|
    ensures var f' := Mark(f, UnitOf(kind, w, h, row, col), b[row][col]);
      forall r, c {:trigger Seen(r, c, row, col + 1)} ::
        0 <= r < |b| && 0 <= c < |b| && Seen(r, c, row, col + 1) && b[r][c] != 0 ==>
          FlagAt(f', UnitOf(kind, w, h, r, c), b[r][c] - 1)
  {
    var n := |b|;
    var k0, v0 := UnitOf(kind, w, h, row, col), b[row][col];
    var f' := Mark(f, k0, v0);
    forall r, c | 0 <= r < n && 0 <= c < n && Seen(r, c, row, col + 1) && b[r][c] != 0
      ensures FlagAt(f', UnitOf(kind, w, h, r, c), b[r][c] - 1)
    {
      if (r, c) != (row, col) {
        assert Seen(r, c, row, col);
        MarkKeeps(f, k0, v0, UnitOf(kind, w, h, r, c), b[r][c] - 1);
      }
    }
  }

  /** Setting one flag leaves every flag already set. */
  lemma MarkKeeps(f: seq<seq<bool>>, k0: int, v0: int, k: int, v: int)
    requires 0 <= k0 < |f| && 0 <= v0 - 1 < |f[k0]| && FlagAt(f, k, v)
    ensures FlagAt(Mark(f, k0, v0), k, v)
  {
  }

  /** After the mark, every flag set stands for a value met in its unit. */
  lemma MarkMet(b: Board, w: int, h: int, kind: Unit, f: seq<seq<bool>>, row: int, col: int)
    requires Flagged(b, w, h, kind, f, row, col) && InBoard(|b|, (row, col)) && b[row][col] != 0
    requires 0 <= UnitOf(kind, w, h, row, col) < |b|
    ensures var f' := Mark(f, UnitOf(kind, w, h, row, col), b[row][col]);
      forall k, v :: 0 <= k < |b| && 0 <= v < |b| && f'[k][v] ==> UnitHas(b, w, h, kind, k, v + 1, row, col + 1)
  {
    var n := |b|;
    var f' := Mark(f, UnitOf(kind, w, h, row, col), b[row][col]);
    forall k, v | 0 <= k < n && 0 <= v < n && f'[k][v]
      ensures UnitHas(b, w, h, kind, k, v + 1, row, col + 1)
    {
      if k == UnitOf(kind, w, h, row, col) && v == b[row][col] - 1 {
        assert Before(row, col, row, col + 1);
      } else {
        var r, c :| InBoard(n, (r, c)) && Before(r, c, row, col) && UnitOf(kind, w, h, r, c) == k && b[r][c] == v + 1;
        assert Before(r, c, row, col + 1);
      }
    }
  }

  /** Scanning an empty cell keeps the flags exact. */
  lemma SkipStep(b: Board, w: int, h: int, kind: Unit, f: seq<seq<bool>>, row: int, col: int)
    requires Flagged(b, w, h, kind, f, row, col) && InBoard(|b|, (row, col)) && b[row][col] == 0
    ensures Flagged(b, w, h, kind, f, row, col + 1)
  {
    var n := |b|;
    forall r, c | 0 <= r < n && 0 <= c < n && Seen(r, c, row, col + 1) && b[r][c] != 0
      ensures FlagAt(f, UnitOf(kind, w, h, r, c), b[r][c] - 1)
    {
      assert Seen(r, c, row, col);
    }
    forall k, v | 0 <= k < n && 0 <= v < n && f[k][v]
      ensures UnitHas(b, w, h, kind, k, v + 1, row, col + 1)
    {
      var r, c :| InBoard(n, (r, c)) && Before(r, c, row, col) && UnitOf(kind, w, h, r, c) == k && b[r][c] == v + 1;
      assert Before(r, c, row, col + 1);
    }
  }

  /** The flags at the end of one row of the scan are the flags at the start of the next. */
  lemma RowEnd(b: Board, w: int, h: int, kind: Unit, f: seq<seq<bool>>, row: int)
    requires Flagged(b, w, h, kind, f, row, |b|)
    ensures Flagged(b, w, h, kind, f, row + 1, 0)
  {
    var n := |b|;
    forall r, c | 0 <= r < n && 0 <= c < n && Seen(r, c, row + 1, 0) && b[r][c] != 0
      ensures FlagAt(f, UnitOf(kind, w, h, r, c), b[r][c] - 1)
    {
      assert Seen(r, c, row, n);
    }
    forall k, v | 0 <= k < n && 0 <= v < n && f[k][v]
      ensures UnitHas(b, w, h, kind, k, v + 1, row + 1, 0)
    {
      var r, c :| InBoard(n, (r, c)) && Before(r, c, row, n) && UnitOf(kind, w, h, r, c) == k && b[r][c] == v + 1;
      assert Before(r, c, row + 1, 0);
    }
  }

  /** A cell whose value no flag of its row, column or box records repeats nothing scanned so far. */
  lemma NoRepeatsStep(b: Board, w: int, h: int, rows: seq<seq<bool>>, cols: seq<seq<bool>>, boxes: seq<seq<bool>>,
                      row: int, col: int)
    requires Flagged(b, w, h, RowUnit, rows, row, col) && Flagged(b, w, h, ColUnit, cols, row, col)
    requires Flagged(b, w, h, BoxUnit, boxes, row, col)
    requires |b| == w * h && InBoard(|b|, (row, col)) && NoRepeatsBefore(b, w, h, row, col)
    requires b[row][col] != 0 ==>
      !FlagAt(rows, row, b[row][col] - 1) && !FlagAt(cols, col, b[row][col] - 1) &&
      !FlagAt(boxes, BoxIndex(w, h, row, col), b[row][col] - 1)
    ensures NoRepeatsBefore(b, w, h, row, col + 1)
  {
    var n := |b|;
    forall r, c | InBoard(n, (r, c)) && Before(r, c, row, col) && IsNeighbor(w, h, (r, c), (row, col)) && b[r][c] != 0
      ensures b[r][c] != b[row][col]
    {
      assert Seen(r, c, row, col);
      BoxIndexSame(w, h, r, c, row, col);
    }
  }

  /** Once every row is scanned, no repeat among the scanned cells is no repeat at all. */
  lemma AllScanned(b: Board, w: int, h: int)
    requires w > 0 && h > 0 && IsSquare(b, |b|) && NoRepeatsBefore(b, w, h, |b|, 0)
    ensures NoRepeats(b, w, h)
  {
  }

  /** At the end of a row, NoRepeatsBefore also moves on to the start of the next. */
  lemma NoRepeatsRowEnd(b: Board, w: int, h: int, row: int)
    requires w > 0 && h > 0 && IsSquare(b, |b|) && NoRepeatsBefore(b, w, h, row, |b|)
    ensures NoRepeatsBefore(b, w, h, row + 1, 0)
  {
  }

  // ---------------------------------------------------------------------------
  // Empty cells, in the order __get_blanks lists them

  /** Every cell of the list comes strictly before the next ones in row-major order. */
  predicate RowMajor(cells: seq<Cell>) {
    forall i, j :: 0 <= i < j < |cells| ==> Before(cells[i].0, cells[i].1, cells[j].0, cells[j].1)
  }

  /** Two row-major lists, every cell of the first before every cell of the second, make a row-major list. */
  lemma RowMajorAppend(a: seq<Cell>, b: seq<Cell>)
    requires RowMajor(a) && RowMajor(b)
    requires forall p, q :: p in a && q in b ==> Before(p.0, p.1, q.0, q.1)
    ensures RowMajor(a + b)
  {
    var ab := a + b;
    forall i, j | 0 <= i < j < |ab|
      ensures Before(ab[i].0, ab[i].1, ab[j].0, ab[j].1)
    {
      if j < |a| {
        assert ab[i] == a[i] && ab[j] == a[j];
      } else if |a| <= i {
        assert ab[i] == b[i - |a|] && ab[j] == b[j - |a|];
      } else {
        assert ab[i] in a && ab[j] in b;
      }
    }
  }

  /** A row-major list names no cell twice. */
  lemma RowMajorDistinct(cells: seq<Cell>)
    requires RowMajor(cells)
    ensures forall i, j :: 0 <= i < j < |cells| ==> cells[i] != cells[j]
  {
    forall i, j | 0 <= i < j < |cells|
      ensures cells[i] != cells[j]
    {
      assert Before(cells[i].0, cells[i].1, cells[j].0, cells[j].1);
    }
  }

  /** The empty cells (row, c) among the first k cells of the given row, left to right. */
  function EmptyInRow(cells: seq<int>, row: int, k: int): seq<Cell>
    requires 0 <= k <= |cells|
  {
    if k == 0 then []
    else EmptyInRow(cells, row, k - 1) + (if cells[k - 1] == 0 then [(row, k - 1)] else [])
  }

  /** EmptyInRow lists exactly the empty cells of the prefix, left to right. */
  lemma {:induction false} EmptyInRowMembers(cells: seq<int>, row: int, k: int)
    requires 0 <= k <= |cells|
    ensures forall p :: p in EmptyInRow(cells, row, k) <==> p.0 == row && 0 <= p.1 < k && cells[p.1] == 0
    ensures RowMajor(EmptyInRow(cells, row, k))
  {
    if k > 0 {
      EmptyInRowMembers(cells, row, k - 1);
      var last: seq<Cell> := if cells[k - 1] == 0 then [(row, k - 1)] else [];
      RowMajorAppend(EmptyInRow(cells, row, k - 1), last);
    }
  }

  /** The empty cells of the first k rows of the board, row by row. */
  function EmptyRows(b: Board, k: int): seq<Cell>
    requires 0 <= k <= |b|
  {
    if k == 0 then [] else EmptyRows(b, k - 1) + EmptyInRow(b[k - 1], k - 1, |b[k - 1]|)
  }

  /** EmptyRows lists exactly the empty cells of the first k rows, in row-major order. */
  lemma {:induction false} EmptyRowsMembers(b: Board, k: int)
    requires 0 <= k <= |b|
    ensures forall p :: p in EmptyRows(b, k) <==> 0 <= p.0 < k && 0 <= p.1 < |b[p.0]| && b[p.0][p.1] == 0
    ensures RowMajor(EmptyRows(b, k))
  {
    if k > 0 {
      EmptyRowsMembers(b, k - 1);
      EmptyInRowMembers(b[k - 1], k - 1, |b[k - 1]|);
      RowMajorAppend(EmptyRows(b, k - 1), EmptyInRow(b[k - 1], k - 1, |b[k - 1]|));
    }
  }

  /** The empty cells of the board in row-major order: what __get_blanks returns. */
  function EmptyCells(b: Board): (r: seq<Cell>)
    ensures forall p :: p in r <==> 0 <= p.0 < |b| && 0 <= p.1 < |b[p.0]| && b[p.0][p.1] == 0
    ensures forall i, j :: 0 <= i < j < |r| ==> r[i] != r[j]
  {
    var r := EmptyRows(b, |b|);
    EmptyRowsMembers(b, |b|);
    RowMajorDistinct(r);
    r
  }

  /** EmptyRows only looks at the rows it lists. */
  lemma {:induction false} EmptyRowsFrame(b: Board, b': Board, k: int)
    requires 0 <= k <= |b| && k <= |b'| && forall r :: 0 <= r < k ==> b[r] == b'[r]
    ensures EmptyRows(b, k) == EmptyRows(b', k)
  {
    if k > 0 {
      EmptyRowsFrame(b, b', k - 1);
    }
  }

  /** EmptyInRow only looks at the cells it lists. */
  lemma {:induction false} EmptyInRowFrame(cells: seq<int>, cells': seq<int>, row: int, k: int)
    requires 0 <= k <= |cells| && k <= |cells'| && forall c :: 0 <= c < k ==> cells[c] == cells'[c]
    ensures EmptyInRow(cells, row, k) == EmptyInRow(cells', row, k)
  {
    if k > 0 {
      EmptyInRowFrame(cells, cells', row, k - 1);
    }
  }
}

=== FILE: rect_solver.dfy ===
/**
 * _SudokuSolver of Generator/sudoku.py: the backtracking search over the
 * blank cells of a rectangular-box Sudoku, and Sudoku.solve on top of it.
 *
 * __get_solution shares three lists with its recursive calls and undoes its
 * own changes to them before it gives up: the board, the per-cell lists of
 * values still allowed (blank_fillers) and the filled flags of the blanks
 * (are_blanks_filled).  They are the fields board, fillers and filled of
 * RectSolver, and the recursion changes them in place.
 */
module RectSearch {
  import opened Wrappers
  import opened RectBoard
  import opened RectSudoku
  import SquareBoard

  /** fillers[row][col][v]: value v + 1 may still go into cell (row, col). */
  type Fillers = seq<seq<seq<bool>>>

  /** n by n lists of n flags. */
  predicate FillerShape(f: Fillers, n: int) {
    |f| == n && (forall r :: 0 <= r < n ==> |f[r]| == n) &&
    (forall r, c :: 0 <= r < n && 0 <= c < n ==> |f[r][c]| == n)
  }

  /** No cell other than p that shares a row, a column or a box with p holds v. */
  ghost predicate Free(w: int, h: int, b: Board, p: Cell, v: int)
    requires w > 0 && h > 0 && IsSquare(b, |b|)
  {
    forall r, c :: InBoard(|b|, (r, c)) && (r, c) != p && IsNeighbor(w, h, p, (r, c)) ==> b[r][c] != v
  }

  /** The board with cell p set to v. */
  function Place(b: Board, p: Cell, v: int): (b': Board)
    requires 0 <= p.0 < |b| && 0 <= p.1 < |b[p.0]|
    ensures |b'| == |b| && forall r :: 0 <= r < |b| ==> |b'[r]| == |b[r]|
  {
    b[p.0 := b[p.0][p.1 := v]]
  }

  /** Setting a cell twice keeps the second value. */
  lemma PlaceTwice(b: Board, p: Cell, x: int, y: int)
    requires 0 <= p.0 < |b| && 0 <= p.1 < |b[p.0]|
    ensures Place(Place(b, p, x), p, y) == Place(b, p, y)
  {
    assert Place(Place(b, p, x), p, y)[p.0] == Place(b, p, y)[p.0];
  }

  /** Setting a cell to the value it holds changes nothing. */
  lemma PlaceSame(b: Board, p: Cell)
    requires 0 <= p.0 < |b| && 0 <= p.1 < |b[p.0]|
    ensures Place(b, p, b[p.0][p.1]) == b
  {
    assert Place(b, p, b[p.0][p.1])[p.0] == b[p.0];
  }

  // ---------------------------------------------------------------------------
  // The search state

  /**
   * What __get_solution relies on for one blank p: a filled blank holds a
   * value no neighbour holds; an open blank is empty, and each value its
   * fillers still allow is held by no neighbour.
   */
  ghost predicate BlankState(w: int, h: int, b: Board, f: Fillers, p: Cell, isFilled: bool)
    requires w > 0 && h > 0 && IsSquare(b, |b|) && FillerShape(f, |b|) && InBoard(|b|, p)
  {
    if isFilled then 1 <= b[p.0][p.1] <= |b| && Free(w, h, b, p, b[p.0][p.1])
    else b[p.0][p.1] == 0 && forall v :: 0 <= v < |b| && f[p.0][p.1][v] ==> Free(w, h, b, p, v + 1)
  }

  /** Every blank is a cell of an n by n board. */
  predicate Inside(blanks: seq<Cell>, n: int) {
    forall i :: 0 <= i < |blanks| ==> 0 <= blanks[i].0 < n && 0 <= blanks[i].1 < n
  }

  /** The blanks are distinct cells of the board. */
  predicate BlankList(blanks: seq<Cell>, n: int) {
    Inside(blanks, n) &&
    (forall i, j :: 0 <= i < j < |blanks| ==> blanks[i] != blanks[j])
  }

  /** The state __get_solution is called in, and leaves behind. */
  ghost predicate Searching(w: int, h: int, b: Board, f: Fillers, filled: seq<bool>, blanks: seq<Cell>)
  {
    w > 0 && h > 0 && |b| == w * h && IsSquare(b, |b|) && FillerShape(f, |b|) && |filled| == |blanks| &&
    BlankList(blanks, |b|) &&
    forall i :: 0 <= i < |blanks| ==> BlankState(w, h, b, f, blanks[i], filled[i])
  }

  /** Every cell that is not an open blank of b0 (it holds a value, or is no blank) keeps its value in b. */
  ghost predicate Keeps(b0: Board, b: Board, blanks: seq<Cell>) {
    IsSquare(b0, |b0|) && IsSquare(b, |b0|) &&
    forall r, c :: InBoard(|b0|, (r, c)) && (b0[r][c] != 0 || (r, c) !in blanks) ==> b[r][c] == b0[r][c]
  }

  /** The number of true flags: Python's sum over a list of bools. */
  function CountTrue(s: seq<bool>): (k: nat)
    ensures k <= |s|
  {
    if s == [] then 0 else CountTrue(s[..|s| - 1]) + (if s[|s| - 1] then 1 else 0)
  }

  /** The number of blanks still open. */
  function Open(filled: seq<bool>): (k: nat)
    ensures k <= |filled|
  {
    if filled == [] then 0 else Open(filled[..|filled| - 1]) + (if filled[|filled| - 1] then 0 else 1)
  }

  /** Filling an open blank leaves one blank fewer open. */
  lemma {:induction false} OpenDrop(filled: seq<bool>, i: int)
    requires 0 <= i < |filled| && !filled[i]
    ensures Open(filled[i := true]) == Open(filled) - 1
    decreases |filled|
  {
    var last := |filled| - 1;
    var f' := filled[i := true];
    assert f'[..last] == if i == last then filled[..last] else filled[..last][i := true];
    if i < last {
      OpenDrop(filled[..last], i);
    }
  }

  predicate AllTrue(s: seq<bool>) {
    forall i :: 0 <= i < |s| ==> s[i]
  }

  /** How many values the fillers of cell p still allow. */
  function Count(f: Fillers, p: Cell): nat
    requires 0 <= p.0 < |f| && 0 <= p.1 < |f[p.0]|
  {
    CountTrue(f[p.0][p.1])
  }

  /** Some open blank has no value left: __get_solution gives up at once. */
  ghost predicate Stuck(f: Fillers, filled: seq<bool>, blanks: seq<Cell>)
    requires |filled| == |blanks| && FillerShape(f, |f|) && Inside(blanks, |f|)
  {
    exists i :: 0 <= i < |blanks| && !filled[i] && Count(f, blanks[i]) == 0
  }

  /** Blank ci is open, has the fewest allowed values of the open blanks, and is the first with that many. */
  ghost predicate FirstFewest(f: Fillers, filled: seq<bool>, blanks: seq<Cell>, ci: int)
    requires |filled| == |blanks| && FillerShape(f, |f|) && Inside(blanks, |f|)
  {
    0 <= ci < |blanks| && !filled[ci] &&
    (forall j :: 0 <= j < |blanks| && !filled[j] ==> Count(f, blanks[ci]) <= Count(f, blanks[j])) &&
    (forall j :: 0 <= j < ci && !filled[j] ==> Count(f, blanks[ci]) < Count(f, blanks[j]))
  }

  /**
   * The fillers after the chosen blank takes value number + 1: every other
   * blank that neighbours it loses that value.
   */
  ghost predicate Cleared(w: int, h: int, f: Fillers, f': Fillers, blanks: seq<Cell>, chosen: Cell, number: int)
    requires w > 0 && h > 0
  {
    FillerShape(f, |f|) && FillerShape(f', |f|) &&
    forall r, c, v :: 0 <= r < |f| && 0 <= c < |f| && 0 <= v < |f| ==>
      f'[r][c][v] == (f[r][c][v] && !(v == number && (r, c) in blanks && (r, c) != chosen && IsNeighbor(w, h, (r, c), chosen)))
  }

  /** Some blank marked in revert is p. */
  ghost predicate Reverted(blanks: seq<Cell>, revert: seq<bool>, k: int, p: Cell)
    requires 0 <= k <= |blanks| && k <= |revert|
  {
    exists i :: 0 <= i < k && revert[i] && blanks[i] == p
  }

  /** Two fillers lists with the same flags are the same. */
  lemma FillersExt(f: Fillers, g: Fillers, n: int)
    requires FillerShape(f, n) && FillerShape(g, n)
    requires forall r, c, v :: 0 <= r < n && 0 <= c < n && 0 <= v < n ==> f[r][c][v] == g[r][c][v]
    ensures f == g
  {
    forall r | 0 <= r < n
      ensures f[r] == g[r]
    {
      forall c | 0 <= c < n
        ensures f[r][c] == g[r][c]
      {
      }
    }
  }

  // ---------------------------------------------------------------------------
  // Placing a value keeps the search state

  /** The chosen open blank, set to a value its fillers allow, becomes a filled blank that clashes with nothing. */
  lemma PlaceChosen(w: int, h: int, b: Board, f: Fillers, f': Fillers, chosen: Cell, number: int)
    requires w > 0 && h > 0 && IsSquare(b, |b|) && FillerShape(f, |b|) && FillerShape(f', |b|) && InBoard(|b|, chosen)
    requires BlankState(w, h, b, f, chosen, false) && 0 <= number < |b| && f[chosen.0][chosen.1][number]
    ensures BlankState(w, h, Place(b, chosen, number + 1), f', chosen, true)
  {
    var b' := Place(b, chosen, number + 1);
    assert Free(w, h, b, chosen, number + 1);
    forall r, c | InBoard(|b|, (r, c)) && (r, c) != chosen && IsNeighbor(w, h, chosen, (r, c))
      ensures b'[r][c] != number + 1
    {
      assert b'[r][c] == b[r][c];
    }
  }

  /** Any other blank keeps its state once the chosen blank takes value number + 1 and its neighbours lose that value. */
  lemma PlaceOther(w: int, h: int, b: Board, f: Fillers, f': Fillers, chosen: Cell, number: int, p: Cell, isFilled: bool)
    requires w > 0 && h > 0 && IsSquare(b, |b|) && FillerShape(f, |b|) && FillerShape(f', |b|)
    requires InBoard(|b|, chosen) && InBoard(|b|, p) && p != chosen
    requires BlankState(w, h, b, f, chosen, false) && 0 <= number < |b| && f[chosen.0][chosen.1][number]
    requires BlankState(w, h, b, f, p, isFilled)
    requires forall v :: 0 <= v < |b| ==>
      f'[p.0][p.1][v] == (f[p.0][p.1][v] && !(v == number && IsNeighbor(w, h, p, chosen)))
    ensures BlankState(w, h, Place(b, chosen, number + 1), f', p, isFilled)
  {
    var b' := Place(b, chosen, number + 1);
    assert b'[p.0][p.1] == b[p.0][p.1];
    if isFilled {
      var x := b[p.0][p.1];
      assert Free(w, h, b, chosen, number + 1);
      assert x != number + 1 || !IsNeighbor(w, h, chosen, p);
      forall r, c | InBoard(|b|, (r, c)) && (r, c) != p && IsNeighbor(w, h, p, (r, c))
        ensures b'[r][c] != x
      {
        if (r, c) != chosen {
          assert b'[r][c] == b[r][c];
        }
      }
    } else {
      forall v | 0 <= v < |b| && f'[p.0][p.1][v]
        ensures Free(w, h, b', p, v + 1)
      {
        assert Free(w, h, b, p, v + 1);
        forall r, c | InBoard(|b|, (r, c)) && (r, c) != p && IsNeighbor(w, h, p, (r, c))
          ensures b'[r][c] != v + 1
        {
          if (r, c) != chosen {
            assert b'[r][c] == b[r][c];
          }
        }
      }
    }
  }

  /** Filling the chosen blank with a value its fillers allow, and clearing that value from its neighbours, keeps the search state. */
  lemma PlaceKeepsSearching(w: int, h: int, b: Board, f: Fillers, f': Fillers, filled: seq<bool>, blanks: seq<Cell>,
                            ci: int, number: int)
    requires Searching(w, h, b, f, filled, blanks)
    requires 0 <= ci < |blanks| && !filled[ci] && 0 <= number < |b| && f[blanks[ci].0][blanks[ci].1][number]
    requires Cleared(w, h, f, f', blanks, blanks[ci], number)
    ensures Searching(w, h, Place(b, blanks[ci], number + 1), f', filled[ci := true], blanks)
  {
    var chosen := blanks[ci];
    var b' := Place(b, chosen, number + 1);
    var filled' := filled[ci := true];
    assert BlankState(w, h, b, f, chosen, false);
    forall i | 0 <= i < |blanks|
      ensures BlankState(w, h, b', f', blanks[i], filled'[i])
    {
      if i == ci {
        PlaceChosen(w, h, b, f, f', chosen, number);
      } else {
        var p := blanks[i];
        assert p in blanks && p != chosen;
        PlaceOther(w, h, b, f, f', chosen, number, p, filled[i]);
      }
    }
  }

  /** A solution found after placing a value in an open blank keeps what the board held before the placement. */
  lemma KeepsAfterPlace(b0: Board, p: Cell, x: int, b: Board, blanks: seq<Cell>)
    requires IsSquare(b0, |b0|) && InBoard(|b0|, p) && p in blanks && b0[p.0][p.1] == 0
    requires Keeps(Place(b0, p, x), b, blanks)
    ensures Keeps(b0, b, blanks)
  {
    var b1 := Place(b0, p, x);
    forall r, c | InBoard(|b0|, (r, c)) && (b0[r][c] != 0 || (r, c) !in blanks)
      ensures b[r][c] == b0[r][c]
    {
      assert (r, c) != p;
      assert b1[r][c] == b0[r][c];
    }
  }

  /** Putting back the values recorded in revert undoes the clearing. */
  lemma RestoreUndoesClear(w: int, h: int, f0: Fillers, f1: Fillers, f2: Fillers, blanks: seq<Cell>, chosen: Cell,
                           number: int, revert: seq<bool>)
    requires w > 0 && h > 0 && Cleared(w, h, f0, f1, blanks, chosen, number) && BlankList(blanks, |f0|)
    requires InBoard(|f0|, chosen) && 0 <= number < |f0| && f0[chosen.0][chosen.1][number]
    requires |revert| == |blanks|
    requires forall i :: 0 <= i < |blanks| && blanks[i] != chosen ==>
      (revert[i] <==> IsNeighbor(w, h, blanks[i], chosen) && f0[blanks[i].0][blanks[i].1][number])
    requires FillerShape(f2, |f0|)
    requires forall r, c, v :: 0 <= r < |f0| && 0 <= c < |f0| && 0 <= v < |f0| ==>
      f2[r][c][v] == (f1[r][c][v] || (v == number && Reverted(blanks, revert, |blanks|, (r, c))))
    ensures f2 == f0
  {
    var n := |f0|;
    forall r, c, v | 0 <= r < n && 0 <= c < n && 0 <= v < n
      ensures f2[r][c][v] == f0[r][c][v]
    {
      if v == number {
        if Reverted(blanks, revert, |blanks|, (r, c)) {
          var i :| 0 <= i < |blanks| && revert[i] && blanks[i] == (r, c);
        } else if (r, c) in blanks && (r, c) != chosen && IsNeighbor(w, h, (r, c), chosen) {
          var i :| 0 <= i < |blanks| && blanks[i] == (r, c);
          assert !revert[i];
        }
      }
    }
    FillersExt(f2, f0, n);
  }

  // ---------------------------------------------------------------------------
  // __calculate_blank_cell_fillers

  /** No cell of row `row` or column `col` among the first k, other than (row, col), holds v. */
  ghost predicate LinesFreeTo(b: Board, row: int, col: int, v: int, k: int)
    requires IsSquare(b, |b|) && InBoard(|b|, (row, col)) && k <= |b|
  {
    forall i :: 0 <= i < k ==> (i == col || b[row][i] != v) && (i == row || b[i][col] != v)
  }

  /**
   * No cell of the box with top-left corner (top, left), among those before
   * offset (y, x), other than (row, col), holds v.
   */
  ghost predicate BoxFreeTo(w: int, h: int, b: Board, row: int, col: int, top: int, left: int, v: int, y: int, x: int)
  {
    forall y', x' :: 0 <= y' < h && 0 <= x' < w && Before(y', x', y, x) ==>
      (top + y', left + x') == (row, col) ||
      (0 <= top + y' < |b| && 0 <= left + x' < |b[top + y']| && b[top + y'][left + x'] != v)
  }

  /** The first row and column of the box of (row, col) lie on the board with the whole box. */
  lemma BoxCorner(w: int, h: int, row: int, col: int)
    requires w > 0 && h > 0 && InBoard(w * h, (row, col))
    ensures 0 <= (row / h) * h && (row / h) * h + h <= w * h
    ensures 0 <= (col / w) * w && (col / w) * w + w <= w * h
  {
    var q, k := row / h, col / w;
    QuotientBelow(row, h, w);
    QuotientBelow(col, w, h);
    MulMono(q, 0, h);
    MulMono(w, q + 1, h);
    SquareBoard.Distrib(q + 1, 1, h);
    MulMono(k, 0, w);
    MulMono(h, k + 1, w);
    SquareBoard.Distrib(k + 1, 1, w);
  }

  /** Lines and box clear of v, other than (row, col) itself, is the same as v being free at (row, col). */
  lemma FreeByParts(w: int, h: int, b: Board, row: int, col: int, v: int)
    requires w > 0 && h > 0 && |b| == w * h && IsSquare(b, |b|) && InBoard(|b|, (row, col))
    ensures LinesFreeTo(b, row, col, v, |b|) && BoxFreeTo(w, h, b, row, col, (row / h) * h, (col / w) * w, v, h, 0)
      <==> Free(w, h, b, (row, col), v)
  {
    if LinesFreeTo(b, row, col, v, |b|) && BoxFreeTo(w, h, b, row, col, (row / h) * h, (col / w) * w, v, h, 0) {
      FreeFromParts(w, h, b, row, col, v);
    }
    if Free(w, h, b, (row, col), v) {
      PartsFromFree(w, h, b, row, col, v);
    }
  }

  /** Lines and box clear of v make v free at (row, col). */
  lemma FreeFromParts(w: int, h: int, b: Board, row: int, col: int, v: int)
    requires w > 0 && h > 0 && |b| == w * h && IsSquare(b, |b|) && InBoard(|b|, (row, col))
    requires LinesFreeTo(b, row, col, v, |b|) && BoxFreeTo(w, h, b, row, col, (row / h) * h, (col / w) * w, v, h, 0)
    ensures Free(w, h, b, (row, col), v)
  {
    var n := |b|;
    var top, left := (row / h) * h, (col / w) * w;
    forall r, c | InBoard(n, (r, c)) && (r, c) != (row, col) && IsNeighbor(w, h, (row, col), (r, c))
      ensures b[r][c] != v
    {
      if r != row && c != col {
        BoxIndexSame(w, h, row, col, r, c);
        assert r == top + r % h && c == left + c % w;
        assert Before(r % h, c % w, h, 0);
      } else if r == row {
        assert c != col;
      }
    }
  }

  /** v free at (row, col) leaves its lines and its box clear of v. */
  lemma PartsFromFree(w: int, h: int, b: Board, row: int, col: int, v: int)
    requires w > 0 && h > 0 && |b| == w * h && IsSquare(b, |b|) && InBoard(|b|, (row, col))
    requires Free(w, h, b, (row, col), v)
    ensures LinesFreeTo(b, row, col, v, |b|) && BoxFreeTo(w, h, b, row, col, (row / h) * h, (col / w) * w, v, h, 0)
  {
    var n := |b|;
    var top, left := (row / h) * h, (col / w) * w;
    BoxCorner(w, h, row, col);
    forall y', x' | 0 <= y' < h && 0 <= x' < w && Before(y', x', h, 0) && (top + y', left + x') != (row, col)
      ensures 0 <= top + y' < n && 0 <= left + x' < n && b[top + y'][left + x'] != v
    {
      SquareBoard.DivModOf(h, row / h, y');
      SquareBoard.DivModOf(w, col / w, x');
      BoxIndexSame(w, h, row, col, top + y', left + x');
    }
    forall i | 0 <= i < n
      ensures (i == col || b[row][i] != v) && (i == row || b[i][col] != v)
    {
    }
  }

  /** One more cell of the box: clear up to (y, x + 1) is clear up to (y, x) and at (y, x). */
  lemma BoxStep(w: int, h: int, b: Board, row: int, col: int, top: int, left: int, v: int, y: int, x: int)
    requires 0 <= y < h && 0 <= x < w
    ensures BoxFreeTo(w, h, b, row, col, top, left, v, y, x + 1) <==>
      BoxFreeTo(w, h, b, row, col, top, left, v, y, x) &&
      ((top + y, left + x) == (row, col) || (0 <= top + y < |b| && 0 <= left + x < |b[top + y]| && b[top + y][left + x] != v))
  {
    if BoxFreeTo(w, h, b, row, col, top, left, v, y, x + 1) {
      assert Before(y, x, y, x + 1);
      forall y', x' | 0 <= y' < h && 0 <= x' < w && Before(y', x', y, x)
        ensures (top + y', left + x') == (row, col) ||
          (0 <= top + y' < |b| && 0 <= left + x' < |b[top + y']| && b[top + y'][left + x'] != v)
      {
        assert Before(y', x', y, x + 1);
      }
    } else if BoxFreeTo(w, h, b, row, col, top, left, v, y, x) {
      var x1 := x + 1;
      forall y', x' | 0 <= y' < h && 0 <= x' < w && Before(y', x', y, x1) && (y', x') != (y, x)
        ensures (top + y', left + x') == (row, col) ||
          (0 <= top + y' < |b| && 0 <= left + x' < |b[top + y']| && b[top + y'][left + x'] != v)
      {
        assert Before(y', x', y, x);
      }
    }
  }

  /** The end of one row of the box is the start of the next. */
  lemma BoxRowEnd(w: int, h: int, b: Board, row: int, col: int, top: int, left: int, v: int, y: int)
    ensures BoxFreeTo(w, h, b, row, col, top, left, v, y, w) <==> BoxFreeTo(w, h, b, row, col, top, left, v, y + 1, 0)
  {
    var y1 := y + 1;
    if BoxFreeTo(w, h, b, row, col, top, left, v, y, w) {
      forall y', x' | 0 <= y' < h && 0 <= x' < w && Before(y', x', y1, 0)
        ensures (top + y', left + x') == (row, col) ||
          (0 <= top + y' < |b| && 0 <= left + x' < |b[top + y']| && b[top + y'][left + x'] != v)
      {
        assert Before(y', x', y, w);
      }
    }
    if BoxFreeTo(w, h, b, row, col, top, left, v, y + 1, 0) {
      forall y', x' | 0 <= y' < h && 0 <= x' < w && Before(y', x', y, w)
        ensures (top + y', left + x') == (row, col) ||
          (0 <= top + y' < |b| && 0 <= left + x' < |b[top + y']| && b[top + y'][left + x'] != v)
      {
        assert Before(y', x', y + 1, 0);
      }
    }
  }

  class RectSolver {
    const width: int
    const height: int
    const size: int
    /** The board of the Sudoku being solved. */
    const puzzle: Board
    var board: Board
    var fillers: Fillers
    var filled: seq<bool>

    /** _SudokuSolver(sudoku). */
    constructor (s: Sudoku)
      ensures width == s.width && height == s.height && size == s.width * s.height && puzzle == s.board
    {
      width := s.width;
      height := s.height;
      size := s.width * s.height;
      puzzle := s.board;
      board := s.board;
      fillers := [];
      filled := [];
    }

    /** __get_blanks: the empty cells of the puzzle, row by row. */
    method GetBlanks() returns (blanks: seq<Cell>)
      ensures blanks == EmptyCells(puzzle)
    {
      blanks := [];
      for i := 0 to |puzzle|
        invariant blanks == EmptyRows(puzzle, i)
      {
        for j := 0 to |puzzle[i]|
          invariant blanks == EmptyRows(puzzle, i) + EmptyInRow(puzzle[i], i, j)
        {
          if puzzle[i][j] == 0 {
            blanks := blanks + [(i, j)];
          }
        }
      }
    }

    /**
     * The fillers of one blank (row, col), starting from `start`: the row
     * and column pass, then the box pass, of
     * __calculate_blank_cell_fillers.  Value v + 1 stays allowed exactly when
     * no other cell of the row, the column or the box holds it.
     */
    method BlankFillers(row: int, col: int, start: seq<bool>) returns (fs: seq<bool>)
      requires width > 0 && height > 0 && size == width * height && Normalised(puzzle, size)
      requires InBoard(size, (row, col)) && |start| == size
      ensures |fs| == size
      ensures forall v :: 0 <= v < size ==> (fs[v] <==> start[v] && Free(width, height, puzzle, (row, col), v + 1))
    {
      fs := start;
      for i := 0 to size
        invariant |fs| == size
        invariant forall v :: 0 <= v < size ==> (fs[v] <==> start[v] && LinesFreeTo(puzzle, row, col, v + 1, i))
      {
        var sameRow := puzzle[row][i];
        var sameCol := puzzle[i][col];
        if sameRow != 0 && i != col {
          fs := fs[sameRow - 1 := false];
        }
        if sameCol != 0 && i != row {
          fs := fs[sameCol - 1 := false];
        }
      }
      var top, left := (row / height) * height, (col / width) * width;
      BoxCorner(width, height, row, col);
      for y := 0 to height
        invariant |fs| == size
        invariant forall v :: 0 <= v < size ==>
          (fs[v] <==> start[v] && LinesFreeTo(puzzle, row, col, v + 1, size) &&
                      BoxFreeTo(width, height, puzzle, row, col, top, left, v + 1, y, 0))
      {
        fs := BoxRowFillers(row, col, top, left, y, fs, start);
      }
      forall v | 0 <= v < size
        ensures fs[v] <==> start[v] && Free(width, height, puzzle, (row, col), v + 1)
      {
        FreeByParts(width, height, puzzle, row, col, v + 1);
      }
    }

    /** The inner box loop of __calculate_blank_cell_fillers, over row y of the box. */
    method BoxRowFillers(row: int, col: int, top: int, left: int, y: int, fs: seq<bool>, start: seq<bool>)
      returns (fs': seq<bool>)
      requires width > 0 && height > 0 && size == width * height && Normalised(puzzle, size)
      requires InBoard(size, (row, col)) && |start| == size && |fs| == size
      requires 0 <= top && top + height <= size && 0 <= left && left + width <= size && 0 <= y < height
      requires forall v :: 0 <= v < size ==>
        (fs[v] <==> start[v] && LinesFreeTo(puzzle, row, col, v + 1, size) &&
                    BoxFreeTo(width, height, puzzle, row, col, top, left, v + 1, y, 0))
      ensures |fs'| == size
      ensures forall v :: 0 <= v < size ==>
        (fs'[v] <==> start[v] && LinesFreeTo(puzzle, row, col, v + 1, size) &&
                     BoxFreeTo(width, height, puzzle, row, col, top, left, v + 1, y + 1, 0))
    {
      fs' := fs;
      for x := 0 to width
        invariant |fs'| == size
        invariant forall v :: 0 <= v < size ==>
          (fs'[v] <==> start[v] && LinesFreeTo(puzzle, row, col, v + 1, size) &&
                       BoxFreeTo(width, height, puzzle, row, col, top, left, v + 1, y, x))
      {
        forall v | 1 <= v <= size {
          BoxStep(width, height, puzzle, row, col, top, left, v, y, x);
        }
        if !(top + y == row && left + x == col) {
          var cell := puzzle[top + y][left + x];
          if cell != 0 {
            fs' := fs'[cell - 1 := false];
          }
        }
      }
      forall v | 1 <= v <= size {
        BoxRowEnd(width, height, puzzle, row, col, top, left, v, y);
      }
    }

    /**
     * __calculate_blank_cell_fillers: every flag starts True; a blank's flag
     * for value v + 1 ends False exactly when another cell of its row, column
     * or box holds v + 1.
     */
    method CalculateBlankCellFillers(blanks: seq<Cell>) returns (f: Fillers)
      requires width > 0 && height > 0 && size == width * height && Normalised(puzzle, size)
      requires Inside(blanks, size)
      ensures FillerShape(f, size)
      ensures forall r, c, v :: 0 <= r < size && 0 <= c < size && 0 <= v < size ==>
        (f[r][c][v] <==> (r, c) !in blanks || Free(width, height, puzzle, (r, c), v + 1))
    {
      f := seq(size, _ => seq(size, _ => seq(size, _ => true)));
      for k := 0 to |blanks|
        invariant FillerShape(f, size)
        invariant forall r, c, v :: 0 <= r < size && 0 <= c < size && 0 <= v < size ==>
          (f[r][c][v] <==> (r, c) !in blanks[..k] || Free(width, height, puzzle, (r, c), v + 1))
      {
        var (row, col) := blanks[k];
        var fs := BlankFillers(row, col, f[row][col]);
        f := f[row := f[row][col := fs]];
      }
      assert blanks[..|blanks|] == blanks;
    }

    /**
     * The first loop of __get_solution: dead as soon as an open blank has no
     * value left; otherwise the first open blank with the fewest allowed
     * values, or -1 when every blank is filled.
     */
    method ChooseBlank(blanks: seq<Cell>) returns (dead: bool, ci: int)
      requires |filled| == |blanks| && FillerShape(fillers, |fillers|) && Inside(blanks, |fillers|)
      ensures dead <==> Stuck(fillers, filled, blanks)
      ensures !dead && ci < 0 ==> AllTrue(filled)
      ensures !dead && ci >= 0 ==> FirstFewest(fillers, filled, blanks, ci)
    {
      // min_filler_count, with 0 for None (a count below 1 never gets this far)
      var least := 0;
      ci := -1;
      for i := 0 to |blanks|
        invariant ci == -1 <==> least == 0
        invariant ci == -1 ==> forall j :: 0 <= j < i ==> filled[j]
        invariant ci != -1 ==> 0 <= ci < i && !filled[ci] && least == Count(fillers, blanks[ci])
        invariant ci != -1 ==> forall j :: 0 <= j < i && !filled[j] ==> least <= Count(fillers, blanks[j])
        invariant ci != -1 ==> forall j :: 0 <= j < ci && !filled[j] ==> least < Count(fillers, blanks[j])
        invariant forall j :: 0 <= j < i && !filled[j] ==> Count(fillers, blanks[j]) > 0
      {
        if !filled[i] {
          var (x, y) := blanks[i];
          var count := CountTrue(fillers[x][y]);
          if count == 0 {
            assert Count(fillers, blanks[i]) == 0;
            return true, ci;
          }
          if least == 0 || count < least {
            least := count;
            ci := i;
          }
        }
      }
      dead := false;
    }

    /** board[row][col] = v. */
    method SetCell(p: Cell, v: int)
      modifies this`board
      requires 0 <= p.0 < |board| && 0 <= p.1 < |board[p.0]|
      ensures board == Place(old(board), p, v)
    {
      board := Place(board, p, v);
    }

    /** are_blanks_filled[i] = x. */
    method SetFilled(i: int, x: bool)
      modifies this`filled
      requires 0 <= i < |filled|
      ensures filled == old(filled)[i := x]
    {
      filled := filled[i := x];
    }

    /** blank_fillers[row][col][v] = x. */
    method SetFiller(p: Cell, v: int, x: bool)
      modifies this`fillers
      requires 0 <= p.0 < |fillers| && 0 <= p.1 < |fillers[p.0]| && 0 <= v < |fillers[p.0][p.1]|
      ensures fillers == old(fillers)[p.0 := old(fillers)[p.0][p.1 := old(fillers)[p.0][p.1][v := x]]]
    {
      fillers := fillers[p.0 := fillers[p.0][p.1 := fillers[p.0][p.1][v := x]]];
    }

    /**
     * The clearing loop of __get_solution: every blank other than the chosen
     * one that neighbours it loses value number + 1, and revert records
     * which blanks lost it.
     */
    method ClearNeighbours(blanks: seq<Cell>, chosen: Cell, number: int, revert: seq<bool>) returns (revert': seq<bool>)
      modifies this`fillers
      requires width > 0 && height > 0 && FillerShape(fillers, |fillers|) && BlankList(blanks, |fillers|)
      requires 0 <= number < |fillers| && |revert| == |blanks|
      ensures Cleared(width, height, old(fillers), fillers, blanks, chosen, number)
      ensures |revert'| == |blanks|
      ensures forall i :: 0 <= i < |blanks| && blanks[i] != chosen ==>
        (revert'[i] <==> IsNeighbor(width, height, blanks[i], chosen) && old(fillers)[blanks[i].0][blanks[i].1][number])
    {
      ghost var f0 := fillers;
      var n := |fillers|;
      revert' := revert;
      for i := 0 to |blanks|
        invariant FillerShape(fillers, n) && |revert'| == |blanks|
        invariant forall r, c, v :: 0 <= r < n && 0 <= c < n && 0 <= v < n ==>
          fillers[r][c][v] == (f0[r][c][v] &&
            !(v == number && (r, c) in blanks[..i] && (r, c) != chosen && IsNeighbor(width, height, (r, c), chosen)))
        invariant forall k :: 0 <= k < i && blanks[k] != chosen ==>
          (revert'[k] <==> IsNeighbor(width, height, blanks[k], chosen) && f0[blanks[k].0][blanks[k].1][number])
      {
        var blank := blanks[i];
        assert blanks[..i + 1] == blanks[..i] + [blank];
        assert blank !in blanks[..i];
        if blank != chosen {
          if IsNeighbor(width, height, blank, chosen) && fillers[blank.0][blank.1][number] {
            SetFiller(blank, number, false);
            revert' := revert'[i := true];
          } else {
            revert' := revert'[i := false];
          }
        }
      }
      assert blanks[..|blanks|] == blanks;
    }

    /** The restoring loop of __get_solution: every blank marked in revert gets value number + 1 back. */
    method RestoreNeighbours(blanks: seq<Cell>, revert: seq<bool>, number: int)
      modifies this`fillers
      requires FillerShape(fillers, |fillers|) && Inside(blanks, |fillers|) && 0 <= number < |fillers|
      requires |revert| == |blanks|
      ensures FillerShape(fillers, |old(fillers)|)
      ensures forall r, c, v :: 0 <= r < |fillers| && 0 <= c < |fillers| && 0 <= v < |fillers| ==>
        fillers[r][c][v] == (old(fillers)[r][c][v] || (v == number && Reverted(blanks, revert, |blanks|, (r, c))))
    {
      ghost var f0 := fillers;
      var n := |fillers|;
      for i := 0 to |blanks|
        invariant FillerShape(fillers, n)
        invariant forall r, c, v :: 0 <= r < n && 0 <= c < n && 0 <= v < n ==>
          fillers[r][c][v] == (f0[r][c][v] || (v == number && Reverted(blanks, revert, i, (r, c))))
      {
        forall p {
          RevertedStep(blanks, revert, i, p);
        }
        if revert[i] {
          SetFiller(blanks[i], number, true);
        }
      }
    }

    /**
     * One pass of __get_solution's loop over numbers: put number + 1 in the
     * chosen blank, take it away from the blanks around it, search on, and
     * give the taken values back if that finds nothing.
     */
    method TryNumber(blanks: seq<Cell>, ci: int, number: int, revert: seq<bool>,
                     ghost b0: Board, ghost filled0: seq<bool>, ghost x: int)
      returns (found: bool, revert': seq<bool>)
      modifies this
      requires Searching(width, height, b0, fillers, filled0, blanks) && size == width * height
      requires 0 <= ci < |blanks| && !filled0[ci] && filled == filled0[ci := true]
      requires 0 <= number < |b0| && fillers[blanks[ci].0][blanks[ci].1][number]
      requires board == Place(b0, blanks[ci], x) && |revert| == |blanks|
      decreases Open(filled), 2
      ensures |revert'| == |blanks|
      ensures !found ==> fillers == old(fillers) && filled == old(filled) && board == Place(b0, blanks[ci], number + 1)
      ensures found ==> AllTrue(filled) && Searching(width, height, board, fillers, filled, blanks) && Keeps(b0, board, blanks)
    {
      var chosen := blanks[ci];
      assert BlankState(width, height, b0, fillers, chosen, filled0[ci]);
      SetCell(chosen, number + 1);
      PlaceTwice(b0, chosen, x, number + 1);
      ghost var f0 := fillers;
      revert' := ClearNeighbours(blanks, chosen, number, revert);
      PlaceKeepsSearching(width, height, b0, f0, fillers, filled0, blanks, ci, number);
      found := GetSolution(blanks);
      if found {
        KeepsAfterPlace(b0, chosen, number + 1, board, blanks);
        return;
      }
      ghost var f1 := fillers;
      RestoreNeighbours(blanks, revert', number);
      RestoreUndoesClear(width, height, f0, f1, fillers, blanks, chosen, number, revert');
    }

    /**
     * __get_solution: fill the open blanks by backtracking.  On success every
     * blank is filled, no value repeats around a filled blank and the cells
     * that held values keep them; on failure board, fillers and filled are
     * exactly as they were.
     */
    method GetSolution(blanks: seq<Cell>) returns (found: bool)
      modifies this
      requires Searching(width, height, board, fillers, filled, blanks) && size == width * height
      decreases Open(filled), 1
      ensures Stuck(old(fillers), old(filled), blanks) ==> !found
      ensures AllTrue(old(filled)) ==> found && board == old(board)
      ensures !found ==> board == old(board) && fillers == old(fillers) && filled == old(filled)
      ensures found ==> AllTrue(filled) && Searching(width, height, board, fillers, filled, blanks) &&
                        Keeps(old(board), board, blanks)
    {
      var dead, ci := ChooseBlank(blanks);
      if dead {
        return false;
      }
      if ci < 0 {
        return true;
      }
      var chosen := blanks[ci];
      ghost var b0, filled0 := board, filled;
      assert BlankState(width, height, b0, fillers, chosen, false);
      SetFilled(ci, true);
      OpenDrop(filled0, ci);
      var revert := seq(|blanks|, _ => false);
      ghost var x := 0;
      PlaceSame(b0, chosen);
      for number := 0 to size
        invariant fillers == old(fillers) && filled == filled0[ci := true] && |revert| == |blanks|
        invariant board == Place(b0, chosen, x)
      {
        if fillers[chosen.0][chosen.1][number] {
          found, revert := TryNumber(blanks, ci, number, revert, b0, filled0, x);
          if found {
            return;
          }
          x := number + 1;
        }
      }
      SetFilled(ci, false);
      SetCell(chosen, 0);
      PlaceTwice(b0, chosen, x, 0);
      assert filled0[ci := true][ci := false] == filled0;
      found := false;
    }

    /** Start the search: the board, fillers and filled flags _solve hands to __get_solution. */
    method StartSearch(b: Board, f: Fillers, flags: seq<bool>)
      modifies this`board, this`fillers, this`filled
      ensures board == b && fillers == f && filled == flags
    {
      board, fillers, filled := b, f, flags;
    }

    /** The start of _solve: the blanks listed, their fillers worked out, and a copy of the puzzle to search from. */
    method PrepareSearch() returns (blanks: seq<Cell>)
      modifies this`board, this`fillers, this`filled
      requires ShapeOK(width, height) && size == width * height && Normalised(puzzle, size)
      ensures blanks == EmptyCells(puzzle) && board == CopyBoard(puzzle)
      ensures Searching(width, height, board, fillers, filled, blanks)
    {
      blanks := GetBlanks();
      var f := CalculateBlankCellFillers(blanks);
      StartSearch(CopyBoard(puzzle), f, seq(|blanks|, _ => false));
      SearchStart(width, height, puzzle, f, blanks);
    }

    /**
     * _solve: list the blanks, work out their fillers and search from a copy
     * of the puzzle; a solution comes back as a Sudoku of the same box shape
     * with difficulty 0.
     */
    method SolveBlanks() returns (r: Option<Sudoku>)
      modifies this
      requires ShapeOK(width, height) && size == width * height && Normalised(puzzle, size)
      ensures r.Some? ==> r.value.width == width && r.value.height == height && r.value.difficulty == Some(0.0)
      ensures r.Some? ==> Completes(puzzle, r.value.board)
      ensures r.Some? && NoRepeats(puzzle, width, height) ==> NoRepeats(r.value.board, width, height)
    {
      var blanks := PrepareSearch();
      var found := GetSolution(blanks);
      if !found {
        return None;
      }
      SearchEnd(width, height, puzzle, board, fillers, filled, blanks);
      var s := NewSudoku(width, height, board, Some(0.0), []);
      CleanedKeeps(s.board, board, width * height);
      r := Some(s);
    }
  }

  /** Reverted over one more entry of revert. */
  lemma RevertedStep(blanks: seq<Cell>, revert: seq<bool>, k: int, p: Cell)
    requires 0 <= k < |blanks| && k < |revert|
    ensures Reverted(blanks, revert, k + 1, p) <==> Reverted(blanks, revert, k, p) || (revert[k] && blanks[k] == p)
  {
    if Reverted(blanks, revert, k + 1, p) && !(revert[k] && blanks[k] == p) {
      var i :| 0 <= i < k + 1 && revert[i] && blanks[i] == p;
      assert i < k;
    }
  }

  /** b solves puzzle: every cell holds a value of 1..n, and the puzzle's values stay where they were. */
  ghost predicate Completes(puzzle: Board, b: Board) {
    IsSquare(puzzle, |puzzle|) && IsSquare(b, |puzzle|) &&
    forall r, c :: InBoard(|puzzle|, (r, c)) ==>
      1 <= b[r][c] <= |puzzle| && (puzzle[r][c] != 0 ==> b[r][c] == puzzle[r][c])
  }

  /** The state _solve starts __get_solution in is a search state with every blank open. */
  lemma SearchStart(w: int, h: int, puzzle: Board, f: Fillers, blanks: seq<Cell>)
    requires ShapeOK(w, h) && |puzzle| == w * h && Normalised(puzzle, |puzzle|) && blanks == EmptyCells(puzzle)
    requires FillerShape(f, |puzzle|)
    requires forall r, c, v :: 0 <= r < |puzzle| && 0 <= c < |puzzle| && 0 <= v < |puzzle| ==>
      (f[r][c][v] <==> (r, c) !in blanks || Free(w, h, puzzle, (r, c), v + 1))
    ensures Searching(w, h, CopyBoard(puzzle), f, seq(|blanks|, _ => false), blanks)
  {
    var open := seq(|blanks|, _ => false);
    forall i | 0 <= i < |blanks|
      ensures BlankState(w, h, puzzle, f, blanks[i], open[i])
    {
      assert blanks[i] in blanks;
    }
  }

  /** A finished search is a solution, and a puzzle with no repeats gives a solution with none. */
  lemma SearchEnd(w: int, h: int, puzzle: Board, b: Board, f: Fillers, filled: seq<bool>, blanks: seq<Cell>)
    requires ShapeOK(w, h) && |puzzle| == w * h && Normalised(puzzle, |puzzle|) && blanks == EmptyCells(puzzle)
    requires Searching(w, h, b, f, filled, blanks) && AllTrue(filled) && Keeps(puzzle, b, blanks)
    ensures Completes(puzzle, b)
    ensures NoRepeats(puzzle, w, h) ==> NoRepeats(b, w, h)
  {
    var n := |puzzle|;
    forall r, c | InBoard(n, (r, c))
      ensures 1 <= b[r][c] <= n && (puzzle[r][c] != 0 ==> b[r][c] == puzzle[r][c])
    {
      if (r, c) in blanks {
        var i :| 0 <= i < |blanks| && blanks[i] == (r, c);
        assert BlankState(w, h, b, f, blanks[i], filled[i]);
      }
    }
    if NoRepeats(puzzle, w, h) {
      forall r1, c1, r2, c2 | InBoard(n, (r1, c1)) && InBoard(n, (r2, c2)) && (r1, c1) != (r2, c2) &&
                              IsNeighbor(w, h, (r1, c1), (r2, c2)) && b[r1][c1] != 0
        ensures b[r1][c1] != b[r2][c2]
      {
        if (r1, c1) in blanks {
          var i :| 0 <= i < |blanks| && blanks[i] == (r1, c1);
          assert BlankState(w, h, b, f, blanks[i], filled[i]);
        } else if (r2, c2) in blanks {
          var j :| 0 <= j < |blanks| && blanks[j] == (r2, c2);
          assert BlankState(w, h, b, f, blanks[j], filled[j]);
          assert IsNeighbor(w, h, (r2, c2), (r1, c1));
        }
      }
    }
  }

  /**
   * Sudoku.solve: search only if the board validates.  A solution found is
   * returned; otherwise raising gives the error, and not raising gives the
   * all-empty fallback board with difficulty -2.
   */
  method Solve(s: Sudoku, raising: bool) returns (r: Result<Sudoku, string>)
    requires ShapeOK(s.width, s.height) && |s.board| == s.width * s.height && Normalised(s.board, |s.board|)
    ensures r.Err? ==> raising && r.error == "No solution found"
    ensures r.Ok? && r.value.difficulty == Some(0.0) ==>
      NoRepeats(s.board, s.width, s.height) && Completes(s.board, r.value.board) &&
      NoRepeats(r.value.board, s.width, s.height) && r.value.width == s.width && r.value.height == s.height
    ensures r.Ok? && r.value.difficulty != Some(0.0) ==>
      !raising && r.value == Sudoku(s.width, s.height, EmptyBoard(|s.board|), Some(-2.0))
    ensures !NoRepeats(s.board, s.width, s.height) ==> (raising <==> r.Err?) && (r.Ok? ==> r.value.difficulty == Some(-2.0))
  {
    var ok := Validate(s.width, s.height, s.board);
    var solution: Option<Sudoku> := None;
    if ok {
      var solver := new RectSolver(s);
      solution := solver.SolveBlanks();
    }
    if solution.Some? {
      return Ok(solution.value);
    } else if raising {
      return Err("No solution found");
    }
    var fallback := SolveFallback(s.width, s.height);
    return Ok(fallback);
  }
}

=== FILE: rect_sudoku.dfy ===
/**
 * The Sudoku object of Generator/sudoku.py as a value: what __init__ builds
 * from its arguments (normalising the cells it is given, or seeding a
 * board from a shuffled list of positions), the static helpers _copy_board
 * and empty, the module function chunks, and the board solve falls back to.
 */
module RectSudoku {
  import opened Wrappers
  import opened RectBoard
  import SquareBoard

  /**
   * A Sudoku: box width and height, the board, and the difficulty attribute,
   * None where __init__ leaves it unset.  size is width * height.
   */
  datatype Sudoku = Sudoku(width: int, height: int, board: Board, difficulty: Option<real>)

  /** height if height else width: a height of 0 (or None) means square boxes. */
  function HeightOf(width: int, height: int): (h: int)
    ensures height != 0 ==> h == height
    ensures height == 0 ==> h == width
  {
    if height != 0 then height else width
  }

  /** What __init__ makes of one given cell: a value outside 1..size becomes empty. */
  function Cleaned(x: int, n: int): (y: int)
    ensures 0 <= y && (n >= 0 ==> y <= n)
    ensures y != 0 <==> 1 <= x <= n
    ensures y != 0 ==> y == x
  {
    if 1 <= x <= n then x else 0
  }

  /** b has the rows and row lengths of a. */
  predicate SameShape(a: Board, b: Board) {
    |a| == |b| && forall r :: 0 <= r < |a| ==> |a[r]| == |b[r]|
  }

  /**
   * The copy-and-normalise loop of __init__: every cell outside 1..n is
   * emptied, and blank_count counts the cells left empty.
   */
  method NormaliseCells(board: Board, n: int) returns (b: Board, blanks: nat)
    ensures SameShape(b, board)
    ensures forall r, c :: 0 <= r < |b| && 0 <= c < |b[r]| ==> b[r][c] == Cleaned(board[r][c], n)
    ensures blanks == |EmptyCells(b)|
  {
    b := [];
    blanks := 0;
    for r := 0 to |board|
      invariant |b| == r
      invariant forall i :: 0 <= i < r ==> CleanedRow(b[i], board[i], n)
      invariant blanks == |EmptyRows(b, r)|
    {
      var row, count := CleanRow(board[r], r, n);
      EmptyRowsFrame(b, b + [row], r);
      b := b + [row];
      blanks := blanks + count;
    }
  }

  /** row is cells with every value outside 1..n emptied. */
  predicate CleanedRow(row: seq<int>, cells: seq<int>, n: int) {
    |row| == |cells| && forall j :: 0 <= j < |row| ==> row[j] == Cleaned(cells[j], n)
  }

  /** The inner loop of the normalisation, over the cells of row r. */
  method CleanRow(cells: seq<int>, r: int, n: int) returns (row: seq<int>, count: nat)
    ensures |row| == |cells| && forall j :: 0 <= j < |row| ==> row[j] == Cleaned(cells[j], n)
    ensures count == |EmptyInRow(row, r, |row|)|
  {
    row := cells;
    count := 0;
    for c := 0 to |row|
      invariant |row| == |cells|
      invariant forall j :: 0 <= j < c ==> row[j] == Cleaned(cells[j], n)
      invariant forall j :: c <= j < |row| ==> row[j] == cells[j]
      invariant count == |EmptyInRow(row, r, c)|
    {
      if !(1 <= row[c] <= n) {
        EmptyInRowFrame(row, row[c := 0], r, c);
        row := row[c := 0];
        count := count + 1;
      }
    }
  }

  /** row j of the seed board holds positions[j] + 1 at column positions[j] and nothing else. */
  function SeedBoard(positions: seq<int>, n: nat): (b: Board)
    requires |positions| == n
    ensures IsSquare(b, n)
  {
    seq(n, j requires 0 <= j < n => seq(n, i => if i == positions[j] then i + 1 else 0))
  }

  /** positions is a shuffle of 0..n-1. */
  predicate IsPermutation(positions: seq<int>, n: int) {
    |positions| == n && (forall j :: 0 <= j < n ==> 0 <= positions[j] < n) &&
    (forall j, k :: 0 <= j < k < n ==> positions[j] != positions[k])
  }

  /**
   * The seed board from a shuffled list of positions has one clue per row,
   * holding its column number plus one, and it breaks no rule.
   */
  lemma SeedBoardValid(positions: seq<int>, w: int, h: int)
    requires w > 0 && h > 0 && IsPermutation(positions, w * h)
    ensures var b := SeedBoard(positions, w * h);
      Normalised(b, w * h) && NoRepeats(b, w, h) &&
      forall j, i :: 0 <= j < w * h && 0 <= i < w * h ==> (b[j][i] != 0 <==> i == positions[j]) && (b[j][i] != 0 ==> b[j][i] == i + 1)
  {
    var n := w * h;
    var b := SeedBoard(positions, n);
    forall r1, c1, r2, c2 | InBoard(n, (r1, c1)) && InBoard(n, (r2, c2)) && (r1, c1) != (r2, c2) && b[r1][c1] != 0
      ensures b[r1][c1] != b[r2][c2]
    {
      if c2 == positions[r2] && r1 != r2 {
        if r1 < r2 {
          assert positions[r1] != positions[r2];
        } else {
          assert positions[r2] != positions[r1];
        }
      }
    }
  }

  /** blank_count / (size * size): the share of the board's cells that are empty. */
  function BlankShare(b: Board): real
    requires |b| > 0
  {
    (|EmptyCells(b)| as real) / ((|b| * |b|) as real)
  }

  /** The shape __init__ asserts: width > 0, height > 0 and size > 1. */
  predicate InitOK(width: int, height: int) {
    ShapeOK(width, HeightOf(width, height))
  }

  /** Cleaning a board whose cells all hold values of 1..n changes nothing. */
  lemma CleanedKeeps(a: Board, b: Board, n: int)
    requires SameShape(a, b)
    requires forall r, c :: 0 <= r < |b| && 0 <= c < |b[r]| ==> 1 <= b[r][c] <= n && a[r][c] == Cleaned(b[r][c], n)
    ensures a == b
  {
    forall r | 0 <= r < |b|
      ensures a[r] == b[r]
    {
    }
  }

  /**
   * Sudoku(width, height, board, difficulty).  A non-empty board is copied
   * with every cell outside 1..size emptied; without a given difficulty the
   * difficulty is the share of blank cells if the board validates, and -2
   * if it does not.  An empty board is replaced by the seed board built
   * from positions, the result of shuffling 0..size-1.
   */
  method NewSudoku(width: int, height: int, board: Board, difficulty: Option<real>, positions: seq<int>)
    returns (s: Sudoku)
    requires InitOK(width, height)
    requires |board| > 0 && difficulty.None? ==> IsSquare(board, width * HeightOf(width, height))
    requires |board| == 0 ==> IsPermutation(positions, width * HeightOf(width, height))
    ensures s.width == width && s.height == HeightOf(width, height)
    ensures |board| > 0 ==>
      (SameShape(s.board, board) &&
       forall r, c :: 0 <= r < |board| && 0 <= c < |board[r]| ==> s.board[r][c] == Cleaned(board[r][c], width * s.height))
    ensures |board| == 0 ==> s.board == SeedBoard(positions, width * s.height)
    ensures difficulty.Some? || |board| == 0 ==> s.difficulty == difficulty
    ensures difficulty.None? && |board| > 0 ==>
      (Normalised(s.board, width * s.height) &&
       s.difficulty == Some(if NoRepeats(s.board, width, s.height) then BlankShare(s.board) else -2.0))
  {
    var h := HeightOf(width, height);
    var n := width * h;
    if |board| > 0 {
      var b, blanks := NormaliseCells(board, n);
      var d := difficulty;
      if difficulty.None? {
        var ok := Validate(width, h, b);
        d := Some(if ok then (blanks as real) / ((n * n) as real) else -2.0);
        assert |b| == n;
      }
      s := Sudoku(width, h, b, d);
    } else {
      s := Sudoku(width, h, SeedBoard(positions, n), difficulty);
    }
  }

  /** _copy_board: a copy with the same cells. */
  function CopyBoard(board: Board): (r: Board)
    ensures r == board
  {
    var r := seq(|board|, i requires 0 <= i < |board| => seq(|board[i]|, j requires 0 <= j < |board[i]| => board[i][j]));
    assert forall i :: 0 <= i < |board| ==> r[i] == board[i];
    r
  }

  /** An n by n board of empty cells. */
  function EmptyBoard(n: nat): (b: Board)
    ensures IsSquare(b, n) && forall r, c :: 0 <= r < n && 0 <= c < n ==> b[r][c] == 0
  {
    seq(n, _ => seq(n, _ => 0))
  }

  /** An all-empty board breaks no rule. */
  lemma EmptyBoardValid(w: int, h: int)
    requires w > 0 && h > 0
    ensures EmptyCells(EmptyBoard(w * h)) != [] <==> w * h > 0
    ensures NoRepeats(EmptyBoard(w * h), w, h)
  {
    var n := w * h;
    if n > 0 {
      assert (0, 0) in EmptyCells(EmptyBoard(n));
    }
  }

  /** Sudoku.empty(width, height): a board of empty cells, with difficulty 0. */
  method Empty(width: int, height: int) returns (s: Sudoku)
    requires ShapeOK(width, height)
    ensures s == Sudoku(width, height, EmptyBoard(width * height), Some(0.0))
  {
    var n := width * height;
    s := NewSudoku(width, height, EmptyBoard(n), Some(0.0), []);
    assert forall r :: 0 <= r < n ==> s.board[r] == EmptyBoard(n)[r];
  }

  /**
   * The Sudoku solve returns when it finds nothing, as written:
   * Sudoku(board=..., difficulty=-2) passes neither width nor height, so
   * the result has the default 3 by 3 boxes whatever the board's size.
   */
  method SolveFallbackAsWritten(width: int, height: int) returns (s: Sudoku)
    requires ShapeOK(width, height)
    ensures s.width == 3 && s.height == 3 && s.difficulty == Some(-2.0)
    ensures s.board == EmptyBoard(width * height) && IsSquare(s.board, width * height)
    ensures s.width * s.height == |s.board| <==> width * height == 9
  {
    var e := Empty(width, height);
    s := NewSudoku(3, 0, e.board, Some(-2.0), []);
    assert forall r :: 0 <= r < width * height ==> s.board[r] == e.board[r];
  }

  /**
   * The fallback with the puzzle's own box shape: an empty board of the
   * puzzle's size whose width and height multiply to that size.
   */
  method SolveFallback(width: int, height: int) returns (s: Sudoku)
    requires ShapeOK(width, height)
    ensures s.width == width && s.height == height && s.difficulty == Some(-2.0)
    ensures s.board == EmptyBoard(width * height) && |s.board| == s.width * s.height
    ensures NoRepeats(s.board, s.width, s.height)
  {
    var e := Empty(width, height);
    s := NewSudoku(width, height, e.board, Some(-2.0), []);
    assert forall r :: 0 <= r < width * height ==> s.board[r] == e.board[r];
    EmptyBoardValid(width, height);
  }

  /** chunks(lst, n): successive slices of n elements, the last one possibly shorter. */
  function Chunks<T>(lst: seq<T>, n: int): (r: seq<seq<T>>)
    requires n > 0
    ensures forall k :: 0 <= k < |r| ==> 0 < |r[k]| <= n
    ensures forall k :: 0 <= k < |r| - 1 ==> |r[k]| == n
    ensures |r| == (|lst| + n - 1) / n
    decreases |lst|
  {
    if |lst| == 0 then []
    else if |lst| <= n then [lst]
    else
      var rest := Chunks(lst[n..], n);
      assert (|lst| + n - 1) / n == (|lst| - n + n - 1) / n + 1 by { DivStep(|lst| - 1, n); }
      [lst[..n]] + rest
  }

  /** Adding the divisor to the dividend adds one to the quotient. */
  lemma DivStep(a: int, n: int)
    requires n > 0
    ensures (a + n) / n == (a / n) + 1
  {
    var q := a / n;
    assert q * n + a % n == a;
    SquareBoard.Distrib(q + 1, 1, n);
    SquareBoard.DivModOf(n, q + 1, a % n);
  }

  /** Flattening the chunks gives back the list. */
  function Concat<T>(chunks: seq<seq<T>>): seq<T> {
    if chunks == [] then [] else chunks[0] + Concat(chunks[1..])
  }

  /** Putting the chunks back together gives the list. */
  lemma {:induction false} ChunksConcat<T>(lst: seq<T>, n: int)
    requires n > 0
    ensures Concat(Chunks(lst, n)) == lst
    decreases |lst|
  {
    if n < |lst| {
      ChunksConcat(lst[n..], n);
      var r := Chunks(lst, n);
      assert r[0] == lst[..n] && r[1..] == Chunks(lst[n..], n);
      assert lst[..n] + lst[n..] == lst;
    }
  }
}

=== FILE: solver.dfy ===
/**
 * SudokuSolver and SudokuRater of Generator/sudoku_solver.py.
 *
 * The solver is a SudokuGrid (here the component `g`) with a guess tree, two
 * propagation rules and a minimum-remaining-values guesser.  SudokuRater
 * overrides add and guess_least_open_square; since the overriding add is the
 * one fill_must_fills and fill_deterministically call, both classes are one
 * class here and `rating` says which one an object is.
 */
module Solver {
  import opened Wrappers
  import opened SquareBoard
  import opened ConstraintGrid
  import opened GuessTree
  import opened Rating

  /** The value of a needs entry in fill_must_fills: False, or the one cell seen so far. */
  datatype Need = NoCell | OneCell(c: Coord)

  /**
   * The inner loop of fill_must_fills over possible_values(c) for an empty
   * cell c: a still-needed digit with no cell gets c, one that already had a
   * cell is dropped.  The digits are independent, so the order of the set
   * does not matter.
   */
  function Register(needs: map<int, Need>, cands: set<int>, c: Coord): (r: map<int, Need>)
    ensures r.Keys == needs.Keys - (set v | v in cands && v in needs && needs[v].OneCell?)
    ensures forall v :: v in r ==> r[v] == if v in cands then OneCell(c) else needs[v]
  {
    map v | v in needs && !(v in cands && needs[v].OneCell?) :: if v in cands then OneCell(c) else needs[v]
  }

  /** An empty cell c of b that admits v. */
  ghost predicate AdmitsAt(b: Board, w: int, c: Coord, v: int)
    requires Shape(b, w)
  {
    InRange(w, c.0, c.1) && Admits(b, w, c.0, c.1, v)
  }

  /** A move the propagation rules may make on b: an empty cell, a digit, and every solution agrees. */
  ghost predicate SoundMove(b: Board, w: int, m: Move)
    requires Shape(b, w)
  {
    InRange(w, m.x, m.y) && 1 <= m.val <= w * w && b[m.y][m.x] == 0 && Forced(b, w, m.x, m.y, m.val)
  }

  /** A naked single of b: an empty cell whose only candidate is m.val. */
  ghost predicate NakedSingle(b: Board, w: int, m: Move)
    requires Shape(b, w)
  {
    InRange(w, m.x, m.y) && b[m.y][m.x] == 0 && Candidates(b, w, m.x, m.y) == {m.val}
  }

  predicate CoordsIn(w: int, cs: seq<Coord>) {
    forall j :: 0 <= j < |cs| ==> InRange(w, cs[j].0, cs[j].1)
  }

  predicate CoordsDistinct(cs: seq<Coord>) {
    forall j, j' :: 0 <= j < j' < |cs| ==> cs[j] != cs[j']
  }

  /** The needs dict of fill_must_fills after scanning the cells cs of a unit. */
  ghost function NeedsOf(b: Board, w: int, cs: seq<Coord>): (r: map<int, Need>)
    requires Shape(b, w) && CoordsIn(w, cs)
    ensures forall v :: v in r ==> 1 <= v <= w * w
  {
    if cs == [] then map v | v in Digits(w * w) :: NoCell
    else
      var c := cs[|cs| - 1];
      var prev := NeedsOf(b, w, cs[..|cs| - 1]);
      if b[c.1][c.0] != 0 then prev - {b[c.1][c.0]}
      else Register(prev, Candidates(b, w, c.0, c.1), c)
  }

  /** Cells of cs that admit v. */
  ghost predicate AtMostOneAdmits(b: Board, w: int, cs: seq<Coord>, v: int)
    requires Shape(b, w) && CoordsIn(w, cs)
  {
    forall j, j' :: 0 <= j < |cs| && 0 <= j' < |cs| && AdmitsAt(b, w, cs[j], v) && AdmitsAt(b, w, cs[j'], v) ==>
      j == j'
  }

  ghost predicate Absent(b: Board, w: int, cs: seq<Coord>, v: int)
    requires Shape(b, w) && CoordsIn(w, cs)
  {
    forall j :: 0 <= j < |cs| ==> Cell(b, cs[j]) != v
  }

  ghost predicate NoneAdmits(b: Board, w: int, cs: seq<Coord>, v: int)
    requires Shape(b, w) && CoordsIn(w, cs)
  {
    forall j :: 0 <= j < |cs| ==> !AdmitsAt(b, w, cs[j], v)
  }

  /** What NeedsOf says about digit v: needed exactly when absent and admitted at most once, with its cell. */
  ghost predicate NeedsFacts(b: Board, w: int, cs: seq<Coord>, v: int)
    requires Shape(b, w) && CoordsIn(w, cs)
  {
    && (v in NeedsOf(b, w, cs) <==> 1 <= v <= w * w && Absent(b, w, cs, v) && AtMostOneAdmits(b, w, cs, v))
    && (v in NeedsOf(b, w, cs) ==> (NeedsOf(b, w, cs)[v] == NoCell <==> NoneAdmits(b, w, cs, v)))
    && (v in NeedsOf(b, w, cs) && NeedsOf(b, w, cs)[v].OneCell? ==>
         exists j :: 0 <= j < |cs| && cs[j] == NeedsOf(b, w, cs)[v].c && AdmitsAt(b, w, cs[j], v))
  }

  lemma {:induction false} NeedsOfAt(b: Board, w: int, cs: seq<Coord>, v: int)
    requires Shape(b, w) && CoordsIn(w, cs) && CoordsDistinct(cs)
    ensures v in NeedsOf(b, w, cs) <==> 1 <= v <= w * w && Absent(b, w, cs, v) && AtMostOneAdmits(b, w, cs, v)
    ensures v in NeedsOf(b, w, cs) ==> (NeedsOf(b, w, cs)[v] == NoCell <==> NoneAdmits(b, w, cs, v))
    ensures v in NeedsOf(b, w, cs) && NeedsOf(b, w, cs)[v].OneCell? ==>
      exists j :: 0 <= j < |cs| && cs[j] == NeedsOf(b, w, cs)[v].c && AdmitsAt(b, w, cs[j], v)
  {
    if cs != [] {
      var p := cs[..|cs| - 1];
      NeedsOfAt(b, w, p, v);
      if Cell(b, cs[|cs| - 1]) != 0 {
        NeedsFilledStep(b, w, cs, v);
      } else {
        NeedsEmptyStep(b, w, cs, v);
      }
    }
  }

  /** One more cell, filled: it takes its digit out of the needs and admits nothing. */
  lemma NeedsFilledStep(b: Board, w: int, cs: seq<Coord>, v: int)
    requires Shape(b, w) && CoordsIn(w, cs) && cs != [] && NeedsFacts(b, w, cs[..|cs| - 1], v)
    requires Cell(b, cs[|cs| - 1]) != 0
    ensures NeedsFacts(b, w, cs, v)
  {
    var p := cs[..|cs| - 1];
    var c := cs[|cs| - 1];
    assert forall j :: 0 <= j < |p| ==> p[j] == cs[j];
    assert b[c.1][c.0] != 0;
    assert !AdmitsAt(b, w, c, v);
    assert Absent(b, w, cs, v) <==> Absent(b, w, p, v) && b[c.1][c.0] != v;
    assert AtMostOneAdmits(b, w, cs, v) <==> AtMostOneAdmits(b, w, p, v);
    assert NoneAdmits(b, w, cs, v) <==> NoneAdmits(b, w, p, v);
  }

  /** One more cell, empty: it becomes the cell of each needed digit it admits, or spoils a digit admitted before. */
  lemma NeedsEmptyStep(b: Board, w: int, cs: seq<Coord>, v: int)
    requires Shape(b, w) && CoordsIn(w, cs) && CoordsDistinct(cs) && cs != [] && NeedsFacts(b, w, cs[..|cs| - 1], v)
    requires Cell(b, cs[|cs| - 1]) == 0
    ensures NeedsFacts(b, w, cs, v)
  {
    var p := cs[..|cs| - 1];
    var c := cs[|cs| - 1];
    assert forall j :: 0 <= j < |p| ==> p[j] == cs[j];
    assert b[c.1][c.0] == 0;
    var N := NeedsOf(b, w, cs);
    var P := NeedsOf(b, w, p);
    assert Absent(b, w, cs, v) <==> Absent(b, w, p, v) && v != 0;
    if AdmitsAt(b, w, c, v) {
      assert !NoneAdmits(b, w, cs, v);
      assert AtMostOneAdmits(b, w, cs, v) <==> NoneAdmits(b, w, p, v);
      if v in P && P[v].OneCell? {
        var j :| 0 <= j < |p| && p[j] == P[v].c && AdmitsAt(b, w, p[j], v);
        assert !AtMostOneAdmits(b, w, cs, v) by {
          assert AdmitsAt(b, w, cs[j], v) && AdmitsAt(b, w, cs[|cs| - 1], v);
        }
      } else if v in P {
        assert N[v] == OneCell(c);
      }
    } else {
      assert AtMostOneAdmits(b, w, cs, v) <==> AtMostOneAdmits(b, w, p, v);
      assert NoneAdmits(b, w, cs, v) <==> NoneAdmits(b, w, p, v);
      if v in N && N[v].OneCell? {
        var j :| 0 <= j < |p| && p[j] == P[v].c && AdmitsAt(b, w, p[j], v);
        assert cs[j] == N[v].c;
      }
    }
  }

  /** UnitCoords lists the cells of a unit, each once, at position IndexInUnit. */
  lemma UnitListing(w: int, kind: UnitKind, i: int)
    requires w >= 1 && 0 <= i < w * w
    ensures CoordsIn(w, UnitCoords(w, kind, i)) && CoordsDistinct(UnitCoords(w, kind, i))
    ensures forall x, y :: InRange(w, x, y) && InUnit(w, kind, i, x, y) ==>
      0 <= IndexInUnit(w, kind, x, y) < |UnitCoords(w, kind, i)| && UnitCoords(w, kind, i)[IndexInUnit(w, kind, x, y)] == (x, y)
    ensures forall j :: 0 <= j < |UnitCoords(w, kind, i)| ==>
      InUnit(w, kind, i, UnitCoords(w, kind, i)[j].0, UnitCoords(w, kind, i)[j].1)
  {
    var u := UnitCoords(w, kind, i);
    UnitCoordsInRange(w, kind, i);
    forall j, j' | 0 <= j < j' < |u|
      ensures u[j] != u[j']
    {
      UnitCoordsDistinct(w, kind, i, j, j');
    }
    forall x, y | InRange(w, x, y) && InUnit(w, kind, i, x, y)
      ensures 0 <= IndexInUnit(w, kind, x, y) < |u| && u[IndexInUnit(w, kind, x, y)] == (x, y)
    {
      UnitIndexAt(w, kind, i, x, y);
    }
    forall j | 0 <= j < |u|
      ensures InUnit(w, kind, i, u[j].0, u[j].1)
    {
      UnitCoordAt(w, kind, i, j);
    }
  }

  /** At most one cell of unit i admits v. */
  ghost predicate AtMostOneCellAdmits(b: Board, w: int, kind: UnitKind, i: int, v: int)
    requires Shape(b, w)
  {
    forall x1, y1, x2, y2 ::
      (InRange(w, x1, y1) && InUnit(w, kind, i, x1, y1) && Admits(b, w, x1, y1, v) &&
       InRange(w, x2, y2) && InUnit(w, kind, i, x2, y2) && Admits(b, w, x2, y2, v)) ==>
      x1 == x2 && y1 == y2
  }

  /** The digits fill_must_fills keeps for a unit: those it lacks and at most one of its cells admits. */
  lemma UnitNeedsKeys(b: Board, w: int, kind: UnitKind, i: int, v: int)
    requires Shape(b, w) && 0 <= i < w * w
    ensures CoordsIn(w, UnitCoords(w, kind, i))
    ensures v in NeedsOf(b, w, UnitCoords(w, kind, i)) <==>
      1 <= v <= w * w && MissingFrom(b, w, kind, i, v) && AtMostOneCellAdmits(b, w, kind, i, v)
  {
    var u := UnitCoords(w, kind, i);
    UnitListing(w, kind, i);
    NeedsOfAt(b, w, u, v);
    assert Absent(b, w, u, v) <==> MissingFrom(b, w, kind, i, v);
    AtMostOneInUnit(b, w, kind, i, v);
  }

  lemma AtMostOneInUnit(b: Board, w: int, kind: UnitKind, i: int, v: int)
    requires Shape(b, w) && 0 <= i < w * w
    ensures CoordsIn(w, UnitCoords(w, kind, i))
    ensures AtMostOneAdmits(b, w, UnitCoords(w, kind, i), v) <==> AtMostOneCellAdmits(b, w, kind, i, v)
  {
    var u := UnitCoords(w, kind, i);
    UnitListing(w, kind, i);
    if AtMostOneAdmits(b, w, u, v) {
      forall x1, y1, x2, y2 |
        InRange(w, x1, y1) && InUnit(w, kind, i, x1, y1) && Admits(b, w, x1, y1, v) &&
        InRange(w, x2, y2) && InUnit(w, kind, i, x2, y2) && Admits(b, w, x2, y2, v)
        ensures x1 == x2 && y1 == y2
      {
        assert AdmitsAt(b, w, u[IndexInUnit(w, kind, x1, y1)], v);
        assert AdmitsAt(b, w, u[IndexInUnit(w, kind, x2, y2)], v);
      }
    }
    if AtMostOneCellAdmits(b, w, kind, i, v) {
      forall j, j' | 0 <= j < |u| && 0 <= j' < |u| && AdmitsAt(b, w, u[j], v) && AdmitsAt(b, w, u[j'], v)
        ensures j == j'
      {
        assert u[j] == u[j'];
      }
    }
  }

  /** A needed digit left at NoCell has no admitting cell in the unit. */
  lemma UnitNeedsNoCell(b: Board, w: int, kind: UnitKind, i: int, v: int)
    requires Shape(b, w) && 0 <= i < w * w
    requires CoordsIn(w, UnitCoords(w, kind, i))
    requires v in NeedsOf(b, w, UnitCoords(w, kind, i)) && NeedsOf(b, w, UnitCoords(w, kind, i))[v] == NoCell
    ensures forall x, y :: InRange(w, x, y) && InUnit(w, kind, i, x, y) ==> !Admits(b, w, x, y, v)
  {
    var u := UnitCoords(w, kind, i);
    UnitListing(w, kind, i);
    NeedsOfAt(b, w, u, v);
    forall x, y | InRange(w, x, y) && InUnit(w, kind, i, x, y)
      ensures !Admits(b, w, x, y, v)
    {
      assert !AdmitsAt(b, w, u[IndexInUnit(w, kind, x, y)], v);
    }
  }

  /** A dead digit of the unit stays in the needs with no cell. */
  lemma UnitNeedsDead(b: Board, w: int, kind: UnitKind, i: int, v: int)
    requires Shape(b, w) && 0 <= i < w * w && DeadDigit(b, w, kind, i, v)
    ensures CoordsIn(w, UnitCoords(w, kind, i))
    ensures v in NeedsOf(b, w, UnitCoords(w, kind, i)) && NeedsOf(b, w, UnitCoords(w, kind, i))[v] == NoCell
  {
    var u := UnitCoords(w, kind, i);
    UnitListing(w, kind, i);
    NeedsOfAt(b, w, u, v);
    UnitNeedsKeys(b, w, kind, i, v);
    forall j | 0 <= j < |u|
      ensures !AdmitsAt(b, w, u[j], v)
    {
    }
  }

  /** A needed digit with a cell: the cell is in the unit, admits the digit, and is the only one that does. */
  lemma UnitNeedsOneCell(b: Board, w: int, kind: UnitKind, i: int, v: int)
    requires Shape(b, w) && 0 <= i < w * w
    requires CoordsIn(w, UnitCoords(w, kind, i))
    requires v in NeedsOf(b, w, UnitCoords(w, kind, i)) && NeedsOf(b, w, UnitCoords(w, kind, i))[v].OneCell?
    ensures var c := NeedsOf(b, w, UnitCoords(w, kind, i))[v].c;
      && InRange(w, c.0, c.1) && InUnit(w, kind, i, c.0, c.1) && Admits(b, w, c.0, c.1, v)
      && forall x, y :: (InRange(w, x, y) && InUnit(w, kind, i, x, y) && Admits(b, w, x, y, v)) ==> x == c.0 && y == c.1
  {
    var u := UnitCoords(w, kind, i);
    UnitListing(w, kind, i);
    NeedsOfAt(b, w, u, v);
    UnitNeedsKeys(b, w, kind, i, v);
  }

  /** Unit needs left with no cell for a digit: the board has no solution. */
  lemma NeedNoCellUnsolvable(b: Board, w: int, kind: UnitKind, i: int, v: int)
    requires Shape(b, w) && 0 <= i < w * w
    requires CoordsIn(w, UnitCoords(w, kind, i))
    requires v in NeedsOf(b, w, UnitCoords(w, kind, i)) && NeedsOf(b, w, UnitCoords(w, kind, i))[v] == NoCell
    ensures !Solvable(b, w)
  {
    UnitNeedsKeys(b, w, kind, i, v);
    UnitNeedsNoCell(b, w, kind, i, v);
    MissingDigitUnsolvable(b, w, kind, i, v);
  }

  /** The one cell the unit needs give a digit is a hidden single: a sound move. */
  lemma NeedOneCellSound(b: Board, w: int, kind: UnitKind, i: int, v: int)
    requires Shape(b, w) && 0 <= i < w * w
    requires CoordsIn(w, UnitCoords(w, kind, i))
    requires v in NeedsOf(b, w, UnitCoords(w, kind, i)) && NeedsOf(b, w, UnitCoords(w, kind, i))[v].OneCell?
    ensures var c := NeedsOf(b, w, UnitCoords(w, kind, i))[v].c; SoundMove(b, w, Move(c.0, c.1, v))
  {
    var c := NeedsOf(b, w, UnitCoords(w, kind, i))[v].c;
    UnitNeedsKeys(b, w, kind, i, v);
    UnitNeedsOneCell(b, w, kind, i, v);
    HiddenSingleForced(b, w, kind, i, v, c.0, c.1);
  }

  /** Every cell where b differs from b0 holds a digit below v. */
  ghost predicate ChangedBelow(b0: Board, b: Board, w: int, v: int)
    requires Shape(b0, w) && Shape(b, w)
  {
    forall x, y :: InRange(w, x, y) && b[y][x] != b0[y][x] ==> b[y][x] < v
  }

  lemma ChangedBelowNext(b0: Board, b: Board, w: int, v: int)
    requires Shape(b0, w) && Shape(b, w) && ChangedBelow(b0, b, w, v)
    ensures ChangedBelow(b0, b, w, v + 1)
  {
  }

  /** An add of v keeps every change below v + 1. */
  lemma ChangedBelowAdd(b0: Board, b: Board, w: int, x: int, y: int, v: int)
    requires Shape(b0, w) && Shape(b, w) && InRange(w, x, y) && ChangedBelow(b0, b, w, v)
    ensures Shape(AddSpec(b, w, x, y, v, false).1, w)
    ensures ChangedBelow(b0, AddSpec(b, w, x, y, v, false).1, w, v + 1)
  {
    AddSpecOutcome(b, w, x, y, v);
    AddSpecExtends(b, w, x, y, v);
  }

  /**
   * A cell that was empty on b0 and that an earlier digit filled cannot take
   * v; if every solution puts v there, there is no solution.
   */
  lemma LateClashUnsolvable(b0: Board, b: Board, w: int, x: int, y: int, v: int)
    requires Shape(b0, w) && Shape(b, w) && InRange(w, x, y) && ChangedBelow(b0, b, w, v)
    requires b0[y][x] == 0 && b[y][x] != 0 && Forced(b, w, x, y, v) && SameSolutions(b0, b, w)
    ensures !Solvable(b0, w)
  {
    ForcedClashUnsolvable(b, w, x, y, v);
    SameSolvable(b0, b, w);
  }

  /** The move the digit loop of fill_must_fills makes for v, if the needs give v a cell. */
  function PlacementOf(needs: map<int, Need>, v: int): (r: seq<Move>)
    ensures r != [] <==> v in needs && needs[v].OneCell?
  {
    if v in needs && needs[v].OneCell? then [Move(needs[v].c.0, needs[v].c.1, v)] else []
  }

  /** The moves the digit loop makes for the digits 1 .. v - 1, in ascending order of digit. */
  function Placements(needs: map<int, Need>, v: int): seq<Move>
    decreases v
  {
    if v <= 1 then [] else Placements(needs, v - 1) + PlacementOf(needs, v - 1)
  }

  /** Every needed digit below v has a cell. */
  ghost predicate CellsBelow(needs: map<int, Need>, v: int) {
    forall d :: d in needs && d < v ==> needs[d].OneCell?
  }

  lemma CellsBelowNext(needs: map<int, Need>, v: int)
    requires CellsBelow(needs, v) && (v in needs ==> needs[v].OneCell?)
    ensures CellsBelow(needs, v + 1)
  {
  }



  /**
   * The placements for the digits below v are the needed digits with a
   * cell, each at its cell, in strictly ascending order of digit.
   */
  lemma {:induction false} PlacementsSpec(needs: map<int, Need>, v: int)
    requires forall d :: d in needs ==> 1 <= d
    ensures forall mv :: mv in Placements(needs, v) <==>
      mv.val in needs && mv.val < v && needs[mv.val] == OneCell((mv.x, mv.y))
    ensures forall k, k' :: 0 <= k < k' < |Placements(needs, v)| ==>
      Placements(needs, v)[k].val < Placements(needs, v)[k'].val
    ensures forall k :: 0 <= k < |Placements(needs, v)| ==> Placements(needs, v)[k].val < v
    decreases v
  {
    if v > 1 {
      PlacementsSpec(needs, v - 1);
      var p := Placements(needs, v - 1);
      var q := PlacementOf(needs, v - 1);
      assert Placements(needs, v) == p + q;
      forall mv: Move
        ensures mv in p + q <==> mv.val in needs && mv.val < v && needs[mv.val] == OneCell((mv.x, mv.y))
      {
        assert mv in p + q <==> mv in p || mv in q;
      }
      forall k, k' | 0 <= k < k' < |p + q|
        ensures (p + q)[k].val < (p + q)[k'].val
      {
        if k' >= |p| {
          assert (p + q)[k'] == q[0];
        }
      }
    }
  }

  /** Every move of s is sound on b. */
  ghost predicate AllSound(b: Board, w: int, s: seq<Move>)
    requires Shape(b, w)
  {
    forall k :: 0 <= k < |s| ==> SoundMove(b, w, s[k])
  }

  lemma AllSoundAppend(b: Board, w: int, s: seq<Move>, t: seq<Move>)
    requires Shape(b, w) && AllSound(b, w, s) && AllSound(b, w, t)
    ensures AllSound(b, w, s + t)
  {
    forall k | 0 <= k < |s + t|
      ensures SoundMove(b, w, (s + t)[k])
    {
      if k >= |s| {
        assert (s + t)[k] == t[k - |s|];
      }
    }
  }

  /** Every move of s has its cell filled on b. */
  ghost predicate Made(b: Board, w: int, s: seq<Move>)
    requires Shape(b, w)
  {
    forall k :: 0 <= k < |s| ==> InRange(w, s[k].x, s[k].y) && b[s[k].y][s[k].x] != 0
  }

  /** Moves made on b stay made on a fuller board, and moves made there join them. */
  lemma MadeStep(b: Board, b': Board, w: int, s: seq<Move>, t: seq<Move>)
    requires Shape(b, w) && Shape(b', w) && Extends(b', b) && Made(b, w, s) && Made(b', w, t)
    ensures Made(b', w, s + t)
  {
    forall k | 0 <= k < |s + t|
      ensures InRange(w, (s + t)[k].x, (s + t)[k].y) && b'[(s + t)[k].y][(s + t)[k].x] != 0
    {
      if k < |s| {
        assert (s + t)[k] == s[k];
      } else {
        assert (s + t)[k] == t[k - |s|];
      }
    }
  }

  /** Every cell b' holds differently from b was empty in b and now holds the value of a move of s. */
  ghost predicate OnlyFrom(b: Board, b': Board, w: int, s: seq<Move>)
    requires Shape(b, w) && Shape(b', w)
  {
    forall y, x :: InRange(w, x, y) && b'[y][x] != b[y][x] ==> b[y][x] == 0 && Move(x, y, b'[y][x]) in s
  }

  /** A move of s made on an empty cell, or no change at all, keeps the board's changes to moves of s. */
  lemma OnlyFromStep(b0: Board, b: Board, b': Board, w: int, s: seq<Move>, m: Move)
    requires Shape(b0, w) && Shape(b, w) && OnlyFrom(b0, b, w, s)
    requires InRange(w, m.x, m.y) && m in s
    requires b' == b || (b[m.y][m.x] == 0 && b' == Place(b, m.x, m.y, m.val))
    ensures Shape(b', w) && OnlyFrom(b0, b', w, s)
  {
    PlaceShape(b, w, m.x, m.y, m.val);
  }

  /** Changes from the moves of s followed by changes from the moves of t are changes from s + t. */
  lemma OnlyFromTrans(b0: Board, b1: Board, b2: Board, w: int, s: seq<Move>, t: seq<Move>)
    requires Shape(b0, w) && Shape(b1, w) && Shape(b2, w) && Extends(b1, b0)
    requires OnlyFrom(b0, b1, w, s) && OnlyFrom(b1, b2, w, t)
    ensures OnlyFrom(b0, b2, w, s + t)
  {
    forall y, x | InRange(w, x, y) && b2[y][x] != b0[y][x]
      ensures b0[y][x] == 0 && Move(x, y, b2[y][x]) in s + t
    {
      if b2[y][x] == b1[y][x] {
        assert Move(x, y, b1[y][x]) in s;
      } else {
        assert Move(x, y, b2[y][x]) in t;
      }
    }
  }

  /** Filling a cell that was empty leaves fewer empty cells; filling cells never adds one. */
  lemma FewerEmpties(b: Board, b': Board, w: int)
    requires Shape(b, w) && Shape(b', w) && Extends(b', b)
    ensures |Empties(b')| <= |Empties(b)|
    ensures forall x, y :: InRange(w, x, y) && b[y][x] == 0 && b'[y][x] != 0 ==> |Empties(b')| < |Empties(b)|
  {
    EmptiesShrink(b, b', w);
    var e, e' := Empties(b), Empties(b');
    assert |e| == |e'| + |e - e'| by {
      assert e == e' + (e - e');
    }
  }

  /**
   * One round of auto_fill, from bs through bm to be: when it made a move
   * (a move sound at its start and made at its end), fewer cells are empty.
   */
  lemma Progress(bs: Board, bm: Board, be: Board, w: int, s: seq<Move>, t: seq<Move>)
    requires Shape(bs, w) && Shape(bm, w) && Shape(be, w) && Extends(bm, bs) && Extends(be, bm)
    requires AllSound(bs, w, s) && Made(bm, w, s) && AllSound(bm, w, t) && Made(be, w, t)
    ensures |Empties(be)| + (if s + t != [] then 1 else 0) <= |Empties(bs)|
  {
    FewerEmpties(bs, bm, w);
    FewerEmpties(bm, be, w);
    if s != [] {
      assert SoundMove(bs, w, s[0]);
    } else if t != [] {
      assert SoundMove(bm, w, t[0]);
      FewerEmpties(bs, be, w);
    }
  }

  /** A board without solutions has the same (empty) set of solutions as every board that extends it. */
  lemma UnsolvableSame(b: Board, b': Board, w: int)
    requires Shape(b, w) && Shape(b', w) && Extends(b', b) && !Solvable(b, w)
    ensures SameSolutions(b, b', w)
  {
    UnsolvableStaysUnsolvable(b, b', w);
    assert Solutions(b, w) == iset{};
    assert Solutions(b', w) == iset{};
  }

  /** The naked singles of b: every move a one-candidate empty cell allows. */
  ghost function NakedSingles(b: Board, w: int): set<Move>
    requires Shape(b, w)
  {
    set x, y, v | 0 <= x < w * w && 0 <= y < w * w && 1 <= v <= w * w && NakedSingle(b, w, Move(x, y, v)) :: Move(x, y, v)
  }


  /** A move sound on a fuller board with the same solutions is sound on b0. */
  lemma SoundMoveBack(b0: Board, b: Board, w: int, m: Move)
    requires Shape(b0, w) && Shape(b, w) && Extends(b, b0) && SameSolutions(b0, b, w) && SoundMove(b, w, m)
    ensures SoundMove(b0, w, m)
  {
    SameSolutionsForced(b, b0, w, m.x, m.y, m.val);
  }

  /** Moves sound on a fuller board with the same solutions are sound on b0. */
  lemma AllSoundBack(b0: Board, b: Board, w: int, s: seq<Move>)
    requires Shape(b0, w) && Shape(b, w) && Extends(b, b0) && SameSolutions(b0, b, w) && AllSound(b, w, s)
    ensures AllSound(b0, w, s)
  {
    forall k | 0 <= k < |s|
      ensures SoundMove(b0, w, s[k])
    {
      SoundMoveBack(b0, b, w, s[k]);
    }
  }

  lemma SingletonSet(s: set<int>, v: int)
    requires |s| == 1 && v in s
    ensures s == {v}
  {
    assert |s - {v}| == 0;
  }

  /** Some entry before position k of an open-squares list is for cell c. */
  predicate ListedBefore(r: seq<(Coord, set<int>)>, k: int, c: Coord) {
    exists j :: 0 <= j < k && j < |r| && r[j].0 == c
  }

  /** One more digit of the loop appends its move, if any. */
  lemma PlacementsStep(needs: map<int, Need>, v: int)
    requires v >= 1
    ensures Placements(needs, v + 1) == Placements(needs, v) + PlacementOf(needs, v)
  {
  }

  /** Each move of the digit loop is a hidden single of the board its needs come from. */
  lemma {:induction false} PlacementsSound(b: Board, w: int, kind: UnitKind, i: int, needs: map<int, Need>, v: int)
    requires Shape(b, w) && 0 <= i < w * w
    requires CoordsIn(w, UnitCoords(w, kind, i)) && needs == NeedsOf(b, w, UnitCoords(w, kind, i))
    ensures AllSound(b, w, Placements(needs, v))
    decreases v
  {
    if v > 1 {
      PlacementsSound(b, w, kind, i, needs, v - 1);
      if v - 1 in needs && needs[v - 1].OneCell? {
        NeedOneCellSound(b, w, kind, i, v - 1);
      }
      AllSoundAppend(b, w, Placements(needs, v - 1), PlacementOf(needs, v - 1));
    }
  }

  /** The cells of the moves s[k..] are on the board and empty. */
  ghost predicate EmptyFrom(b: Board, w: int, s: seq<Move>, k: int)
    requires Shape(b, w)
  {
    forall j :: 0 <= k <= j < |s| ==> InRange(w, s[j].x, s[j].y) && b[s[j].y][s[j].x] == 0
  }

  /** Moves in strictly ascending order of cell, x first. */
  predicate CellsAscending(s: seq<Move>) {
    forall j, j' :: 0 <= j < j' < |s| ==> CoordLess((s[j].x, s[j].y), (s[j'].x, s[j'].y))
  }

  /** Filling the cell of s[k] leaves the cells of the later moves empty. */
  lemma EmptyFromPlace(b: Board, w: int, s: seq<Move>, k: int)
    requires Shape(b, w) && 0 <= k < |s| && EmptyFrom(b, w, s, k) && CellsAscending(s)
    ensures Shape(Place(b, s[k].x, s[k].y, s[k].val), w)
    ensures EmptyFrom(Place(b, s[k].x, s[k].y, s[k].val), w, s, k + 1)
  {
    PlaceShape(b, w, s[k].x, s[k].y, s[k].val);
  }

  /** When every digit a unit needs has one cell, its placements are those cells, sound, and no digit is dead. */
  lemma UnitPlacements(b: Board, w: int, kind: UnitKind, i: int, needs: map<int, Need>)
    requires Shape(b, w) && 0 <= i < w * w
    requires CoordsIn(w, UnitCoords(w, kind, i)) && needs == NeedsOf(b, w, UnitCoords(w, kind, i))
    requires CellsBelow(needs, w * w + 1)
    ensures forall v :: v in needs ==> needs[v].OneCell?
    ensures var r := Placements(needs, w * w + 1);
      && (forall mv :: mv in r <==> mv.val in needs && needs[mv.val] == OneCell((mv.x, mv.y)))
      && (forall k, k' :: 0 <= k < k' < |r| ==> r[k].val < r[k'].val)
      && AllSound(b, w, r)
    ensures forall v :: !DeadDigit(b, w, kind, i, v)
  {
    PlacementsSound(b, w, kind, i, needs, w * w + 1);
    PlacementsSpec(needs, w * w + 1);
    forall v
      ensures !DeadDigit(b, w, kind, i, v)
    {
      if DeadDigit(b, w, kind, i, v) {
        UnitNeedsDead(b, w, kind, i, v);
      }
    }
  }

  /** The moves of a list, as a set: Python's set() of it. */
  function MoveSet(s: seq<Move>): (r: set<Move>)
    ensures forall mv :: mv in r <==> mv in s
  {
    set k | 0 <= k < |s| :: s[k]
  }

  /** Every move of a sound list is sound. */
  lemma AllSoundMembers(b: Board, w: int, s: seq<Move>)
    requires Shape(b, w) && AllSound(b, w, s)
    ensures forall mv :: mv in s ==> SoundMove(b, w, mv)
  {
    forall mv | mv in s
      ensures SoundMove(b, w, mv)
    {
      var k :| 0 <= k < |s| && s[k] == mv;
    }
  }

  /** Naked singles are sound moves. */
  lemma SinglesSound(b: Board, w: int, s: seq<Move>)
    requires Shape(b, w) && forall mv :: mv in s ==> NakedSingle(b, w, mv)
    ensures AllSound(b, w, s)
  {
    forall k | 0 <= k < |s|
      ensures SoundMove(b, w, s[k])
    {
      assert s[k] in s;
      NakedSingleForced(b, w, s[k].x, s[k].y, s[k].val);
    }
  }

  /** A list holding exactly the naked singles of b, as a set. */
  lemma SinglesSet(b: Board, w: int, s: seq<Move>)
    requires Shape(b, w) && forall mv :: mv in s <==> NakedSingle(b, w, mv)
    ensures MoveSet(s) == NakedSingles(b, w)
  {
    forall mv | mv in MoveSet(s)
      ensures mv in NakedSingles(b, w)
    {
      assert NakedSingle(b, w, mv);
      assert mv.val in Candidates(b, w, mv.x, mv.y);
    }
  }

  /** What scan_fillables learns from the must-fill moves and the one-candidate moves of b. */
  lemma ScanFacts(b: Board, w: int, must: seq<Move>, singles: seq<Move>)
    requires Shape(b, w) && AllSound(b, w, must)
    requires forall mv :: mv in singles <==> NakedSingle(b, w, mv)
    ensures forall mv :: mv in MoveSet(must) ==> SoundMove(b, w, mv)
    ensures MoveSet(singles) == NakedSingles(b, w)
    ensures AllSound(b, w, must + singles)
  {
    AllSoundMembers(b, w, must);
    SinglesSet(b, w, singles);
    SinglesSound(b, w, singles);
    AllSoundAppend(b, w, must, singles);
  }

  /** The element of a one-element set, as set.pop() hands it out. */
  ghost function Pick(s: set<int>): (r: int)
    requires |s| == 1
    ensures r in s
  {
    assert exists v :: v in s by {
      if forall v :: v !in s {
        assert false;
      }
    }
    var v :| v in s; v
  }

  /** The move fill_deterministically makes for one open-squares entry, if it has one candidate. */
  ghost function SingleOf(e: (Coord, set<int>)): seq<Move> {
    if |e.1| == 1 then [Move(e.0.0, e.0.1, Pick(e.1))] else []
  }

  /** one_choice of an open-squares list, as moves, in order. */
  ghost function Singles(poss: seq<(Coord, set<int>)>): seq<Move> {
    if poss == [] then [] else Singles(poss[..|poss| - 1]) + SingleOf(poss[|poss| - 1])
  }

  /** The loop over the open squares that keeps those with a single candidate, as moves. */
  method SinglesIn(poss: seq<(Coord, set<int>)>) returns (one: seq<Move>)
    ensures one == Singles(poss)
  {
    one := [];
    for k := 0 to |poss|
      invariant one == Singles(poss[..k])
    {
      var (c, cands) := poss[k];
      assert poss[..k + 1][..k] == poss[..k];
      if |cands| == 1 {
        assert Pick(cands) in cands;
        var v :| v in cands;
        SingletonSet(cands, v);
        one := one + [Move(c.0, c.1, v)];
      }
    }
    assert poss[..|poss|] == poss;
  }

  /** Some entry of the list is for the cell of mv with mv.val as its only candidate. */
  ghost predicate HasSingle(poss: seq<(Coord, set<int>)>, mv: Move) {
    exists j :: 0 <= j < |poss| && poss[j].0 == (mv.x, mv.y) && poss[j].1 == {mv.val}
  }

  lemma {:induction false} SinglesMembers(poss: seq<(Coord, set<int>)>)
    ensures forall mv :: mv in Singles(poss) <==> HasSingle(poss, mv)
  {
    if poss != [] {
      var p := poss[..|poss| - 1];
      var e := poss[|poss| - 1];
      SinglesMembers(p);
      forall mv
        ensures mv in Singles(poss) <==> HasSingle(poss, mv)
      {
        if HasSingle(poss, mv) {
          var j :| 0 <= j < |poss| && poss[j].0 == (mv.x, mv.y) && poss[j].1 == {mv.val};
          if j < |p| {
            assert p[j] == poss[j];
          } else {
            assert Pick(e.1) == mv.val;
          }
        }
        if mv in SingleOf(e) {
          SingletonSet(e.1, Pick(e.1));
        }
        if HasSingle(p, mv) {
          var j :| 0 <= j < |p| && p[j].0 == (mv.x, mv.y) && p[j].1 == {mv.val};
          assert poss[j] == p[j];
        }
      }
    }
  }

  lemma {:induction false} SinglesAscending(poss: seq<(Coord, set<int>)>)
    requires CoordsSorted(poss)
    ensures CellsAscending(Singles(poss))
  {
    if poss != [] {
      var p := poss[..|poss| - 1];
      var e := poss[|poss| - 1];
      SinglesAscending(p);
      SinglesMembers(p);
      var s := Singles(p);
      forall k | 0 <= k < |s|
        ensures CoordLess((s[k].x, s[k].y), e.0)
      {
        assert s[k] in s;
        var j :| 0 <= j < |p| && p[j].0 == (s[k].x, s[k].y) && p[j].1 == {s[k].val};
        assert poss[j] == p[j];
      }
    }
  }

  /** one_choice of calculate_open_squares holds exactly the naked singles, in ascending order of cell. */
  lemma SinglesNaked(b: Board, w: int, poss: seq<(Coord, set<int>)>)
    requires Shape(b, w) && OpenSquaresOf(b, w, poss)
    ensures forall mv :: mv in Singles(poss) <==> NakedSingle(b, w, mv)
    ensures CellsAscending(Singles(poss))
  {
    SinglesMembers(poss);
    SinglesAscending(poss);
    forall mv
      ensures mv in Singles(poss) <==> NakedSingle(b, w, mv)
    {
      if NakedSingle(b, w, mv) {
        assert Lists(poss, (mv.x, mv.y));
        var j :| 0 <= j < |poss| && poss[j].0 == (mv.x, mv.y);
        assert HasSingle(poss, mv);
      }
      if HasSingle(poss, mv) {
        var j :| 0 <= j < |poss| && poss[j].0 == (mv.x, mv.y) && poss[j].1 == {mv.val};
      }
    }
  }


  /** The cells a guess empties when it is unwrapped lie on the board and off the clues. */
  ghost predicate OffClues(gn: GuessNode, virgin: Board, w: int) {
    forall c :: c in NodeCells(gn) ==> InRange(w, c.0, c.1) && Cell(virgin, c) == 0
  }

  /** The guess tree: ids in range, children after parents, guess cells and consequences off the clues. */
  ghost predicate TreeInvariant(nodes: seq<GuessNode>, guesses: seq<nat>, breadcrumbs: seq<nat>,
                                current: Option<nat>, virgin: Board, w: int)
  {
    && WellFormed(nodes)
    && Distinct(guesses) && Distinct(breadcrumbs)
    && (forall i :: 0 <= i < |guesses| ==> guesses[i] < |nodes|)
    && (forall i :: 0 <= i < |breadcrumbs| ==> breadcrumbs[i] < |nodes|)
    && (current.Some? ==> current.value < |nodes|)
    && (forall d {:trigger OffClues(nodes[d], virgin, w)} :: 0 <= d < |nodes| ==> OffClues(nodes[d], virgin, w))
    && GuessValuesDistinct(nodes, guesses)
  }

  /** The tree after SudokuSolver.add recorded (x, y) = val as a consequence of the current guess. */
  function Recorded(nodes: seq<GuessNode>, current: Option<nat>, x: int, y: int, val: int): (r: seq<GuessNode>)
    requires current.Some? ==> current.value < |nodes|
    ensures |r| == |nodes|
    ensures forall d :: 0 <= d < |nodes| ==>
      r[d].x == nodes[d].x && r[d].y == nodes[d].y && r[d].val == nodes[d].val && r[d].children == nodes[d].children
    ensures forall d :: 0 <= d < |nodes| ==>
      NodeCells(r[d]) == NodeCells(nodes[d]) + (if current == Some(d) then {(x, y)} else {})
  {
    match current
    case None => nodes
    case Some(cg) => nodes[cg := AddConsequence(nodes[cg], x, y, val)]
  }

  /** Recording a consequence off the clues keeps the tree invariant. */
  lemma RecordedKeepsTree(nodes: seq<GuessNode>, guesses: seq<nat>, breadcrumbs: seq<nat>,
                          current: Option<nat>, virgin: Board, w: int, x: int, y: int, val: int)
    requires TreeInvariant(nodes, guesses, breadcrumbs, current, virgin, w)
    requires InRange(w, x, y) && Cell(virgin, (x, y)) == 0
    ensures TreeInvariant(Recorded(nodes, current, x, y, val), guesses, breadcrumbs, current, virgin, w)
  {
    var r := Recorded(nodes, current, x, y, val);
    assert WellFormed(r) by {
      forall id, j | 0 <= id < |r| && 0 <= j < |r[id].children|
        ensures id < r[id].children[j] < |r|
      {
        assert r[id].children == nodes[id].children;
      }
    }
    forall d | 0 <= d < |r|
      ensures OffClues(r[d], virgin, w)
    {
      assert OffClues(nodes[d], virgin, w);
    }
    forall a, b | a in guesses && b in guesses && a < |r| && b < |r| && a != b
      ensures KeyOf(r, a) != KeyOf(r, b)
    {
      assert KeyOf(nodes, a) != KeyOf(nodes, b);
    }
  }

  /** b is b0 with the cells of cs emptied. */
  ghost predicate Cleared(b0: Board, b: Board, w: int, cs: set<Coord>)
    requires Shape(b0, w) && Shape(b, w)
  {
    forall y, x :: InRange(w, x, y) ==> b[y][x] == if (x, y) in cs then 0 else b0[y][x]
  }

  lemma ClearedTrans(b0: Board, b1: Board, b2: Board, w: int, a: set<Coord>, c: set<Coord>)
    requires Shape(b0, w) && Shape(b1, w) && Shape(b2, w) && Cleared(b0, b1, w, a) && Cleared(b1, b2, w, c)
    ensures Cleared(b0, b2, w, a + c)
  {
  }

  /** Dropping guesses from the two lists keeps the tree invariant. */
  lemma TreeAfterWithout(nodes: seq<GuessNode>, guesses: seq<nat>, breadcrumbs: seq<nat>,
                         current: Option<nat>, virgin: Board, w: int, a: set<nat>, c: set<nat>)
    requires TreeInvariant(nodes, guesses, breadcrumbs, current, virgin, w)
    ensures TreeInvariant(nodes, Without(guesses, a), Without(breadcrumbs, c), current, virgin, w)
  {
    WithoutDistinct(guesses, a);
    WithoutDistinct(breadcrumbs, c);
    var gs, bs := Without(guesses, a), Without(breadcrumbs, c);
    forall i | 0 <= i < |gs|
      ensures gs[i] < |nodes|
    {
      assert gs[i] in guesses;
    }
    forall i | 0 <= i < |bs|
      ensures bs[i] < |nodes|
    {
      assert bs[i] in breadcrumbs;
    }
  }

  /**
   * The state after the loop of unwrap_guess(id) handled its first j
   * children: their subtrees' cells emptied and their guesses dropped from
   * both lists.
   */
  ghost predicate Unwound(nodes: seq<GuessNode>, id: nat, j: nat, w: int, b0: Board, b: Board,
                          g0: seq<nat>, gs: seq<nat>, c0: seq<nat>, cs: seq<nat>)
    requires WellFormed(nodes) && id < |nodes| && Shape(b0, w) && Shape(b, w)
  {
    && j <= |nodes[id].children|
    && var f := Forest(nodes, id, nodes[id].children[..j]);
       Cleared(b0, b, w, Footprint(nodes, f)) && gs == Without(g0, f) && cs == Without(c0, f)
  }

  lemma ChildrenStart(nodes: seq<GuessNode>, id: nat, w: int, b: Board, gs: seq<nat>, cs: seq<nat>)
    requires WellFormed(nodes) && id < |nodes| && Shape(b, w)
    ensures Unwound(nodes, id, 0, w, b, b, gs, gs, cs, cs)
  {
    assert nodes[id].children[..0] == [];
    WithoutNothing(gs, {});
    WithoutNothing(cs, {});
  }

  lemma ChildStep(nodes: seq<GuessNode>, id: nat, j: nat, w: int, b0: Board, b: Board, b': Board,
                  g0: seq<nat>, gs: seq<nat>, gs': seq<nat>, c0: seq<nat>, cs: seq<nat>, cs': seq<nat>)
    requires WellFormed(nodes) && id < |nodes| && j < |nodes[id].children| && Shape(b0, w) && Shape(b, w) && Shape(b', w)
    requires Unwound(nodes, id, j, w, b0, b, g0, gs, c0, cs)
    requires Cleared(b, b', w, Footprint(nodes, Subtree(nodes, nodes[id].children[j])))
    requires gs' == Without(gs, Subtree(nodes, nodes[id].children[j]))
    requires cs' == Without(cs, Subtree(nodes, nodes[id].children[j]))
    ensures Unwound(nodes, id, j + 1, w, b0, b', g0, gs', c0, cs')
  {
    var kids := nodes[id].children;
    var before := Forest(nodes, id, kids[..j]);
    var t := Subtree(nodes, kids[j]);
    ForestStep(nodes, id, kids, j);
    FootprintUnion(nodes, before, t);
    ClearedTrans(b0, b, b', w, Footprint(nodes, before), Footprint(nodes, t));
    WithoutWithout(g0, before, t);
    WithoutWithout(c0, before, t);
  }

  /** The child's subtree is the child and its own children's subtrees. */
  lemma SubtreeGlue(nodes: seq<GuessNode>, c: nat, g0: seq<nat>, g1: seq<nat>, g2: seq<nat>)
    requires WellFormed(nodes) && c < |nodes|
    requires g1 == Without(g0, Forest(nodes, c, nodes[c].children)) && g2 == Without(g1, {c})
    ensures g2 == Without(g0, Subtree(nodes, c))
  {
    var f := Forest(nodes, c, nodes[c].children);
    assert Subtree(nodes, c) == f + {c};
    WithoutWithout(g0, f, {c});
  }

  /** The three steps of unwrap_guess(id) together. */
  lemma UnwrapGlue(nodes: seq<GuessNode>, id: nat, w: int, b0: Board, b1: Board, b2: Board,
                   c0: seq<nat>, c1: seq<nat>, c2: seq<nat>)
    requires WellFormed(nodes) && id < |nodes| && Shape(b0, w) && Shape(b1, w) && Shape(b2, w)
    requires Cleared(b0, b1, w, NodeCells(nodes[id]))
    requires Cleared(b1, b2, w, Footprint(nodes, Forest(nodes, id, nodes[id].children)))
    requires c1 == Without(c0, Forest(nodes, id, nodes[id].children)) && c2 == Without(c1, {id})
    ensures Cleared(b0, b2, w, Footprint(nodes, Subtree(nodes, id)))
    ensures c2 == Without(c0, Subtree(nodes, id))
  {
    var f := Forest(nodes, id, nodes[id].children);
    assert Subtree(nodes, id) == f + {id};
    FootprintSubtree(nodes, id);
    ClearedTrans(b0, b1, b2, w, NodeCells(nodes[id]), Footprint(nodes, f));
    WithoutWithout(c0, f, {id});
  }

  /**
   * The entry guess_least_open_square puts first.  Its comparator orders by
   * number of candidates and otherwise answers 0 for every pair it can meet
   * (the coordinate test only ever yields 1, which list.sort does not look
   * at), and list.sort is stable, so the first entry is the first one with
   * the fewest candidates.
   */
  method FirstMinimum(poss: seq<(Coord, set<int>)>) returns (k: nat)
    requires poss != []
    ensures k < |poss|
    ensures forall j :: 0 <= j < |poss| ==> |poss[k].1| <= |poss[j].1|
    ensures forall j :: 0 <= j < k ==> |poss[k].1| < |poss[j].1|
  {
    k := 0;
    for j := 1 to |poss|
      invariant k < j
      invariant forall i :: 0 <= i < j ==> |poss[k].1| <= |poss[i].1|
      invariant forall i :: 0 <= i < k ==> |poss[k].1| < |poss[i].1|
    {
      if |poss[j].1| < |poss[k].1| {
        k := j;
      }
    }
  }

  /** Some open square of the list has no candidate left. */
  predicate AnyDead(open: seq<(Coord, set<int>)>) {
    exists j :: 0 <= j < |open| && open[j].1 == {}
  }

  /** Every empty cell of b still has a candidate. */
  ghost predicate NoDeadSquare(b: Board, w: int)
    requires Shape(b, w)
  {
    forall x, y :: InRange(w, x, y) && b[y][x] == 0 ==> Candidates(b, w, x, y) != {}
  }

  /** An open-squares list of b names an empty cell exactly when b is not complete, and a dead one exactly when b has one. */
  lemma OpenSquaresFacts(b: Board, w: int, open: seq<(Coord, set<int>)>)
    requires Shape(b, w) && OpenSquaresOf(b, w, open)
    ensures open == [] <==> Complete(b)
    ensures !AnyDead(open) ==> NoDeadSquare(b, w)
  {
    if open != [] {
      assert b[open[0].0.1][open[0].0.0] == 0;
    } else {
      forall y, x | 0 <= y < |b| && 0 <= x < |b[y]|
        ensures b[y][x] != 0
      {
        assert !Lists(open, (x, y));
      }
    }
    if !AnyDead(open) {
      forall x, y | InRange(w, x, y) && b[y][x] == 0
        ensures Candidates(b, w, x, y) != {}
      {
        assert Lists(open, (x, y));
        var j :| 0 <= j < |open| && open[j].0 == (x, y);
        assert open[j].1 != {};
      }
    }
  }

  /** A complete board that keeps the invariant of the grid is a solution of the puzzle it extends. */
  lemma CompleteSolves(b: Board, virgin: Board, w: int)
    requires Shape(b, w) && Shape(virgin, w) && Complete(b) && InDigits(b, w * w) && NoDuplicates(b, w)
    requires Extends(b, virgin)
    ensures IsSolution(b, virgin, w)
  {
  }

  /** The entry FirstMinimum picks from an open-squares list is an open square with the fewest candidates, and the first such. */
  lemma LeastSquare(b: Board, w: int, open: seq<(Coord, set<int>)>, k: nat)
    requires Shape(b, w) && OpenSquaresOf(b, w, open) && k < |open|
    requires forall j :: 0 <= j < |open| ==> |open[k].1| <= |open[j].1|
    requires forall j :: 0 <= j < k ==> |open[k].1| < |open[j].1|
    ensures var (x, y) := open[k].0;
      && InRange(w, x, y) && b[y][x] == 0 && open[k].1 == Candidates(b, w, x, y)
      && (forall x', y' :: InRange(w, x', y') && b[y'][x'] == 0 ==> |Candidates(b, w, x, y)| <= |Candidates(b, w, x', y')|)
      && (forall x', y' :: InRange(w, x', y') && b[y'][x'] == 0 && CoordLess((x', y'), (x, y)) ==>
            |Candidates(b, w, x, y)| < |Candidates(b, w, x', y')|)
  {
    var (x, y) := open[k].0;
    forall x', y' | InRange(w, x', y') && b[y'][x'] == 0
      ensures |open[k].1| <= |Candidates(b, w, x', y')|
      ensures CoordLess((x', y'), (x, y)) ==> |open[k].1| < |Candidates(b, w, x', y')|
    {
      assert Lists(open, (x', y'));
      var j :| 0 <= j < |open| && open[j].0 == (x', y');
      assert open[j].1 == Candidates(b, w, x', y');
      if k < j {
        assert CoordLess(open[k].0, open[j].0);
      }
      FirstOfFewest(|open[k].1|, |open[j].1|, k, j, open[k].0, open[j].0);
    }
  }

  /**
   * Entry k against entry j of a list sorted by cell: no more candidates than
   * j, and fewer when j's cell comes first.
   */
  lemma FirstOfFewest(ck: nat, cj: nat, k: nat, j: nat, ak: Coord, aj: Coord)
    requires ck <= cj && (j < k ==> ck < cj) && (k < j ==> CoordLess(ak, aj)) && (k == j ==> ak == aj)
    ensures CoordLess(aj, ak) ==> ck < cj
  {
  }

  /**
   * The arena after guess_least_open_square made the guess (x, y) = v: the
   * new Guess at the end, and its id among the children of the last crumb.
   */
  function WithGuess(nodes: seq<GuessNode>, trail: seq<nat>, x: int, y: int, v: int): (r: seq<GuessNode>)
    requires forall i :: 0 <= i < |trail| ==> trail[i] < |nodes|
    ensures |r| == |nodes| + 1 && r[|nodes|] == GuessNode(x, y, v, [], map[])
    ensures forall d :: 0 <= d < |nodes| ==>
      && r[d].x == nodes[d].x && r[d].y == nodes[d].y && r[d].val == nodes[d].val
      && r[d].consequences == nodes[d].consequences
      && r[d].children == nodes[d].children + if trail != [] && d == trail[|trail| - 1] then [|nodes|] else []
  {
    var parented :=
      if trail == [] then nodes
      else
        var p := trail[|trail| - 1];
        nodes[p := nodes[p].(children := nodes[p].children + [|nodes|])];
    parented + [GuessNode(x, y, v, [], map[])]
  }

  /**
   * A new guess on an empty cell off the clues, with a value not guessed
   * there before, keeps the tree invariant while it is added and once it is
   * listed and on the trail.
   */
  lemma GuessKeepsTree(nodes: seq<GuessNode>, guesses: seq<nat>, breadcrumbs: seq<nat>, current: Option<nat>,
                       virgin: Board, w: int, x: int, y: int, v: int)
    requires TreeInvariant(nodes, guesses, breadcrumbs, current, virgin, w)
    requires InRange(w, x, y) && Cell(virgin, (x, y)) == 0 && v !in GuessesForCoord(nodes, guesses, x, y)
    ensures var r := WithGuess(nodes, breadcrumbs, x, y, v);
      && TreeInvariant(r, guesses, breadcrumbs, None, virgin, w)
      && TreeInvariant(r, guesses + [|nodes|], breadcrumbs, Some(|nodes|), virgin, w)
      && TreeInvariant(r, guesses + [|nodes|], breadcrumbs + [|nodes|], Some(|nodes|), virgin, w)
  {
    var r := WithGuess(nodes, breadcrumbs, x, y, v);
    var id := |nodes|;
    assert WellFormed(r) by {
      forall d, j | 0 <= d < |r| && 0 <= j < |r[d].children|
        ensures d < r[d].children[j] < |r|
      {
        if d < id && j < |nodes[d].children| {
          assert r[d].children[j] == nodes[d].children[j];
        }
      }
    }
    forall d | 0 <= d < |r|
      ensures OffClues(r[d], virgin, w)
    {
      if d < id {
        assert NodeCells(r[d]) == NodeCells(nodes[d]);
        assert OffClues(nodes[d], virgin, w);
      } else {
        assert NodeCells(r[d]) == {(x, y)};
      }
    }
    assert GuessValuesDistinct(r, guesses) by {
      forall a, b | a in guesses && b in guesses && a < |r| && b < |r| && a != b
        ensures KeyOf(r, a) != KeyOf(r, b)
      {
        assert KeyOf(nodes, a) != KeyOf(nodes, b);
      }
    }
    var gs := guesses + [id];
    assert GuessValuesDistinct(r, gs) by {
      forall a, b | a in gs && b in gs && a < |r| && b < |r| && a != b
        ensures KeyOf(r, a) != KeyOf(r, b)
      {
        if a == id || b == id {
          var o := if a == id then b else a;
          var i :| 0 <= i < |guesses| && guesses[i] == o;
          assert nodes[o].x == x && nodes[o].y == y ==> nodes[guesses[i]].val in GuessesForCoord(nodes, guesses, x, y);
        } else {
          assert KeyOf(nodes, a) != KeyOf(nodes, b);
        }
      }
    }
    assert id !in guesses && id !in breadcrumbs;
  }

  /** The root of an unwrapped subtree is emptied with it. */
  lemma RootCleared(nodes: seq<GuessNode>, id: nat, w: int, b0: Board, b: Board)
    requires WellFormed(nodes) && id < |nodes| && Shape(b0, w) && Shape(b, w)
    requires Cleared(b0, b, w, Footprint(nodes, Subtree(nodes, id))) && InRange(w, nodes[id].x, nodes[id].y)
    ensures !Complete(b)
  {
    FootprintSubtree(nodes, id);
    assert (nodes[id].x, nodes[id].y) in NodeCells(nodes[id]);
    assert b[nodes[id].y][nodes[id].x] == 0;
  }

  /** The filled cells of one row. */
  function RowClues(row: seq<int>): (c: nat)
    ensures c <= |row|
    ensures c == |row| <==> forall x :: 0 <= x < |row| ==> row[x] != 0
  {
    if row == [] then 0 else RowClues(row[..|row| - 1]) + (if row[|row| - 1] != 0 then 1 else 0)
  }

  /** The filled cells of a board: the clues, when the board is the puzzle as loaded. */
  function ClueCount(b: Board): (c: nat)
    ensures c <= Cells(b)
    ensures c == Cells(b) <==> Complete(b)
  {
    if b == [] then 0
    else
      var init, last := b[..|b| - 1], b[|b| - 1];
      assert Complete(b) <==> Complete(init) && forall x :: 0 <= x < |last| ==> last[x] != 0 by {
        assert forall y :: 0 <= y < |init| ==> init[y] == b[y];
      }
      ClueCount(init) + RowClues(last)
  }

  /** The loops of difficulty that count the non-zero cells of a board, row by row. */
  method CluesIn(b: Board) returns (clues: nat)
    ensures clues == ClueCount(b)
  {
    clues := 0;
    for y := 0 to |b|
      invariant clues == ClueCount(b[..y])
    {
      var row := b[y];
      var inRow := 0;
      for x := 0 to |row|
        invariant inRow == RowClues(row[..x])
      {
        assert row[..x + 1][..x] == row[..x];
        if row[x] != 0 {
          inRow := inRow + 1;
        }
      }
      assert row[..|row|] == row;
      assert b[..y + 1][..y] == b[..y];
      clues := clues + inRow;
    }
    assert b[..|b|] == b;
  }

  /** The number of cells of a board. */
  function Cells(b: Board): nat {
    if b == [] then 0 else Cells(b[..|b| - 1]) + |b[|b| - 1]|
  }

  /** The cells of a board of the grid's shape: group_size squared. */
  lemma {:induction false} CellsOfShape(b: Board, w: int)
    requires Shape(b, w)
    ensures Cells(b) == w * w * (w * w)
  {
    CellsOfRows(b, w * w, |b|);
    assert b[..|b|] == b;
  }

  lemma {:induction false} CellsOfRows(b: Board, n: nat, k: nat)
    requires k <= |b| && forall y :: 0 <= y < |b| ==> |b[y]| == n
    ensures Cells(b[..k]) == k * n
  {
    if k > 0 {
      CellsOfRows(b, n, k - 1);
      assert b[..k][..k - 1] == b[..k - 1];
    }
  }

  class SudokuSolver {
    const g: SudokuGrid
    /** SudokuRater rather than SudokuSolver */
    const rating: bool
    /** virgin: the puzzle as loaded */
    var virgin: Board
    /** every Guess object made, by id */
    var nodes: seq<GuessNode>
    /** guesses: the GuessList */
    var guesses: seq<nat>
    /** breadcrumbs: the BreadcrumbTrail */
    var breadcrumbs: seq<nat>
    var backtraces: nat
    var currentGuess: Option<nat>
    var solved: bool
    var initialized: bool
    // The fields of SudokuRater.
    var guessing: bool
    var filled: set<Move>
    var fillMustFillables: map<int, set<Move>>
    var eliminationFillables: map<int, set<Move>>
    var tier: nat
    var addMeQueue: seq<Move>

    ghost predicate TreeOk()
      reads this`nodes, this`guesses, this`breadcrumbs, this`currentGuess, this`virgin
    {
      TreeInvariant(nodes, guesses, breadcrumbs, currentGuess, virgin, g.w)
    }

    ghost predicate Valid()
      reads this`nodes, this`guesses, this`breadcrumbs, this`currentGuess, this`virgin, g, g.cells
    {
      && g.Valid()
      && Shape(virgin, g.w)
      && Extends(g.board, virgin)
      && TreeOk()
    }

    /** Nothing of the trail changed. */
    twostate predicate TrailKept()
      reads this`guesses, this`breadcrumbs, this`backtraces, this`currentGuess, this`solved, this`initialized, this`virgin
    {
      && guesses == old(guesses) && breadcrumbs == old(breadcrumbs) && backtraces == old(backtraces)
      && currentGuess == old(currentGuess) && solved == old(solved) && initialized == old(initialized)
      && virgin == old(virgin)
    }

    /** Nothing the rater keeps changed. */
    twostate predicate RaterKept()
      reads this`guessing, this`filled, this`fillMustFillables, this`eliminationFillables, this`tier, this`addMeQueue
    {
      && guessing == old(guessing) && filled == old(filled) && fillMustFillables == old(fillMustFillables)
      && eliminationFillables == old(eliminationFillables) && tier == old(tier) && addMeQueue == old(addMeQueue)
    }

    /** What every add and propagation step keeps: the trail, the guesses' cells and values, the mode. */
    twostate predicate Steady()
      reads this`guesses, this`breadcrumbs, this`backtraces, this`currentGuess, this`solved, this`initialized, this`virgin
      reads this`nodes, this`guessing
    {
      TrailKept() && GuessKeysKept() && guessing == old(guessing)
    }

    /** The guesses keep their cells and values (consequences and children may grow). */
    twostate predicate GuessKeysKept()
      reads this`nodes
    {
      Keys(nodes) == Keys(old(nodes))
    }

    /**
     * The rater's tallies after scanning board b at tier t: the naked singles
     * and the sound must-fill moves not counted before are recorded at t and
     * added to filled; no other tier changes.
     */
    twostate predicate Tallied(b: Board, t: int)
      requires Shape(b, g.w)
      reads this`filled, this`fillMustFillables, this`eliminationFillables
    {
      && eliminationFillables == old(eliminationFillables)[t := NakedSingles(b, g.w) - old(filled)]
      && t in fillMustFillables && fillMustFillables == old(fillMustFillables)[t := fillMustFillables[t]]
      && (forall mv :: mv in fillMustFillables[t] ==> SoundMove(b, g.w, mv) && mv !in old(filled))
      && filled == old(filled) + fillMustFillables[t] + eliminationFillables[t]
    }

    /** self.add reaches the plain SudokuSolver.add. */
    predicate Plain()
      reads this
    {
      !(rating && initialized && !guessing)
    }

    /**
     * SudokuSolver(group_size=w*w) or SudokuRater(group_size=w*w), with no
     * grid: __init__ ends with initialized set.
     */
    constructor(w: int, rating: bool)
      requires w >= 1
      ensures Valid() && fresh(g) && fresh(g.cells) && g.w == w && this.rating == rating
      ensures forall y, x :: InRange(w, x, y) ==> g.board[y][x] == 0
      ensures nodes == [] && guesses == [] && breadcrumbs == [] && backtraces == 0 && currentGuess.None?
      ensures !solved && initialized
      ensures !guessing && filled == {} && tier == 0
      ensures fillMustFillables == map[] && eliminationFillables == map[] && addMeQueue == []
    {
      g := new SudokuGrid(w);
      this.rating := rating;
      virgin := seq(w * w, _ => seq(w * w, _ => 0));
      nodes := [];
      guesses := [];
      breadcrumbs := [];
      backtraces := 0;
      currentGuess := None;
      solved := false;
      initialized := true;
      guessing := false;
      filled := {};
      fillMustFillables := map[];
      eliminationFillables := map[];
      tier := 0;
      addMeQueue := [];
    }

    /**
     * The rest of __init__ with a grid: populate from it (the first failing
     * add ends the population with its error) and copy the result as virgin.
     * The population adds through the grid itself, as the source's adds do
     * while initialized is still False, so the rater branch is not taken.
     */
    method Load(grid: Board) returns (e: Option<SudokuError>)
      requires Valid() && nodes == [] && currentGuess.None?
      requires forall y, x :: InRange(g.w, x, y) ==> g.board[y][x] == 0
      requires |grid| <= g.n && forall y :: 0 <= y < |grid| ==> |grid[y]| <= g.n
      requires forall y, x :: 0 <= y < |grid| && 0 <= x < |grid[y]| ==> 0 <= grid[y][x] <= g.n
      modifies this, g, g.cells
      ensures Valid() && RaterKept() && nodes == old(nodes) && guesses == old(guesses)
      ensures breadcrumbs == old(breadcrumbs) && currentGuess.None?
      ensures e.None? ==> initialized && virgin == g.board
      ensures e.None? ==> forall y, x :: InRange(g.w, x, y) ==> g.board[y][x] == Cell(grid, (x, y))
      ensures e.Some? <==> Repeats(grid, g.w)
      ensures e.Some? ==> e.value.Conflict?
    {
      e := g.PopulateFromGrid(grid);
      if e.Some? {
        return;
      }
      virgin := g.Snapshot();
      initialized := true;
    }

    /** SudokuSolver.add: record the move as a consequence of the current guess, then SudokuGrid.add. */
    method SolverAdd(x: int, y: int, val: int) returns (e: Option<SudokuError>)
      requires Valid() && InRange(g.w, x, y) && 1 <= val <= g.n && virgin[y][x] == 0
      modifies this, g, g.cells
      ensures Valid() && TrailKept() && RaterKept() && GuessKeysKept()
      ensures (e, g.board) == AddSpec(old(g.board), g.w, x, y, val, false)
      ensures nodes == Recorded(old(nodes), old(currentGuess), x, y, val)
    {
      RecordedKeepsTree(nodes, guesses, breadcrumbs, currentGuess, virgin, g.w, x, y, val);
      SameKeys(Recorded(nodes, currentGuess, x, y, val), nodes);
      nodes := Recorded(nodes, currentGuess, x, y, val);
      ghost var b := g.board;
      e := g.Add(x, y, val, false);
      AddSpecExtends(b, g.w, x, y, val);
      ExtendsTrans(g.board, b, virgin);
    }

    /** The needs dict fill_must_fills builds for unit i of a family, scanning its cells in order. */
    method ScanUnit(kind: UnitKind, i: int) returns (needs: map<int, Need>)
      requires Valid() && 0 <= i < g.n
      ensures CoordsIn(g.w, UnitCoords(g.w, kind, i)) && needs == NeedsOf(g.board, g.w, UnitCoords(g.w, kind, i))
    {
      ghost var b := g.board;
      var u := UnitCoords(g.w, kind, i);
      UnitCoordsInRange(g.w, kind, i);
      needs := map v | v in g.genSet :: NoCell;
      assert u[..0] == [];
      for k := 0 to g.n
        invariant needs == NeedsOf(b, g.w, u[..k])
      {
        var c := u[k];
        assert u[..k + 1][..k] == u[..k];
        var val := g.Get(c.0, c.1);
        if val != 0 {
          needs := needs - {val};
        } else {
          var cands := g.PossibleValues(c.0, c.1);
          needs := Register(needs, cands, c);
        }
      }
      assert u[..g.n] == u;
    }

    /**
     * self.add as fill_must_fills and fill_deterministically call it outside
     * a scan: a rater past its constructor and not yet guessing runs
     * SudokuRater.add, everything else SudokuSolver.add.
     */
    method Dispatch(m: Move) returns (e: Option<SudokuError>)
      requires Valid() && InRange(g.w, m.x, m.y) && 1 <= m.val <= g.n && virgin[m.y][m.x] == 0
      requires Forced(g.board, g.w, m.x, m.y, m.val)
      modifies this, g, g.cells
      ensures Valid() && Steady() && Extends(g.board, old(g.board))
      ensures old(Plain()) ==> (e, g.board) == AddSpec(old(g.board), g.w, m.x, m.y, m.val, false) && RaterKept()
      ensures !old(Plain()) ==> OnlyFrom(old(g.board), g.board, g.w, addMeQueue + [m])
      ensures !old(Plain()) && e.None? ==> Made(g.board, g.w, addMeQueue + [m])
      ensures e.None? ==> SameSolutions(old(g.board), g.board, g.w) && g.board[m.y][m.x] != 0
      ensures e == Some(AlreadySet) ==> old(Plain()) && old(g.board)[m.y][m.x] != 0 && g.board == old(g.board)
      ensures e.Some? && e != Some(AlreadySet) ==> e.value.Conflict? && !Solvable(old(g.board), g.w)
    {
      if rating && initialized && !guessing {
        e := RaterAdd(m);
      } else {
        ghost var b := g.board;
        e := SolverAdd(m.x, m.y, m.val);
        AddSpecOutcome(b, g.w, m.x, m.y, m.val);
        AddSpecExtends(b, g.w, m.x, m.y, m.val);
        AddForcedOutcome(b, g.w, m.x, m.y, m.val);
      }
    }

    /** An add of a move forced on the current board, made only when its cell is still empty. */
    method AddIfEmpty(m: Move) returns (e: Option<SudokuError>)
      requires Valid() && InRange(g.w, m.x, m.y) && 1 <= m.val <= g.n
      requires Forced(g.board, g.w, m.x, m.y, m.val)
      modifies this, g, g.cells
      ensures Valid() && Steady() && RaterKept() && Extends(g.board, old(g.board))
      ensures g.board == if e.None? && old(g.board)[m.y][m.x] == 0 then Place(old(g.board), m.x, m.y, m.val) else old(g.board)
      ensures e.None? ==> SameSolutions(old(g.board), g.board, g.w) && g.board[m.y][m.x] != 0
      ensures e.Some? ==> e.value.Conflict? && !Solvable(old(g.board), g.w)
    {
      ghost var b := g.board;
      var cur := g.Get(m.x, m.y);
      if cur != 0 {
        return None;
      }
      e := SolverAdd(m.x, m.y, m.val);
      AddSpecOutcome(b, g.w, m.x, m.y, m.val);
      AddSpecExtends(b, g.w, m.x, m.y, m.val);
      AddForcedOutcome(b, g.w, m.x, m.y, m.val);
    }

    /** The rater's pass over add_me_queue: each queued move whose cell is still empty is made. */
    method AddQueued(q: seq<Move>, ghost b0: Board) returns (e: Option<SudokuError>)
      requires Valid() && Shape(b0, g.w) && Extends(g.board, b0) && SameSolutions(b0, g.board, g.w)
      requires AllSound(b0, g.w, q)
      modifies this, g, g.cells
      ensures Valid() && Steady() && RaterKept() && Extends(g.board, b0)
      ensures OnlyFrom(old(g.board), g.board, g.w, q)
      ensures e.None? ==> SameSolutions(b0, g.board, g.w) && Made(g.board, g.w, q)
      ensures e.Some? ==> e.value.Conflict? && !Solvable(b0, g.w)
    {
      e := None;
      assert q[..0] == [];
      for k := 0 to |q|
        invariant Valid() && Steady() && RaterKept() && Extends(g.board, b0) && SameSolutions(b0, g.board, g.w)
        invariant OnlyFrom(old(g.board), g.board, g.w, q)
        invariant e.None? && Made(g.board, g.w, q[..k])
      {
        e := QueuedStep(q, k, b0, old(g.board));
        if e.Some? {
          return;
        }
      }
      assert q[..|q|] == q;
    }

    /** One move of add_me_queue, made when its cell is still empty. */
    method QueuedStep(q: seq<Move>, k: int, ghost b0: Board, ghost start: Board) returns (e: Option<SudokuError>)
      requires Valid() && Shape(b0, g.w) && Extends(g.board, b0) && SameSolutions(b0, g.board, g.w)
      requires AllSound(b0, g.w, q) && 0 <= k < |q|
      requires Shape(start, g.w) && OnlyFrom(start, g.board, g.w, q) && Made(g.board, g.w, q[..k])
      modifies this, g, g.cells
      ensures Valid() && Steady() && RaterKept() && Extends(g.board, b0)
      ensures OnlyFrom(start, g.board, g.w, q)
      ensures e.None? ==> SameSolutions(b0, g.board, g.w) && Made(g.board, g.w, q[..k + 1])
      ensures e.Some? ==> e.value.Conflict? && !Solvable(b0, g.w)
    {
      ghost var b := g.board;
      SameSolutionsForced(b0, b, g.w, q[k].x, q[k].y, q[k].val);
      e := AddIfEmpty(q[k]);
      ExtendsTrans(g.board, b, b0);
      OnlyFromStep(start, b, g.board, g.w, q, q[k]);
      if e.Some? {
        SameSolvable(b0, b, g.w);
      } else {
        SameSolutionsTrans(b0, b, g.board, g.w);
        assert q[..k + 1] == q[..k] + [q[k]];
        MadeStep(b, g.board, g.w, q[..k], [q[k]]);
      }
    }

    /**
     * SudokuRater.add past the constructor and before the first guess: scan
     * the board for what the two rules could fill right now, add the queued
     * moves whose cells are still empty, then the move itself if its cell is
     * still empty, and open the next tier.
     */
    method RaterAdd(m: Move) returns (e: Option<SudokuError>)
      requires Valid() && rating && initialized && !guessing
      requires InRange(g.w, m.x, m.y) && 1 <= m.val <= g.n && Forced(g.board, g.w, m.x, m.y, m.val)
      modifies this, g, g.cells
      ensures Valid() && Steady() && Extends(g.board, old(g.board))
      ensures e.None? ==> SameSolutions(old(g.board), g.board, g.w) && g.board[m.y][m.x] != 0
      ensures e.Some? ==> e.value.Conflict? && !Solvable(old(g.board), g.w)
      ensures OnlyFrom(old(g.board), g.board, g.w, addMeQueue + [m])
      ensures e.None? ==> Made(g.board, g.w, addMeQueue + [m])
      ensures tier == if e.None? then old(tier) + 1 else old(tier)
      ensures Tallied(old(g.board), old(tier))
    {
      ghost var b0 := g.board;
      ScanFillables();
      e := AddQueued(addMeQueue, b0);
      ghost var b1 := g.board;
      if e.None? {
        e := AddTiered(m, b0);
        OnlyFromTrans(b0, b1, g.board, g.w, addMeQueue, [m]);
        if e.None? {
          MadeStep(b1, g.board, g.w, addMeQueue, [m]);
        }
      } else {
        OnlyFromTrans(b0, b1, g.board, g.w, addMeQueue, [m]);
      }
    }

    /** The rater's own move after the queue: added when its cell is still empty, and then the tier goes up. */
    method AddTiered(m: Move, ghost b0: Board) returns (e: Option<SudokuError>)
      requires Valid() && Shape(b0, g.w) && Extends(g.board, b0) && SameSolutions(b0, g.board, g.w)
      requires InRange(g.w, m.x, m.y) && 1 <= m.val <= g.n && Forced(b0, g.w, m.x, m.y, m.val)
      modifies this, g, g.cells
      ensures Valid() && Steady() && Extends(g.board, b0) && Extends(g.board, old(g.board))
      ensures filled == old(filled) && fillMustFillables == old(fillMustFillables)
      ensures eliminationFillables == old(eliminationFillables) && addMeQueue == old(addMeQueue)
      ensures OnlyFrom(old(g.board), g.board, g.w, [m])
      ensures e.None? ==> SameSolutions(b0, g.board, g.w) && g.board[m.y][m.x] != 0 && Made(g.board, g.w, [m])
      ensures e.Some? ==> e.value.Conflict? && !Solvable(b0, g.w)
      ensures tier == if e.None? then old(tier) + 1 else old(tier)
    {
      ghost var b1 := g.board;
      SameSolutionsForced(b0, b1, g.w, m.x, m.y, m.val);
      e := AddIfEmpty(m);
      ExtendsTrans(g.board, b1, b0);
      OnlyFromStep(b1, b1, g.board, g.w, [m], m);
      if e.Some? {
        SameSolvable(b0, b1, g.w);
      } else {
        SameSolutionsTrans(b0, b1, g.board, g.w);
        NextTier();
      }
    }

    /** self.tier += 1 */
    method NextTier()
      modifies this`tier
      ensures tier == old(tier) + 1
    {
      tier := tier + 1;
    }

    /**
     * SudokuRater.scan_fillables: both rules run with add only recording
     * its move, so the board stays as it is; the moves each could make at
     * this tier and not counted before are tallied, and all of them queued.
     */
    method ScanFillables()
      requires Valid()
      modifies this
      ensures Valid() && TrailKept() && nodes == old(nodes) && guessing == old(guessing) && tier == old(tier)
      ensures Tallied(g.board, tier)
      ensures AllSound(g.board, g.w, addMeQueue)
    {
      var must := DryMustFills();
      var singles := OneChoices();
      ScanFacts(g.board, g.w, must, singles);
      var mustNew, singlesNew := MoveSet(must) - filled, MoveSet(singles) - filled;
      RecordScan(mustNew, singlesNew, must + singles);
    }

    /** The tallies of the current tier and the queue of moves to add, as the scan found them. */
    method RecordScan(mustNew: set<Move>, singlesNew: set<Move>, queue: seq<Move>)
      modifies this`fillMustFillables, this`eliminationFillables, this`filled, this`addMeQueue
      ensures fillMustFillables == old(fillMustFillables)[tier := mustNew]
      ensures eliminationFillables == old(eliminationFillables)[tier := singlesNew]
      ensures filled == old(filled) + mustNew + singlesNew && addMeQueue == queue
    {
      fillMustFillables, eliminationFillables := fillMustFillables[tier := mustNew], eliminationFillables[tier := singlesNew];
      filled, addMeQueue := filled + mustNew + singlesNew, queue;
    }

    /**
     * fill_must_fills as scan_fillables runs it, add only recording the
     * move: every unit's needs come from the same board, and the first
     * digit left without a cell raises UnsolvablePuzzle, which the scan
     * swallows, keeping what was recorded before it.
     */
    method DryMustFills() returns (rec: seq<Move>)
      requires Valid()
      ensures AllSound(g.board, g.w, rec)
    {
      rec := [];
      var kinds := [Column, Row, Box];
      for t := 0 to 3
        invariant AllSound(g.board, g.w, rec)
      {
        for i := 0 to g.n
          invariant AllSound(g.board, g.w, rec)
        {
          var needs := ScanUnit(kinds[t], i);
          for v := 1 to g.n + 1
            invariant AllSound(g.board, g.w, rec)
          {
            if v in needs {
              match needs[v]
              case NoCell =>
                return;
              case OneCell(c) =>
                NeedOneCellSound(g.board, g.w, kinds[t], i, v);
                AllSoundAppend(g.board, g.w, rec, [Move(c.0, c.1, v)]);
                rec := rec + [Move(c.0, c.1, v)];
            }
          }
        }
      }
    }

    /**
     * The one_choice list of fill_deterministically: the entries of
     * calculate_open_squares with a single candidate, as moves, in that order.
     */
    method OneChoices() returns (one: seq<Move>)
      requires Valid()
      ensures forall mv :: mv in one <==> NakedSingle(g.board, g.w, mv)
      ensures CellsAscending(one)
    {
      var poss := g.CalculateOpenSquares();
      one := SinglesIn(poss);
      SinglesNaked(g.board, g.w, poss);
    }

    /**
     * One unit of fill_must_fills: build its needs, then, digit by digit in
     * ascending order, raise UnsolvablePuzzle for a digit no cell admits and
     * otherwise add the digit to its one admitting cell.  An AlreadySetError
     * from that add becomes UnsolvablePuzzle; a ConflictError passes through.
     */
    method FillUnit(kind: UnitKind, i: int) returns (r: Result<seq<Move>, SudokuError>)
      requires Valid() && 0 <= i < g.n
      modifies this, g, g.cells
      ensures Valid() && Steady() && Extends(g.board, old(g.board))
      ensures CoordsIn(g.w, UnitCoords(g.w, kind, i))
      ensures r.Ok? ==> SameSolutions(old(g.board), g.board, g.w)
      ensures r.Ok? ==> var N := NeedsOf(old(g.board), g.w, UnitCoords(g.w, kind, i));
        && (forall v :: v in N ==> N[v].OneCell?)
        && (forall mv :: mv in r.value <==> mv.val in N && N[mv.val] == OneCell((mv.x, mv.y)))
        && (forall k, k' :: 0 <= k < k' < |r.value| ==> r.value[k].val < r.value[k'].val)
      ensures r.Ok? ==> AllSound(old(g.board), g.w, r.value) && Made(g.board, g.w, r.value)
      ensures r.Ok? ==> forall v :: !DeadDigit(old(g.board), g.w, kind, i, v)
      ensures r.Err? ==> (r.error == Unsolvable || r.error.Conflict?) && !Solvable(old(g.board), g.w)
    {
      var needs := ScanUnit(kind, i);
      r := PlaceNeeds(kind, i, needs);
      if r.Ok? {
        UnitPlacements(old(g.board), g.w, kind, i, needs);
      }
    }

    /**
     * The digit loop of fill_must_fills for a unit whose needs are given:
     * the first digit without a cell ends it with UnsolvablePuzzle, every
     * other digit is added to its cell.
     */
    method PlaceNeeds(kind: UnitKind, i: int, needs: map<int, Need>) returns (r: Result<seq<Move>, SudokuError>)
      requires Valid() && 0 <= i < g.n
      requires CoordsIn(g.w, UnitCoords(g.w, kind, i)) && needs == NeedsOf(g.board, g.w, UnitCoords(g.w, kind, i))
      modifies this, g, g.cells
      ensures Valid() && Steady() && Extends(g.board, old(g.board))
      ensures r.Ok? ==> SameSolutions(old(g.board), g.board, g.w)
      ensures r.Ok? ==> r.value == Placements(needs, g.n + 1) && CellsBelow(needs, g.n + 1)
      ensures r.Ok? ==> Made(g.board, g.w, r.value)
      ensures r.Err? ==> (r.error == Unsolvable || r.error.Conflict?) && !Solvable(old(g.board), g.w)
    {
      ghost var b0 := g.board;
      ghost var plain := Plain();
      var changed: seq<Move> := [];
      for v := 1 to g.n + 1
        invariant Placing(b0, needs, v, changed, plain) && Steady()
      {
        var next := PlaceNext(kind, i, needs, v, b0, plain, changed);
        if next.Err? {
          return Err(next.error);
        }
        changed := next.value;
      }
      return Ok(changed);
    }

    /** Digit v of the loop of PlaceNeeds, its moves appended to those of the digits before it. */
    method PlaceNext(kind: UnitKind, i: int, needs: map<int, Need>, v: int, ghost b0: Board, ghost plain: bool, changed: seq<Move>)
      returns (r: Result<seq<Move>, SudokuError>)
      requires Placing(b0, needs, v, changed, plain) && 0 <= i < g.n && 1 <= v <= g.n && Shape(b0, g.w)
      requires CoordsIn(g.w, UnitCoords(g.w, kind, i)) && needs == NeedsOf(b0, g.w, UnitCoords(g.w, kind, i))
      requires Extends(b0, virgin) && plain == Plain()
      modifies this, g, g.cells
      ensures Valid() && Steady() && Extends(g.board, b0)
      ensures r.Ok? ==> Placing(b0, needs, v + 1, r.value, plain)
      ensures r.Err? ==> (r.error == Unsolvable || r.error.Conflict?) && !Solvable(b0, g.w)
    {
      ghost var b := g.board;
      var step := PlaceDigit(kind, i, needs, v, b0, plain);
      if step.Err? {
        return Err(step.error);
      }
      MadeStep(b, g.board, g.w, changed, step.value);
      PlacementsStep(needs, v);
      CellsBelowNext(needs, v);
      r := Ok(changed + step.value);
    }

    /** What the digit loop of PlaceNeeds keeps before digit v. */
    ghost predicate Placing(b0: Board, needs: map<int, Need>, v: int, changed: seq<Move>, plain: bool)
      reads this`nodes, this`guesses, this`breadcrumbs, this`currentGuess, this`virgin, g, g.cells
    {
      && Valid() && Shape(b0, g.w) && Extends(g.board, b0) && SameSolutions(b0, g.board, g.w)
      && (plain ==> ChangedBelow(b0, g.board, g.w, v))
      && changed == Placements(needs, v) && CellsBelow(needs, v) && Made(g.board, g.w, changed)
    }

    /**
     * One digit v of that loop: nothing when the unit does not need it,
     * UnsolvablePuzzle when no cell admits it, otherwise the add of v to its
     * cell, whose AlreadySetError becomes UnsolvablePuzzle.
     */
    method PlaceDigit(kind: UnitKind, i: int, needs: map<int, Need>, v: int, ghost b0: Board, ghost plain: bool)
      returns (r: Result<seq<Move>, SudokuError>)
      requires Valid() && 0 <= i < g.n && 1 <= v <= g.n && Shape(b0, g.w)
      requires CoordsIn(g.w, UnitCoords(g.w, kind, i)) && needs == NeedsOf(b0, g.w, UnitCoords(g.w, kind, i))
      requires Extends(g.board, b0) && Extends(b0, virgin) && SameSolutions(b0, g.board, g.w)
      requires plain == Plain() && (plain ==> ChangedBelow(b0, g.board, g.w, v))
      modifies this, g, g.cells
      ensures Valid() && Steady() && Extends(g.board, b0)
      ensures r.Ok? ==> SameSolutions(b0, g.board, g.w) && (plain ==> ChangedBelow(b0, g.board, g.w, v + 1))
      ensures r.Ok? ==> r.value == PlacementOf(needs, v) && (v in needs ==> needs[v].OneCell?)
      ensures r.Ok? ==> Extends(g.board, old(g.board)) && Made(g.board, g.w, r.value)
      ensures r.Err? ==> (r.error == Unsolvable || r.error.Conflict?) && !Solvable(b0, g.w)
    {
      if v !in needs {
        if plain {
          ChangedBelowNext(b0, g.board, g.w, v);
        }
        return Ok([]);
      }
      match needs[v]
      case NoCell =>
        NeedNoCellUnsolvable(b0, g.w, kind, i, v);
        return Err(Unsolvable);
      case OneCell(c) =>
        var m := Move(c.0, c.1, v);
        NeedOneCellSound(b0, g.w, kind, i, v);
        ghost var b := g.board;
        SameSolutionsForced(b0, b, g.w, c.0, c.1, v);
        var e := Dispatch(m);
        if e.Some? {
          if e == Some(AlreadySet) {
            LateClashUnsolvable(b0, b, g.w, c.0, c.1, v);
            return Err(Unsolvable);
          }
          SameSolvable(b0, b, g.w);
          return Err(e.value);
        }
        if plain {
          ChangedBelowAdd(b0, b, g.w, c.0, c.1, v);
        }
        ExtendsTrans(g.board, b, b0);
        return Ok([m]);
    }

    /** fill_must_fills over the units of one family, in order of unit; the first error ends it. */
    method FillFamily(kind: UnitKind) returns (r: Result<seq<Move>, SudokuError>)
      requires Valid()
      modifies this, g, g.cells
      ensures Valid() && Steady() && Extends(g.board, old(g.board))
      ensures r.Ok? ==> SameSolutions(old(g.board), g.board, g.w)
      ensures r.Ok? ==> AllSound(old(g.board), g.w, r.value) && Made(g.board, g.w, r.value)
      ensures r.Err? ==> (r.error == Unsolvable || r.error.Conflict?) && !Solvable(old(g.board), g.w)
    {
      ghost var b0 := g.board;
      var changed: seq<Move> := [];
      for i := 0 to g.n
        invariant Valid() && Steady() && Extends(g.board, b0) && SameSolutions(b0, g.board, g.w)
        invariant AllSound(b0, g.w, changed) && Made(g.board, g.w, changed)
      {
        ghost var b := g.board;
        var unit := FillUnit(kind, i);
        if unit.Err? {
          SameSolvable(b0, b, g.w);
          return Err(unit.error);
        }
        AllSoundBack(b0, b, g.w, unit.value);
        AllSoundAppend(b0, g.w, changed, unit.value);
        MadeStep(b, g.board, g.w, changed, unit.value);
        changed := changed + unit.value;
      }
      return Ok(changed);
    }

    /**
     * SudokuSolver.fill_must_fills: every unit of the columns, the rows and
     * the boxes in turn; the first error ends the scan.
     */
    method FillMustFills() returns (r: Result<seq<Move>, SudokuError>)
      requires Valid()
      modifies this, g, g.cells
      ensures Valid() && Steady() && Extends(g.board, old(g.board))
      ensures r.Ok? ==> SameSolutions(old(g.board), g.board, g.w)
      ensures r.Ok? ==> AllSound(old(g.board), g.w, r.value) && Made(g.board, g.w, r.value)
      ensures r.Err? ==> (r.error == Unsolvable || r.error.Conflict?) && !Solvable(old(g.board), g.w)
    {
      ghost var b0 := g.board;
      var changed: seq<Move> := [];
      var kinds := [Column, Row, Box];
      for t := 0 to 3
        invariant Valid() && Steady() && Extends(g.board, b0) && SameSolutions(b0, g.board, g.w)
        invariant AllSound(b0, g.w, changed) && Made(g.board, g.w, changed)
      {
        ghost var b := g.board;
        var family := FillFamily(kinds[t]);
        if family.Err? {
          SameSolvable(b0, b, g.w);
          return Err(family.error);
        }
        AllSoundBack(b0, b, g.w, family.value);
        AllSoundAppend(b0, g.w, changed, family.value);
        MadeStep(b, g.board, g.w, changed, family.value);
        changed := changed + family.value;
      }
      return Ok(changed);
    }

    /**
     * SudokuSolver.fill_deterministically: add every open square that has a
     * single candidate, in the order calculate_open_squares lists them.
     */
    method FillDeterministically() returns (r: Result<seq<Move>, SudokuError>)
      requires Valid()
      modifies this, g, g.cells
      ensures Valid() && Steady() && Extends(g.board, old(g.board))
      ensures r.Ok? ==> SameSolutions(old(g.board), g.board, g.w)
      ensures r.Ok? ==> forall mv :: mv in r.value <==> NakedSingle(old(g.board), g.w, mv)
      ensures r.Ok? ==> AllSound(old(g.board), g.w, r.value) && Made(g.board, g.w, r.value)
      ensures r.Err? ==> r.error.Conflict? && !Solvable(old(g.board), g.w)
    {
      ghost var b0 := g.board;
      ghost var plain := Plain();
      var one := OneChoices();
      forall j | 0 <= j < |one|
        ensures InRange(g.w, one[j].x, one[j].y) && g.board[one[j].y][one[j].x] == 0
      {
        assert one[j] in one;
      }
      for k := 0 to |one|
        invariant Singling(b0, one, k, plain) && Steady() && plain == Plain()
      {
        assert one[k] in one;
        var e := SingleNext(one, k, b0, plain);
        if e.Some? {
          return Err(e.value);
        }
      }
      SinglesSound(b0, g.w, one);
      assert one[..|one|] == one;
      return Ok(one);
    }

    /** What the loop of fill_deterministically keeps before the k-th naked single. */
    ghost predicate Singling(b0: Board, one: seq<Move>, k: int, plain: bool)
      reads this`nodes, this`guesses, this`breadcrumbs, this`currentGuess, this`virgin, g, g.cells
    {
      && Valid() && Shape(b0, g.w) && Extends(g.board, b0) && SameSolutions(b0, g.board, g.w)
      && Extends(b0, virgin) && 0 <= k <= |one|
      && (plain ==> EmptyFrom(g.board, g.w, one, k))
      && Made(g.board, g.w, one[..k])
    }

    /** The k-th naked single of the loop of fill_deterministically, added. */
    method SingleNext(one: seq<Move>, k: int, ghost b0: Board, ghost plain: bool) returns (e: Option<SudokuError>)
      requires Singling(b0, one, k, plain) && k < |one| && plain == Plain()
      requires NakedSingle(b0, g.w, one[k]) && CellsAscending(one)
      modifies this, g, g.cells
      ensures Valid() && Steady() && plain == Plain() && Extends(g.board, b0)
      ensures e.None? ==> Singling(b0, one, k + 1, plain)
      ensures e.Some? ==> e.value.Conflict? && !Solvable(b0, g.w)
    {
      ghost var b := g.board;
      e := AddSingle(one[k], b0);
      if e.None? {
        assert one[..k + 1] == one[..k] + [one[k]];
        MadeStep(b, g.board, g.w, one[..k], [one[k]]);
        if plain {
          EmptyFromPlace(b, g.w, one, k);
        }
      }
    }

    /** One step of fill_deterministically: self.add of a naked single of the board the rule started from. */
    method AddSingle(m: Move, ghost b0: Board) returns (e: Option<SudokuError>)
      requires Valid() && Shape(b0, g.w) && Extends(g.board, b0) && SameSolutions(b0, g.board, g.w)
      requires Extends(b0, virgin) && NakedSingle(b0, g.w, m) && (Plain() ==> g.board[m.y][m.x] == 0)
      modifies this, g, g.cells
      ensures Valid() && Steady() && Extends(g.board, b0) && Plain() == old(Plain())
      ensures e.None? ==> SameSolutions(b0, g.board, g.w) && g.board[m.y][m.x] != 0
      ensures Extends(g.board, old(g.board))
      ensures e.None? && old(Plain()) ==> g.board == Place(old(g.board), m.x, m.y, m.val)
      ensures e.Some? ==> e.value.Conflict? && !Solvable(b0, g.w)
    {
      NakedSingleForced(b0, g.w, m.x, m.y, m.val);
      ghost var b := g.board;
      SameSolutionsForced(b0, b, g.w, m.x, m.y, m.val);
      e := Dispatch(m);
      if Plain() {
        AddSpecOutcome(b, g.w, m.x, m.y, m.val);
      }
      ExtendsTrans(g.board, b, b0);
      if e.Some? {
        SameSolvable(b0, b, g.w);
      } else {
        SameSolutionsTrans(b0, b, g.board, g.w);
      }
    }

    /**
     * SudokuSolver.auto_fill: fill_must_fills once (UnsolvablePuzzle ends the
     * fill with no moves, a ConflictError passes through), then, while the
     * last round made moves, fill_must_fills followed by
     * fill_deterministically.  Any error in a later round ends the fill with
     * the moves of the rounds before it, and also those of that round's
     * fill_must_fills when it was fill_deterministically that failed.
     */
    method AutoFill() returns (r: Result<seq<Move>, SudokuError>)
      requires Valid()
      modifies this, g, g.cells
      ensures Valid() && Steady() && Extends(g.board, old(g.board))
      ensures SameSolutions(old(g.board), g.board, g.w)
      ensures r.Ok? ==> AllSound(old(g.board), g.w, r.value)
      ensures r.Err? ==> r.error.Conflict? && !Solvable(old(g.board), g.w)
    {
      ghost var b0 := g.board;
      var changed: seq<Move> := [];
      var first := FillMustFills();
      if first.Err? {
        UnsolvableSame(b0, g.board, g.w);
        if first.error == Unsolvable {
          return Ok(changed);
        }
        return Err(first.error);
      }
      var change := first.value;
      while change != []
        invariant Valid() && Steady() && Extends(g.board, b0) && SameSolutions(b0, g.board, g.w)
        invariant AllSound(b0, g.w, changed) && AllSound(b0, g.w, change)
        decreases |Empties(g.board)| + if change != [] then 1 else 0
      {
        ghost var bs := g.board;
        AllSoundAppend(b0, g.w, changed, change);
        changed := changed + change;
        var again := FillMustFills();
        if again.Err? {
          SameSolvable(b0, bs, g.w);
          UnsolvableSame(b0, g.board, g.w);
          return Ok(changed);
        }
        ghost var bm := g.board;
        change := again.value;
        AllSoundBack(b0, bs, g.w, change);
        SameSolutionsTrans(b0, bs, bm, g.w);
        var det := FillDeterministically();
        ExtendsTrans(g.board, bm, b0);
        if det.Err? {
          SameSolvable(b0, bm, g.w);
          UnsolvableSame(b0, g.board, g.w);
          AllSoundAppend(b0, g.w, changed, change);
          return Ok(changed + change);
        }
        SameSolutionsTrans(b0, bm, g.board, g.w);
        AllSoundBack(b0, bm, g.w, det.value);
        AllSoundAppend(b0, g.w, change, det.value);
        Progress(bs, bm, g.board, g.w, change, det.value);
        change := change + det.value;
      }
      return Ok(changed);
    }

    /** Only the board, the GuessList and the BreadcrumbTrail changed. */
    twostate predicate ListsOnly()
      reads this
    {
      && nodes == old(nodes) && backtraces == old(backtraces) && currentGuess == old(currentGuess)
      && solved == old(solved) && initialized == old(initialized) && virgin == old(virgin) && RaterKept()
    }

    /** The part of Valid() about the grid alone: a consistent grid that extends the puzzle. */
    ghost predicate BoardOk()
      reads this`virgin, g, g.cells
    {
      g.Valid() && Shape(virgin, g.w) && Extends(g.board, virgin)
    }

    /** `if self._get_(x, y): self.remove(x, y)`, for a cell off the clues. */
    method ClearCell(x: int, y: int)
      requires BoardOk() && InRange(g.w, x, y) && virgin[y][x] == 0
      modifies g, g.cells
      ensures BoardOk() && Cleared(old(g.board), g.board, g.w, {(x, y)})
    {
      if g.Get(x, y) != 0 {
        var _ := g.Remove(x, y);
      }
    }

    /** The first part of unwrap_guess: the guess's own cell and its consequences emptied. */
    method ClearNode(id: nat)
      requires Valid() && id < |nodes|
      modifies g, g.cells
      ensures Valid() && Cleared(old(g.board), g.board, g.w, NodeCells(nodes[id]))
    {
      var gn := nodes[id];
      assert OffClues(gn, virgin, g.w);
      assert (gn.x, gn.y) in NodeCells(gn);
      ClearCell(gn.x, gn.y);
      ClearConsequences(gn, old(g.board));
    }

    /** The loop of unwrap_guess over the consequences of a guess whose own cell is already emptied. */
    method ClearConsequences(gn: GuessNode, ghost b0: Board)
      requires BoardOk() && OffClues(gn, virgin, g.w) && Shape(b0, g.w) && Cleared(b0, g.board, g.w, {(gn.x, gn.y)})
      modifies g, g.cells
      ensures BoardOk() && Cleared(b0, g.board, g.w, NodeCells(gn))
    {
      var pending := gn.consequences.Keys;
      while pending != {}
        invariant pending <= gn.consequences.Keys
        invariant BoardOk() && Cleared(b0, g.board, g.w, {(gn.x, gn.y)} + (gn.consequences.Keys - pending))
        decreases |pending|
      {
        var c :| c in pending;
        assert c in NodeCells(gn);
        ClearMore(b0, {(gn.x, gn.y)} + (gn.consequences.Keys - pending), c.0, c.1);
        pending := pending - {c};
      }
    }

    /** One more cell off the clues emptied after the cells done. */
    method ClearMore(ghost b0: Board, ghost done: set<Coord>, x: int, y: int)
      requires BoardOk() && Shape(b0, g.w) && InRange(g.w, x, y) && virgin[y][x] == 0 && Cleared(b0, g.board, g.w, done)
      modifies g, g.cells
      ensures BoardOk() && Cleared(b0, g.board, g.w, done + {(x, y)})
    {
      ghost var b := g.board;
      ClearCell(x, y);
      ClearedTrans(b0, b, g.board, g.w, done, {(x, y)});
    }

    /**
     * SudokuSolver.unwrap_guess: empty the guess's cell and every
     * consequence cell that is still filled, unwrap each child in turn and
     * drop it from the GuessList, then drop the guess from the
     * BreadcrumbTrail.  The guess itself stays in the GuessList, so its value
     * is not guessed at its cell again, and current_guess is left as it is.
     */
    method UnwrapGuess(id: nat)
      requires Valid() && id < |nodes|
      modifies this, g, g.cells
      decreases |nodes| - id, 2
      ensures Valid() && ListsOnly()
      ensures Cleared(old(g.board), g.board, g.w, Footprint(nodes, Subtree(nodes, id)))
      ensures guesses == Without(old(guesses), Forest(nodes, id, nodes[id].children))
      ensures breadcrumbs == Without(old(breadcrumbs), Subtree(nodes, id))
    {
      ghost var b0 := g.board;
      ClearNode(id);
      ghost var b1 := g.board;
      UnwrapChildren(id);
      ghost var b2, crumbs := g.board, breadcrumbs;
      DropCrumb(id);
      UnwrapGlue(nodes, id, g.w, b0, b1, b2, old(breadcrumbs), crumbs, breadcrumbs);
    }

    /** The loop over the children of guess id in unwrap_guess. */
    method UnwrapChildren(id: nat)
      requires Valid() && id < |nodes|
      modifies this, g, g.cells
      decreases |nodes| - id, 1
      ensures Valid() && ListsOnly()
      ensures Cleared(old(g.board), g.board, g.w, Footprint(nodes, Forest(nodes, id, nodes[id].children)))
      ensures guesses == Without(old(guesses), Forest(nodes, id, nodes[id].children))
      ensures breadcrumbs == Without(old(breadcrumbs), Forest(nodes, id, nodes[id].children))
    {
      var kids := nodes[id].children;
      ChildrenStart(nodes, id, g.w, g.board, guesses, breadcrumbs);
      for j := 0 to |kids|
        invariant Valid() && ListsOnly()
        invariant Unwound(nodes, id, j, g.w, old(g.board), g.board, old(guesses), guesses, old(breadcrumbs), breadcrumbs)
      {
        ghost var b, gs, bs := g.board, guesses, breadcrumbs;
        UnwrapChild(id, j);
        ChildStep(nodes, id, j, g.w, old(g.board), b, g.board, old(guesses), gs, guesses, old(breadcrumbs), bs, breadcrumbs);
      }
      assert kids[..|kids|] == kids;
    }

    /** One child of unwrap_guess(id): unwrap it, then drop it from the GuessList if it is there. */
    method UnwrapChild(id: nat, j: nat)
      requires Valid() && id < |nodes| && j < |nodes[id].children|
      modifies this, g, g.cells
      decreases |nodes| - id, 0
      ensures Valid() && ListsOnly()
      ensures Cleared(old(g.board), g.board, g.w, Footprint(nodes, Subtree(nodes, nodes[id].children[j])))
      ensures guesses == Without(old(guesses), Subtree(nodes, nodes[id].children[j]))
      ensures breadcrumbs == Without(old(breadcrumbs), Subtree(nodes, nodes[id].children[j]))
    {
      var c := nodes[id].children[j];
      UnwrapGuess(c);
      ghost var gs := guesses;
      DropGuess(c);
      SubtreeGlue(nodes, c, old(guesses), gs, guesses);
    }

    /** `if guess in self.breadcrumbs: self.breadcrumbs.remove(guess)` */
    method DropCrumb(id: nat)
      requires Valid()
      modifies this`breadcrumbs
      ensures Valid() && breadcrumbs == Without(old(breadcrumbs), {id})
    {
      RemoveIfPresent(breadcrumbs, id);
      TreeAfterWithout(nodes, guesses, breadcrumbs, currentGuess, virgin, g.w, {}, {id});
      WithoutNothing(guesses, {});
      if id in breadcrumbs {
        SetCrumbs(RemoveFirst(breadcrumbs, id));
      }
    }

    /** The BreadcrumbTrail becomes s, which keeps the guess tree consistent. */
    method SetCrumbs(s: seq<nat>)
      requires Valid() && TreeInvariant(nodes, guesses, s, currentGuess, virgin, g.w)
      modifies this`breadcrumbs
      ensures Valid() && breadcrumbs == s
    {
      breadcrumbs := s;
    }

    /** `if child in self.guesses: self.guesses.remove(child)` */
    method DropGuess(id: nat)
      requires Valid()
      modifies this`guesses
      ensures Valid() && guesses == Without(old(guesses), {id})
    {
      RemoveIfPresent(guesses, id);
      TreeAfterWithout(nodes, guesses, breadcrumbs, currentGuess, virgin, g.w, {id}, {});
      WithoutNothing(breadcrumbs, {});
      if id in guesses {
        SetGuesses(RemoveFirst(guesses, id));
      }
    }

    /** The GuessList becomes s, which keeps the guess tree consistent. */
    method SetGuesses(s: seq<nat>)
      requires Valid() && TreeInvariant(nodes, s, breadcrumbs, currentGuess, virgin, g.w)
      modifies this`guesses
      ensures Valid() && guesses == s
    {
      guesses := s;
    }

    /** What a search step keeps: the puzzle, the flags, and every guess made so far. */
    twostate predicate Searched()
      reads this`virgin, this`solved, this`initialized, this`backtraces, this`nodes
    {
      && virgin == old(virgin) && solved == old(solved) && initialized == old(initialized)
      && backtraces >= old(backtraces) && |nodes| >= |old(nodes)|
    }

    /**
     * After guess_least_open_square returns normally: the newest guess is the
     * current guess and the last entry of both lists, and no empty cell is
     * left without a candidate.
     */
    ghost predicate GuessStands()
      requires Valid()
      reads this, g, g.cells
    {
      && nodes != [] && currentGuess == Some(|nodes| - 1)
      && guesses != [] && guesses[|guesses| - 1] == |nodes| - 1
      && breadcrumbs != [] && breadcrumbs[|breadcrumbs| - 1] == |nodes| - 1
      && NoDeadSquare(g.board, g.w)
    }

    /** The ways out of guess_least_open_square other than True. */
    ghost predicate Outcome(r: Result<bool, SudokuError>)
      requires Valid()
      reads this, g, g.cells
    {
      && (r == Err(Unsolvable) ==> breadcrumbs == [])
      && (r == Ok(false) ==> GuessStands())
      && (r.Err? ==> r.error == Unsolvable || r.error == OutOfFuel || r.error.Conflict? || r.error.CrumbExists?)
    }

    /**
     * The guess itself: a Guess for (x, y) = v, hung under the last crumb,
     * added with no current guess (so it is not its own consequence), then
     * made the current guess and appended to the GuessList and to the
     * BreadcrumbTrail, whose ValueError passes through.
     */
    method MakeGuess(x: int, y: int, v: int) returns (e: Option<SudokuError>)
      requires Valid() && Plain() && InRange(g.w, x, y) && g.board[y][x] == 0
      requires v in Candidates(g.board, g.w, x, y) && v !in GuessesForCoord(nodes, guesses, x, y)
      modifies this, g, g.cells
      ensures Valid() && Plain() && backtraces == old(backtraces) && virgin == old(virgin)
      ensures solved == old(solved) && initialized == old(initialized) && guessing == old(guessing)
      ensures g.board == Place(old(g.board), x, y, v)
      ensures nodes == WithGuess(old(nodes), old(breadcrumbs), x, y, v)
      ensures guesses == old(guesses) + [|old(nodes)|] && currentGuess == Some(|old(nodes)|)
      ensures e.None? <==> GuessesForCoord(old(nodes), old(breadcrumbs), x, y) == {}
      ensures e.None? ==> breadcrumbs == old(breadcrumbs) + [|old(nodes)|]
      ensures e.Some? ==> e == Some(CrumbExists(x, y)) && breadcrumbs == old(breadcrumbs)
    {
      var id := |nodes|;
      GuessKeepsTree(nodes, guesses, breadcrumbs, currentGuess, virgin, g.w, x, y, v);
      AddGuess(x, y, v);
      e := CommitGuess(id);
    }

    /** The guess is hung in the arena and its value added to the grid, with no guess current. */
    method AddGuess(x: int, y: int, v: int)
      requires Valid() && InRange(g.w, x, y) && g.board[y][x] == 0 && v in Candidates(g.board, g.w, x, y)
      requires TreeInvariant(WithGuess(nodes, breadcrumbs, x, y, v), guesses, breadcrumbs, None, virgin, g.w)
      modifies this, g, g.cells
      ensures Valid() && RaterKept() && currentGuess == None
      ensures guesses == old(guesses) && breadcrumbs == old(breadcrumbs) && backtraces == old(backtraces)
      ensures solved == old(solved) && initialized == old(initialized) && virgin == old(virgin)
      ensures g.board == Place(old(g.board), x, y, v)
      ensures nodes == WithGuess(old(nodes), old(breadcrumbs), x, y, v)
    {
      HangGuess(x, y, v);
      AddCandidateSucceeds(g.board, g.w, x, y, v);
      var _ := SolverAdd(x, y, v);
    }

    /** The guess becomes the current guess, joins the GuessList and goes on the BreadcrumbTrail. */
    method CommitGuess(id: nat) returns (e: Option<SudokuError>)
      requires g.Valid() && Shape(virgin, g.w) && Extends(g.board, virgin) && id < |nodes|
      requires TreeInvariant(nodes, guesses + [id], breadcrumbs, Some(id), virgin, g.w)
      requires TreeInvariant(nodes, guesses + [id], breadcrumbs + [id], Some(id), virgin, g.w)
      modifies this`currentGuess, this`guesses, this`breadcrumbs
      ensures Valid() && currentGuess == Some(id) && guesses == old(guesses) + [id]
      ensures var appended := BreadcrumbAppend(nodes, old(breadcrumbs), id);
        && (appended.Ok? ==> e == None && breadcrumbs == appended.value)
        && (appended.Err? ==> e == Some(appended.error) && breadcrumbs == old(breadcrumbs))
    {
      ListGuess(id);
      e := PushCrumb(id);
    }

    /** The new Guess goes at the end of the arena, under the last crumb; no guess is current while it is added. */
    method HangGuess(x: int, y: int, v: int)
      requires forall i :: 0 <= i < |breadcrumbs| ==> breadcrumbs[i] < |nodes|
      modifies this`nodes, this`currentGuess
      ensures nodes == WithGuess(old(nodes), breadcrumbs, x, y, v) && currentGuess == None
    {
      nodes := WithGuess(nodes, breadcrumbs, x, y, v);
      currentGuess := None;
    }

    /** The guess becomes the current guess and joins the GuessList. */
    method ListGuess(id: nat)
      modifies this`currentGuess, this`guesses
      ensures currentGuess == Some(id) && guesses == old(guesses) + [id]
    {
      currentGuess := Some(id);
      guesses := guesses + [id];
    }

    /** BreadcrumbTrail.append of the guess; on its ValueError the trail stays as it was. */
    method PushCrumb(id: nat) returns (e: Option<SudokuError>)
      requires id < |nodes| && forall i :: 0 <= i < |breadcrumbs| ==> breadcrumbs[i] < |nodes|
      modifies this`breadcrumbs
      ensures var appended := BreadcrumbAppend(nodes, old(breadcrumbs), id);
        && (appended.Ok? ==> e == None && breadcrumbs == appended.value)
        && (appended.Err? ==> e == Some(appended.error) && breadcrumbs == old(breadcrumbs))
    {
      var appended := BreadcrumbAppend(nodes, breadcrumbs, id);
      if appended.Err? {
        e := Some(appended.error);
      } else {
        breadcrumbs := appended.value;
        e := None;
      }
    }

    /**
     * guess_least_open_square; SudokuRater's version first sets guessing.
     * True when no square is open.  Otherwise the first open square with the
     * fewest candidates is taken.  When every candidate has been guessed
     * there already, the last crumb is unwrapped and the search starts over,
     * counted in backtraces; with no crumb left it is UnsolvablePuzzle.
     */
    method GuessLeastOpenSquare(fuel: nat) returns (r: Result<bool, SudokuError>)
      requires Valid()
      modifies this, g, g.cells
      decreases fuel, 4
      ensures Valid()
      ensures Searched()
      ensures rating ==> guessing
      ensures Outcome(r)
      ensures r == Ok(true) <==> Complete(old(g.board))
      ensures r == Ok(true) ==> g.board == old(g.board) && IsSolution(g.board, virgin, g.w)
    {
      MarkGuessing();
      var open, x, y, untried := PickSquare();
      if !open {
        CompleteSolves(g.board, virgin, g.w);
        r := Ok(true);
      } else {
        r := GuessOrBacktrack(x, y, untried, fuel);
      }
    }

    /**
     * With an open square picked: guess one of its untried values, or
     * backtrack when there is none, or give up when there is no crumb left.
     */
    method GuessOrBacktrack(x: int, y: int, untried: set<int>, fuel: nat) returns (r: Result<bool, SudokuError>)
      requires Valid() && (rating ==> guessing) && InRange(g.w, x, y) && g.board[y][x] == 0
      requires untried == Candidates(g.board, g.w, x, y) - GuessesForCoord(nodes, guesses, x, y)
      modifies this, g, g.cells
      decreases fuel, 3
      ensures Valid() && Searched() && (rating ==> guessing) && Outcome(r) && r != Ok(true)
    {
      if untried != {} {
        r := GuessAt(x, y, untried, fuel);
      } else if breadcrumbs != [] {
        r := Backtrack(fuel);
      } else {
        r := Err(Unsolvable);
      }
    }

    /** Every value for the square has been guessed there: count a backtrace and unwrap the last crumb. */
    method Backtrack(fuel: nat) returns (r: Result<bool, SudokuError>)
      requires Valid() && breadcrumbs != [] && (rating ==> guessing)
      modifies this, g, g.cells
      decreases fuel, 1
      ensures Valid() && Searched() && (rating ==> guessing) && Outcome(r) && r != Ok(true)
      ensures backtraces > old(backtraces)
    {
      backtraces := backtraces + 1;
      r := Retry(breadcrumbs[|breadcrumbs| - 1], fuel);
    }

    /** SudokuRater's guess_least_open_square first sets guessing. */
    method MarkGuessing()
      modifies this`guessing
      ensures guessing == (old(guessing) || rating)
    {
      if rating {
        guessing := true;
      }
    }

    /**
     * The square guess_least_open_square works on: none when the board is
     * full; otherwise the first open square, in the order of
     * calculate_open_squares, among those with the fewest candidates, and
     * its candidates not yet guessed there.
     */
    method PickSquare() returns (open: bool, x: int, y: int, untried: set<int>)
      requires Valid()
      ensures !open <==> Complete(g.board)
      ensures open ==> InRange(g.w, x, y) && g.board[y][x] == 0
      ensures open ==> untried == Candidates(g.board, g.w, x, y) - GuessesForCoord(nodes, guesses, x, y)
      ensures open ==> forall x', y' :: InRange(g.w, x', y') && g.board[y'][x'] == 0 ==>
        |Candidates(g.board, g.w, x, y)| <= |Candidates(g.board, g.w, x', y')|
      ensures open ==> forall x', y' :: InRange(g.w, x', y') && g.board[y'][x'] == 0 && CoordLess((x', y'), (x, y)) ==>
        |Candidates(g.board, g.w, x, y)| < |Candidates(g.board, g.w, x', y')|
    {
      var poss := g.CalculateOpenSquares();
      OpenSquaresFacts(g.board, g.w, poss);
      if poss == [] {
        open, x, y, untried := false, 0, 0, {};
      } else {
        var k := FirstMinimum(poss);
        LeastSquare(g.board, g.w, poss, k);
        open, x, y := true, poss[k].0.0, poss[k].0.1;
        untried := poss[k].1 - GuessesForCoord(nodes, guesses, x, y);
      }
    }

    /**
     * The rest of guess_least_open_square: guess one of the untried values
     * (random.choice, here any of them), auto_fill, and when some open square
     * is then left without candidates, unwrap the guess and start over.
     */
    method GuessAt(x: int, y: int, untried: set<int>, fuel: nat) returns (r: Result<bool, SudokuError>)
      requires Valid() && Plain() && (rating ==> guessing) && InRange(g.w, x, y) && g.board[y][x] == 0
      requires untried != {} && untried == Candidates(g.board, g.w, x, y) - GuessesForCoord(nodes, guesses, x, y)
      modifies this, g, g.cells
      decreases fuel, 2
      ensures Valid() && Searched() && (rating ==> guessing) && Outcome(r) && r != Ok(true)
    {
      var v :| v in untried;
      var e := MakeGuess(x, y, v);
      if e.Some? {
        r := Err(e.value);
      } else {
        r := FillAfterGuess(fuel);
      }
    }

    /** The newest guess is the current guess and the last entry of both lists. */
    ghost predicate JustGuessed()
      reads this`nodes, this`currentGuess, this`guesses, this`breadcrumbs
    {
      && nodes != [] && currentGuess == Some(|nodes| - 1)
      && guesses != [] && guesses[|guesses| - 1] == |nodes| - 1
      && breadcrumbs != [] && breadcrumbs[|breadcrumbs| - 1] == |nodes| - 1
    }

    /** After the guess: auto_fill, and unwrap the guess and start over when an open square is left without candidates. */
    method FillAfterGuess(fuel: nat) returns (r: Result<bool, SudokuError>)
      requires Valid() && JustGuessed() && (rating ==> guessing)
      modifies this, g, g.cells
      decreases fuel, 1
      ensures Valid() && Searched() && (rating ==> guessing) && Outcome(r) && r != Ok(true)
    {
      var id := |nodes| - 1;
      var filled := AutoFill();
      if filled.Err? {
        r := Err(filled.error);
      } else {
        var open := g.CalculateOpenSquares();
        OpenSquaresFacts(g.board, g.w, open);
        if AnyDead(open) {
          r := Retry(id, fuel);
        } else {
          r := Ok(false);
        }
      }
    }

    /** unwrap_guess(id), then guess_least_open_square again while fuel lasts. */
    method Retry(id: nat, fuel: nat) returns (r: Result<bool, SudokuError>)
      requires Valid() && id < |nodes| && (rating ==> guessing)
      modifies this, g, g.cells
      decreases fuel, 0
      ensures Valid() && Searched() && (rating ==> guessing) && Outcome(r) && r != Ok(true)
    {
      assert OffClues(nodes[id], virgin, g.w) && (nodes[id].x, nodes[id].y) in NodeCells(nodes[id]);
      ghost var b0 := g.board;
      UnwrapGuess(id);
      RootCleared(nodes, id, g.w, b0, g.board);
      if fuel == 0 {
        return Err(OutOfFuel);
      }
      r := GuessLeastOpenSquare(fuel - 1);
    }

    /** The ways out of the loop `while not guess_least_open_square()`. */
    ghost predicate Finished(r: Result<(), SudokuError>)
      requires Valid()
      reads this`nodes, this`guesses, this`breadcrumbs, this`currentGuess, this`virgin, g, g.cells
    {
      && (r.Ok? ==> IsSolution(g.board, virgin, g.w))
      && (r == Err(Unsolvable) ==> breadcrumbs == [])
      && (r.Err? ==> r.error == Unsolvable || r.error == OutOfFuel || r.error.Conflict? || r.error.CrumbExists?)
    }

    /**
     * while not self.guess_least_open_square(): at most fuel rounds, each
     * search with fuel retries; the errors of a round pass through.
     */
    method GuessUntilSolved(fuel: nat) returns (r: Result<(), SudokuError>)
      requires Valid()
      modifies this, g, g.cells
      ensures Valid() && Searched() && Finished(r)
    {
      r := Err(OutOfFuel);
      var i := 0;
      var done := false;
      while i < fuel && !done
        invariant Valid() && Searched()
        invariant if done then Finished(r) else r == Err(OutOfFuel)
        decreases fuel - i
      {
        var step := GuessLeastOpenSquare(fuel);
        if step == Ok(true) {
          r, done := Ok(()), true;
        } else if step.Err? {
          r, done := Err(step.error), true;
        }
        i := i + 1;
      }
    }

    /** Sets solved. */
    method MarkSolved()
      modifies this`solved
      ensures solved
    {
      solved := true;
    }

    /**
     * SudokuSolver.solve: auto_fill, then guess until guess_least_open_square
     * returns True, then mark the puzzle solved.  Errors pass through.
     */
    method Solve(fuel: nat) returns (r: Result<(), SudokuError>)
      requires Valid()
      modifies this, g, g.cells
      ensures Valid() && virgin == old(virgin) && Finished(r)
      ensures r.Ok? ==> solved
      ensures r.Err? ==> solved == old(solved)
    {
      var filled := AutoFill();
      if filled.Err? {
        r := Err(filled.error);
      } else {
        r := GuessUntilSolved(fuel);
        if r.Ok? {
          MarkSolved();
        }
      }
    }

    /**
     * has_unique_solution: solution_finder's first step (the search of
     * solve), then its second: with no crumb on the trail there is no other
     * solution; otherwise the last crumb is unwrapped and the search resumed,
     * where UnsolvablePuzzle means unique and a second solution means not.
     * Every other error passes through.
     */
    method HasUniqueSolution(fuel: nat) returns (r: Result<bool, SudokuError>, ghost first: Board)
      requires Valid()
      modifies this, g, g.cells
      ensures Valid() && virgin == old(virgin)
      ensures r.Ok? ==> solved && IsSolution(first, virgin, g.w)
      ensures r == Ok(true) ==> breadcrumbs == []
      ensures r == Ok(false) ==> IsSolution(g.board, virgin, g.w)
      ensures r.Err? ==> r.error == OutOfFuel || r.error.Conflict? || r.error.CrumbExists? || (r.error == Unsolvable && breadcrumbs == [])
    {
      var found := Solve(fuel);
      first := g.board;
      if found.Err? {
        r := Err(found.error);
      } else if breadcrumbs == [] {
        r := Ok(true);
      } else {
        UnwrapGuess(breadcrumbs[|breadcrumbs| - 1]);
        var again := GuessUntilSolved(fuel);
        if again.Ok? {
          r := Ok(false);
        } else if again.error == Unsolvable {
          r := Ok(true);
        } else {
          r := Err(again.error);
        }
      }
    }

    /**
     * The clue count of difficulty: every non-zero cell of virgin, row by
     * row.
     */
    method CountClues() returns (clues: nat)
      requires Valid()
      ensures clues == ClueCount(virgin)
    {
      clues := CluesIn(virgin);
    }

    /**
     * SudokuRater.difficulty: solve first unless already solved (errors of
     * the search pass through), count the clues of the puzzle as loaded, and
     * rate the tallies with squares_filled = group_size ** 2 - clues.
     */
    method Difficulty(fuel: nat) returns (r: Result<DifficultyRating, SudokuError>)
      requires Valid() && rating
      modifies this, g, g.cells
      ensures Valid() && virgin == old(virgin) && (old(solved) ==> solved)
      ensures solved ==> r == Rate(fillMustFillables, eliminationFillables, |guesses|, backtraces, g.n * g.n - ClueCount(virgin))
      ensures !solved ==> r.Err? && Finished(Err(r.error))
      ensures old(solved) ==> unchanged(this) && g.board == old(g.board)
    {
      var ok := true;
      if !solved {
        var s := Solve(fuel);
        if s.Err? {
          r, ok := Err(s.error), false;
        }
      }
      if ok {
        var clues := CountClues();
        r := Rate(fillMustFillables, eliminationFillables, |guesses|, backtraces, g.n * g.n - clues);
      }
    }
  }
}

=== FILE: square_board.dfy ===
/**
 * The board of the constraint solver (Generator/sudoku_solver.py) as a value.
 * `b[y][x]` is the cell in column x of row y and 0 marks an empty cell, as in
 * SudokuGrid.grid.  The side is N = w * w and the boxes are w x w, numbered the
 * way SudokuGrid.calculate_box_coords numbers them: box column first.
 */
module SquareBoard {

  type Board = seq<seq<int>>

  /** A coordinate (x, y): column first, as the source passes coordinates. */
  type Coord = (int, int)

  /** The unit families; they double as the conflict types TYPE_ROW, TYPE_COLUMN and TYPE_BOX. */
  datatype UnitKind = Row | Column | Box

  predicate Shape(b: Board, w: int) {
    w >= 1 && |b| == w * w && forall y :: 0 <= y < |b| ==> |b[y]| == w * w
  }

  predicate InRange(w: int, x: int, y: int) {
    0 <= x < w * w && 0 <= y < w * w
  }

  /** The value at c; 0 (empty) off the board. */
  function Cell(b: Board, c: Coord): int {
    if 0 <= c.1 < |b| && 0 <= c.0 < |b[c.1]| then b[c.1][c.0] else 0
  }

  /** box_by_coords[(x, y)] */
  function BoxOf(w: int, x: int, y: int): int
    requires w >= 1
  {
    (x / w) * w + y / w
  }

  /** gen_set: the digits 1..n. */
  function Digits(n: int): (r: set<int>)
    ensures forall v :: v in r <==> 1 <= v <= n
  {
    if n <= 0 then {} else Digits(n - 1) + {n}
  }

  /** The board with cell (x, y) set to v (the effect of _set_). */
  function Place(b: Board, x: int, y: int, v: int): Board
    requires 0 <= y < |b| && 0 <= x < |b[y]|
  {
    b[y := b[y][x := v]]
  }

  /** The values present in row y: what rows[y] mirrors. */
  function RowValues(b: Board, y: int): set<int>
    requires 0 <= y < |b|
  {
    set x | 0 <= x < |b[y]| && b[y][x] != 0 :: b[y][x]
  }

  /** The values present in column x: what cols[x] mirrors. */
  function ColValues(b: Board, x: int): set<int> {
    set y | 0 <= y < |b| && 0 <= x < |b[y]| && b[y][x] != 0 :: b[y][x]
  }

  /** The values present in box k: what boxes[k] mirrors. */
  function BoxValues(b: Board, w: int, k: int): set<int>
    requires w >= 1
  {
    set y, x | 0 <= y < |b| && 0 <= x < |b[y]| && BoxOf(w, x, y) == k && b[y][x] != 0 :: b[y][x]
  }

  /** The digits absent from the row, the column and the box of (x, y). */
  function Candidates(b: Board, w: int, x: int, y: int): set<int>
    requires Shape(b, w) && InRange(w, x, y)
  {
    Digits(w * w) - RowValues(b, y) - ColValues(b, x) - BoxValues(b, w, BoxOf(w, x, y))
  }

  /** An empty cell that may legally take v. */
  predicate Admits(b: Board, w: int, x: int, y: int, v: int)
    requires Shape(b, w) && InRange(w, x, y)
  {
    b[y][x] == 0 && v in Candidates(b, w, x, y)
  }

  predicate SameUnit(w: int, x1: int, y1: int, x2: int, y2: int)
    requires w >= 1
  {
    x1 == x2 || y1 == y2 || BoxOf(w, x1, y1) == BoxOf(w, x2, y2)
  }

  /** Every cell holds 0 or a digit. */
  ghost predicate InDigits(b: Board, n: int) {
    forall y, x :: 0 <= y < |b| && 0 <= x < |b[y]| ==> 0 <= b[y][x] <= n
  }

  /** No filled value repeats within a row, a column or a box. */
  ghost predicate NoDuplicates(b: Board, w: int)
    requires Shape(b, w)
  {
    forall x1, y1, x2, y2 {:trigger SameUnit(w, x1, y1, x2, y2)} ::
      InRange(w, x1, y1) && InRange(w, x2, y2) && (x1 != x2 || y1 != y2) &&
      SameUnit(w, x1, y1, x2, y2) && b[y1][x1] != 0
      ==> b[y1][x1] != b[y2][x2]
  }

  /**
   * Two cells of one unit hold the same digit; g may be smaller than the
   * board, and its missing cells count as empty.
   */
  ghost predicate Repeats(g: Board, w: int)
    requires w >= 1
  {
    exists x1, y1, x2, y2 {:trigger SameUnit(w, x1, y1, x2, y2)} ::
      InRange(w, x1, y1) && InRange(w, x2, y2) && (x1 != x2 || y1 != y2) &&
      SameUnit(w, x1, y1, x2, y2) && Cell(g, (x1, y1)) != 0 && Cell(g, (x1, y1)) == Cell(g, (x2, y2))
  }

  ghost predicate Complete(b: Board) {
    forall y, x :: 0 <= y < |b| && 0 <= x < |b[y]| ==> b[y][x] != 0
  }

  /** Every filled cell of b holds the same value in s. */
  ghost predicate Extends(s: Board, b: Board) {
    forall y, x :: 0 <= y < |b| && 0 <= x < |b[y]| && b[y][x] != 0 ==>
      y < |s| && x < |s[y]| && s[y][x] == b[y][x]
  }

  /** s is a finished, valid grid that keeps every filled cell of b. */
  ghost predicate IsSolution(s: Board, b: Board, w: int) {
    Shape(s, w) && Shape(b, w) &&
    (forall y, x :: 0 <= y < |s| && 0 <= x < |s[y]| ==> 1 <= s[y][x] <= w * w) &&
    NoDuplicates(s, w) && Extends(s, b)
  }

  ghost predicate Solvable(b: Board, w: int) {
    exists s :: IsSolution(s, b, w)
  }

  /** Every solution of b holds v at (x, y). */
  ghost predicate Forced(b: Board, w: int, x: int, y: int, v: int)
    requires InRange(w, x, y)
  {
    forall s :: IsSolution(s, b, w) ==> s[y][x] == v
  }

  /** Two boards with the same solutions. */
  ghost predicate SameSolutions(b: Board, b': Board, w: int) {
    Solutions(b, w) == Solutions(b', w)
  }

  /** Every solution of b. */
  ghost function Solutions(b: Board, w: int): iset<Board> {
    iset s | IsSolution(s, b, w)
  }

  /** The cells of unit i of a family, in the order of col_coords, row_coords and box_coords. */
  function UnitCoords(w: int, kind: UnitKind, i: int): seq<Coord>
    requires w >= 1
  {
    match kind
    case Column => seq(w * w, y => (i, y))
    case Row => seq(w * w, x => (x, i))
    case Box => seq(w * w, k => ((i / w) * w + k / w, (i % w) * w + k % w))
  }

  predicate InUnit(w: int, kind: UnitKind, i: int, x: int, y: int)
    requires w >= 1
  {
    match kind
    case Column => x == i
    case Row => y == i
    case Box => BoxOf(w, x, y) == i
  }

  /** Where (x, y) sits in UnitCoords of the unit that holds it. */
  function IndexInUnit(w: int, kind: UnitKind, x: int, y: int): int
    requires w >= 1
  {
    match kind
    case Column => y
    case Row => x
    case Box => (x % w) * w + y % w
  }

  // ---------------------------------------------------------------------------
  // Arithmetic on the box numbering

  lemma DivBound(w: int, x: int)
    requires w >= 1 && 0 <= x < w * w
    ensures 0 <= x / w < w
  {
  }

  lemma MulAtLeast(a: int, w: int)
    requires a >= 1 && w >= 1
    ensures a * w >= w
  {
  }

  lemma Distrib(a: int, b: int, w: int)
    ensures (a - b) * w == a * w - b * w
  {
  }

  lemma DivModOf(w: int, q: int, r: int)
    requires w >= 1 && 0 <= r < w
    ensures (q * w + r) / w == q && (q * w + r) % w == r
  {
    var z := q * w + r;
    var q', r' := z / w, z % w;
    assert q' * w + r' == z;
    Distrib(q, q', w);
    Distrib(q', q, w);
    if q > q' { MulAtLeast(q - q', w); }
    if q < q' { MulAtLeast(q' - q, w); }
  }

  lemma ProductBound(w: int, q: int, r: int)
    requires w >= 1 && 0 <= q < w && 0 <= r < w
    ensures 0 <= q * w + r < w * w
  {
    assert q * w <= (w - 1) * w by { Distrib(w - 1, q, w); }
    Distrib(w, 1, w);
  }

  /** A number below w * w splits into a quotient and a remainder below w. */
  lemma Decompose(w: int, z: int)
    requires w >= 1 && 0 <= z < w * w
    ensures z == (z / w) * w + z % w && 0 <= z / w < w && 0 <= z % w < w
  {
    DivBound(w, z);
  }

  /** A quotient and a remainder below w join into a number below w * w that splits back into them. */
  lemma Compose(w: int, q: int, r: int)
    requires w >= 1 && 0 <= q < w && 0 <= r < w
    ensures 0 <= q * w + r < w * w && (q * w + r) / w == q && (q * w + r) % w == r
  {
    ProductBound(w, q, r);
    DivModOf(w, q, r);
  }

  /** Box numbers of in-range cells are in range. */
  lemma BoxOfRange(w: int, x: int, y: int)
    requires w >= 1
    ensures InRange(w, x, y) ==> 0 <= BoxOf(w, x, y) < w * w
  {
    if InRange(w, x, y) {
      Decompose(w, x);
      Decompose(w, y);
      Compose(w, x / w, y / w);
    }
  }

  /** The k-th cell of box i lies in range, in box i, at position k. */
  lemma BoxCoordAt(w: int, i: int, k: int)
    requires w >= 1 && 0 <= i < w * w && 0 <= k < w * w
    ensures var c := UnitCoords(w, Box, i)[k];
      InRange(w, c.0, c.1) && BoxOf(w, c.0, c.1) == i && IndexInUnit(w, Box, c.0, c.1) == k
  {
    Decompose(w, i);
    Decompose(w, k);
    var x, y := (i / w) * w + k / w, (i % w) * w + k % w;
    Compose(w, i / w, k / w);
    Compose(w, i % w, k % w);
    assert UnitCoords(w, Box, i)[k] == (x, y);
    assert BoxOf(w, x, y) == (i / w) * w + i % w;
    assert IndexInUnit(w, Box, x, y) == (k / w) * w + k % w;
  }

  /** A cell of box i sits in UnitCoords at IndexInUnit. */
  lemma BoxIndexAt(w: int, i: int, x: int, y: int)
    requires w >= 1 && 0 <= i < w * w && InRange(w, x, y) && BoxOf(w, x, y) == i
    ensures 0 <= IndexInUnit(w, Box, x, y) < w * w
    ensures UnitCoords(w, Box, i)[IndexInUnit(w, Box, x, y)] == (x, y)
  {
    Decompose(w, x);
    Decompose(w, y);
    var k := (x % w) * w + y % w;
    Compose(w, x % w, y % w);
    Compose(w, x / w, y / w);
    assert i / w == x / w && i % w == y / w;
  }

  /** The cell at position k of a unit is in range, in the unit, and IndexInUnit gives k back. */
  lemma UnitCoordAt(w: int, kind: UnitKind, i: int, k: int)
    requires w >= 1 && 0 <= i < w * w && 0 <= k < w * w
    ensures |UnitCoords(w, kind, i)| == w * w
    ensures var c := UnitCoords(w, kind, i)[k];
      InRange(w, c.0, c.1) && InUnit(w, kind, i, c.0, c.1) && IndexInUnit(w, kind, c.0, c.1) == k
  {
    if kind == Box {
      BoxCoordAt(w, i, k);
    }
  }

  /** Every cell of a unit is listed in UnitCoords, at position IndexInUnit. */
  lemma UnitIndexAt(w: int, kind: UnitKind, i: int, x: int, y: int)
    requires w >= 1 && 0 <= i < w * w && InRange(w, x, y) && InUnit(w, kind, i, x, y)
    ensures |UnitCoords(w, kind, i)| == w * w
    ensures 0 <= IndexInUnit(w, kind, x, y) < w * w
    ensures UnitCoords(w, kind, i)[IndexInUnit(w, kind, x, y)] == (x, y)
  {
    if kind == Box {
      BoxIndexAt(w, i, x, y);
    }
  }

  lemma UnitCoordsInRange(w: int, kind: UnitKind, i: int)
    requires w >= 1 && 0 <= i < w * w
    ensures |UnitCoords(w, kind, i)| == w * w
    ensures forall k :: 0 <= k < w * w ==> InRange(w, UnitCoords(w, kind, i)[k].0, UnitCoords(w, kind, i)[k].1)
  {
    forall k | 0 <= k < w * w
      ensures InRange(w, UnitCoords(w, kind, i)[k].0, UnitCoords(w, kind, i)[k].1)
    {
      UnitCoordAt(w, kind, i, k);
    }
  }

  /** Two distinct positions of a unit hold distinct cells of that unit. */
  lemma UnitCoordsDistinct(w: int, kind: UnitKind, i: int, k1: int, k2: int)
    requires w >= 1 && 0 <= i < w * w && 0 <= k1 < w * w && 0 <= k2 < w * w && k1 != k2
    ensures UnitCoords(w, kind, i)[k1] != UnitCoords(w, kind, i)[k2]
    ensures SameUnit(w, UnitCoords(w, kind, i)[k1].0, UnitCoords(w, kind, i)[k1].1,
                        UnitCoords(w, kind, i)[k2].0, UnitCoords(w, kind, i)[k2].1)
  {
    UnitCoordAt(w, kind, i, k1);
    UnitCoordAt(w, kind, i, k2);
  }

  // ---------------------------------------------------------------------------
  // Cardinalities used by the pigeonhole argument

  lemma DigitsCard(n: nat)
    ensures |Digits(n)| == n
  {
    if n > 0 {
      DigitsCard(n - 1);
      assert Digits(n) == Digits(n - 1) + {n};
    }
  }

  lemma DistinctValuesCard(s: seq<int>)
    requires forall i, j :: 0 <= i < j < |s| ==> s[i] != s[j]
    ensures |set i | 0 <= i < |s| :: s[i]| == |s|
  {
    if |s| > 0 {
      var t := s[..|s| - 1];
      DistinctValuesCard(t);
      var st := set i | 0 <= i < |t| :: t[i];
      var ss := set i | 0 <= i < |s| :: s[i];
      assert ss == st + {s[|s| - 1]};
      assert s[|s| - 1] !in st;
    }
  }

  lemma SubsetSameCard(a: set<int>, b: set<int>)
    requires a <= b && |a| == |b|
    ensures a == b
  {
    assert b == a + (b - a);
  }

  /** The values of the cells of a unit, in UnitCoords order. */
  function UnitCells(b: Board, w: int, kind: UnitKind, i: int): (r: seq<int>)
    requires Shape(b, w) && 0 <= i < w * w
    ensures |r| == w * w
    ensures forall k :: 0 <= k < w * w ==> InRange(w, UnitCoords(w, kind, i)[k].0, UnitCoords(w, kind, i)[k].1)
    ensures forall k :: 0 <= k < w * w ==> r[k] == Cell(b, UnitCoords(w, kind, i)[k])
  {
    UnitCoordsInRange(w, kind, i);
    var u := UnitCoords(w, kind, i);
    seq(w * w, k requires 0 <= k < w * w => Cell(b, u[k]))
  }

  /** On a duplicate-free board, the filled cells of one unit hold distinct values. */
  lemma UnitCellsDistinct(s: Board, w: int, kind: UnitKind, i: int, k1: int, k2: int)
    requires Shape(s, w) && NoDuplicates(s, w) && 0 <= i < w * w
    requires 0 <= k1 < w * w && 0 <= k2 < w * w && k1 != k2
    requires UnitCells(s, w, kind, i)[k1] != 0
    ensures UnitCells(s, w, kind, i)[k1] != UnitCells(s, w, kind, i)[k2]
  {
    UnitCoordsDistinct(w, kind, i, k1, k2);
  }

  /** No cell of unit i of the family holds v. */
  ghost predicate MissingFrom(b: Board, w: int, kind: UnitKind, i: int, v: int)
    requires Shape(b, w)
  {
    forall x, y :: InRange(w, x, y) && InUnit(w, kind, i, x, y) ==> b[y][x] != v
  }

  /**
   * Pigeonhole: a finished valid grid holds every digit in every unit.
   */
  lemma UnitHasEveryDigit(s: Board, w: int, kind: UnitKind, i: int, v: int)
    requires Shape(s, w) && NoDuplicates(s, w)
    requires forall y, x :: 0 <= y < |s| && 0 <= x < |s[y]| ==> 1 <= s[y][x] <= w * w
    requires 0 <= i < w * w && 1 <= v <= w * w
    ensures !MissingFrom(s, w, kind, i, v)
  {
    var vals := UnitCells(s, w, kind, i);
    forall k1, k2 | 0 <= k1 < k2 < |vals|
      ensures vals[k1] != vals[k2]
    {
      UnitCellsDistinct(s, w, kind, i, k1, k2);
    }
    DistinctValuesCard(vals);
    var present := set k | 0 <= k < |vals| :: vals[k];
    assert present <= Digits(w * w);
    DigitsCard(w * w);
    SubsetSameCard(present, Digits(w * w));
    assert v in present;
    var k :| 0 <= k < |vals| && vals[k] == v;
    UnitCoordAt(w, kind, i, k);
  }

  // ---------------------------------------------------------------------------
  // Soundness of the two propagation rules

  /** One instance of NoDuplicates. */
  lemma NoDuplicatesAt(s: Board, w: int, x1: int, y1: int, x2: int, y2: int)
    requires Shape(s, w) && NoDuplicates(s, w)
    requires InRange(w, x1, y1) && InRange(w, x2, y2) && (x1 != x2 || y1 != y2) && SameUnit(w, x1, y1, x2, y2)
    requires s[y1][x1] != 0
    ensures s[y1][x1] != s[y2][x2]
  {
  }

  /** The value a solution gives an empty cell is one of the cell's candidates. */
  lemma SolutionValueIsCandidate(s: Board, b: Board, w: int, x: int, y: int)
    requires IsSolution(s, b, w) && InRange(w, x, y) && b[y][x] == 0
    ensures s[y][x] in Candidates(b, w, x, y)
  {
    var v := s[y][x];
    if v in RowValues(b, y) {
      var x' :| 0 <= x' < |b[y]| && b[y][x'] != 0 && b[y][x'] == v;
      NoDuplicatesAt(s, w, x, y, x', y);
      assert false;
    }
    if v in ColValues(b, x) {
      var y' :| 0 <= y' < |b| && 0 <= x < |b[y']| && b[y'][x] != 0 && b[y'][x] == v;
      NoDuplicatesAt(s, w, x, y, x, y');
      assert false;
    }
    if v in BoxValues(b, w, BoxOf(w, x, y)) {
      var y', x' :| 0 <= y' < |b| && 0 <= x' < |b[y']| && BoxOf(w, x', y') == BoxOf(w, x, y) && b[y'][x'] != 0 && b[y'][x'] == v;
      NoDuplicatesAt(s, w, x, y, x', y');
      assert false;
    }
  }

  /**
   * Hidden single: if v is missing from a unit and exactly one empty cell of the
   * unit admits it, every solution puts v in that cell.
   */
  lemma HiddenSingleForced(b: Board, w: int, kind: UnitKind, i: int, v: int, x: int, y: int)
    requires Shape(b, w) && 0 <= i < w * w && 1 <= v <= w * w
    requires MissingFrom(b, w, kind, i, v)
    requires InRange(w, x, y) && InUnit(w, kind, i, x, y) && Admits(b, w, x, y, v)
    requires forall x', y' :: (InRange(w, x', y') && InUnit(w, kind, i, x', y') && Admits(b, w, x', y', v)
      ==> x' == x && y' == y)
    ensures Forced(b, w, x, y, v)
  {
    forall s | IsSolution(s, b, w)
      ensures s[y][x] == v
    {
      UnitHasEveryDigit(s, w, kind, i, v);
      var x', y' :| InRange(w, x', y') && InUnit(w, kind, i, x', y') && s[y'][x'] == v;
      SolutionValueIsCandidate(s, b, w, x', y');
    }
  }

  /**
   * The UnsolvablePuzzle case of fill_must_fills: a digit missing from a unit
   * that no empty cell of the unit admits leaves the board without solutions.
   */
  lemma MissingDigitUnsolvable(b: Board, w: int, kind: UnitKind, i: int, v: int)
    requires Shape(b, w) && 0 <= i < w * w && 1 <= v <= w * w
    requires MissingFrom(b, w, kind, i, v)
    requires forall x, y :: InRange(w, x, y) && InUnit(w, kind, i, x, y) ==> !Admits(b, w, x, y, v)
    ensures !Solvable(b, w)
  {
    if s :| IsSolution(s, b, w) {
      UnitHasEveryDigit(s, w, kind, i, v);
      var x', y' :| InRange(w, x', y') && InUnit(w, kind, i, x', y') && s[y'][x'] == v;
      SolutionValueIsCandidate(s, b, w, x', y');
      assert false;
    }
  }

  /** Naked single: an empty cell with exactly one candidate holds it in every solution. */
  lemma NakedSingleForced(b: Board, w: int, x: int, y: int, v: int)
    requires Shape(b, w) && InRange(w, x, y) && b[y][x] == 0 && Candidates(b, w, x, y) == {v}
    ensures Forced(b, w, x, y, v)
  {
    forall s | IsSolution(s, b, w)
      ensures s[y][x] == v
    {
      SolutionValueIsCandidate(s, b, w, x, y);
    }
  }

  /** Writing a forced value into an empty cell keeps exactly the same solutions. */
  lemma PlaceForcedKeepsSolutions(b: Board, w: int, x: int, y: int, v: int)
    requires Shape(b, w) && InRange(w, x, y) && b[y][x] == 0 && v != 0
    requires Forced(b, w, x, y, v)
    ensures SameSolutions(b, Place(b, x, y, v), w)
  {
    var b' := Place(b, x, y, v);
    forall s
      ensures IsSolution(s, b, w) <==> IsSolution(s, b', w)
    {
      if IsSolution(s, b, w) {
        assert s[y][x] == v;
        assert Extends(s, b');
      }
      if IsSolution(s, b', w) {
        assert Extends(s, b) by {
          forall yy, xx | 0 <= yy < |b| && 0 <= xx < |b[yy]| && b[yy][xx] != 0
            ensures yy < |s| && xx < |s[yy]| && s[yy][xx] == b[yy][xx]
          {
            assert b'[yy][xx] == b[yy][xx];
          }
        }
      }
    }
  }

  /**
   * A forced value that clashes with the unit of its empty cell, or a cell
   * already holding another value, shows that the board has no solution.
   */
  lemma ForcedClashUnsolvable(b: Board, w: int, x: int, y: int, v: int)
    requires Shape(b, w) && InRange(w, x, y) && Forced(b, w, x, y, v)
    requires (b[y][x] == 0 && v !in Candidates(b, w, x, y)) || (b[y][x] != 0 && b[y][x] != v)
    ensures !Solvable(b, w)
  {
    if s :| IsSolution(s, b, w) {
      if b[y][x] == 0 {
        SolutionValueIsCandidate(s, b, w, x, y);
      }
      assert false;
    }
  }

  /** The cells of a board and a solution of it agree wherever the board is filled. */
  lemma FilledCellIsForced(b: Board, w: int, x: int, y: int)
    requires Shape(b, w) && InRange(w, x, y) && b[y][x] != 0
    ensures Forced(b, w, x, y, b[y][x])
  {
  }

  // ---------------------------------------------------------------------------
  // How the three mirrors change when one cell changes

  lemma PlaceShape(b: Board, w: int, x: int, y: int, v: int)
    requires Shape(b, w) && InRange(w, x, y)
    ensures Shape(Place(b, x, y, v), w)
  {
  }

  /** Changing cell (x, y) from old to v changes only the value set of its row, and that one by old and v. */
  lemma RowValuesAfterPlace(b: Board, w: int, x: int, y: int, v: int, y': int)
    requires Shape(b, w) && InRange(w, x, y) && 0 <= y' < w * w
    requires forall x' :: 0 <= x' < w * w && x' != x && b[y][x'] != 0 ==> b[y][x'] != b[y][x]
    ensures RowValues(Place(b, x, y, v), y') ==
      if y' != y then RowValues(b, y')
      else (RowValues(b, y') - {b[y][x]}) + (if v != 0 then {v} else {})
  {
    var b' := Place(b, x, y, v);
    if y' == y {
      var lhs, rhs := RowValues(b', y), (RowValues(b, y) - {b[y][x]}) + (if v != 0 then {v} else {});
      forall e | e in lhs ensures e in rhs {
        var x' :| 0 <= x' < |b'[y]| && b'[y][x'] != 0 && b'[y][x'] == e;
        if x' != x { assert b[y][x'] == e; }
      }
      forall e | e in rhs ensures e in lhs {
        if e == v && v != 0 {
          assert b'[y][x] == e;
        } else {
          var x' :| 0 <= x' < |b[y]| && b[y][x'] != 0 && b[y][x'] == e;
          assert b'[y][x'] == e;
        }
      }
    } else {
      assert b'[y'] == b[y'];
    }
  }

  /** Changing cell (x, y) from old to v changes only the value set of its column, and that one by old and v. */
  lemma ColValuesAfterPlace(b: Board, w: int, x: int, y: int, v: int, x': int)
    requires Shape(b, w) && InRange(w, x, y) && 0 <= x' < w * w
    requires forall y' :: 0 <= y' < w * w && y' != y && b[y'][x] != 0 ==> b[y'][x] != b[y][x]
    ensures ColValues(Place(b, x, y, v), x') ==
      if x' != x then ColValues(b, x')
      else (ColValues(b, x') - {b[y][x]}) + (if v != 0 then {v} else {})
  {
    var b' := Place(b, x, y, v);
    var lhs := ColValues(b', x');
    var rhs := if x' != x then ColValues(b, x') else (ColValues(b, x') - {b[y][x]}) + (if v != 0 then {v} else {});
    forall e | e in lhs ensures e in rhs {
      var y' :| 0 <= y' < |b'| && 0 <= x' < |b'[y']| && b'[y'][x'] != 0 && b'[y'][x'] == e;
      if (x', y') != (x, y) { assert b[y'][x'] == e; }
    }
    forall e | e in rhs ensures e in lhs {
      if x' == x && e == v && v != 0 {
        assert b'[y][x] == e;
      } else {
        var y' :| 0 <= y' < |b| && 0 <= x' < |b[y']| && b[y'][x'] != 0 && b[y'][x'] == e;
        assert b'[y'][x'] == e;
      }
    }
  }

  /** Changing cell (x, y) from old to v changes only the value set of its box, and that one by old and v. */
  lemma BoxValuesAfterPlace(b: Board, w: int, x: int, y: int, v: int, k: int)
    requires Shape(b, w) && InRange(w, x, y) && 0 <= k < w * w
    requires forall x', y' :: (InRange(w, x', y') && (x' != x || y' != y) && BoxOf(w, x', y') == BoxOf(w, x, y) && b[y'][x'] != 0
      ==> b[y'][x'] != b[y][x])
    ensures BoxValues(Place(b, x, y, v), w, k) ==
      if k != BoxOf(w, x, y) then BoxValues(b, w, k)
      else (BoxValues(b, w, k) - {b[y][x]}) + (if v != 0 then {v} else {})
  {
    var b' := Place(b, x, y, v);
    var lhs := BoxValues(b', w, k);
    var rhs := if k != BoxOf(w, x, y) then BoxValues(b, w, k) else (BoxValues(b, w, k) - {b[y][x]}) + (if v != 0 then {v} else {});
    forall e | e in lhs ensures e in rhs {
      var y', x' :| 0 <= y' < |b'| && 0 <= x' < |b'[y']| && BoxOf(w, x', y') == k && b'[y'][x'] != 0 && b'[y'][x'] == e;
      if (x', y') != (x, y) { assert b[y'][x'] == e; }
    }
    forall e | e in rhs ensures e in lhs {
      if k == BoxOf(w, x, y) && e == v && v != 0 {
        assert b'[y][x] == e;
      } else {
        var y', x' :| 0 <= y' < |b| && 0 <= x' < |b[y']| && BoxOf(w, x', y') == k && b[y'][x'] != 0 && b[y'][x'] == e;
        assert b'[y'][x'] == e;
      }
    }
  }

  /**
   * Writing v into a cell of a duplicate-free board replaces the cell's old
   * value by v in its row, column and box sets and changes no other set
   * (0 stands for no value on either side).
   */
  lemma MirrorsAfterPlace(b: Board, w: int, x: int, y: int, v: int)
    requires Shape(b, w) && InRange(w, x, y) && NoDuplicates(b, w)
    ensures forall y' :: 0 <= y' < w * w ==>
      RowValues(Place(b, x, y, v), y') ==
        if y' != y then RowValues(b, y') else (RowValues(b, y') - {b[y][x]}) + (if v != 0 then {v} else {})
    ensures forall x' :: 0 <= x' < w * w ==>
      ColValues(Place(b, x, y, v), x') ==
        if x' != x then ColValues(b, x') else (ColValues(b, x') - {b[y][x]}) + (if v != 0 then {v} else {})
    ensures forall k :: 0 <= k < w * w ==>
      BoxValues(Place(b, x, y, v), w, k) ==
        if k != BoxOf(w, x, y) then BoxValues(b, w, k) else (BoxValues(b, w, k) - {b[y][x]}) + (if v != 0 then {v} else {})
  {
    forall x' | 0 <= x' < w * w && x' != x && b[y][x'] != 0
      ensures b[y][x'] != b[y][x]
    {
      NoDuplicatesAt(b, w, x', y, x, y);
    }
    forall y' | 0 <= y' < w * w && y' != y && b[y'][x] != 0
      ensures b[y'][x] != b[y][x]
    {
      NoDuplicatesAt(b, w, x, y', x, y);
    }
    forall x', y' | InRange(w, x', y') && (x' != x || y' != y) && BoxOf(w, x', y') == BoxOf(w, x, y) && b[y'][x'] != 0
      ensures b[y'][x'] != b[y][x]
    {
      NoDuplicatesAt(b, w, x', y', x, y);
    }
    forall y' | 0 <= y' < w * w ensures RowValues(Place(b, x, y, v), y') ==
      if y' != y then RowValues(b, y') else (RowValues(b, y') - {b[y][x]}) + (if v != 0 then {v} else {})
    {
      RowValuesAfterPlace(b, w, x, y, v, y');
    }
    forall x' | 0 <= x' < w * w ensures ColValues(Place(b, x, y, v), x') ==
      if x' != x then ColValues(b, x') else (ColValues(b, x') - {b[y][x]}) + (if v != 0 then {v} else {})
    {
      ColValuesAfterPlace(b, w, x, y, v, x');
    }
    forall k | 0 <= k < w * w ensures BoxValues(Place(b, x, y, v), w, k) ==
      if k != BoxOf(w, x, y) then BoxValues(b, w, k) else (BoxValues(b, w, k) - {b[y][x]}) + (if v != 0 then {v} else {})
    {
      BoxValuesAfterPlace(b, w, x, y, v, k);
    }
  }

  /** Filling an empty cell with a candidate keeps the board free of duplicates. */
  lemma FillKeepsNoDuplicates(b: Board, w: int, x: int, y: int, v: int)
    requires Shape(b, w) && InRange(w, x, y) && b[y][x] == 0 && NoDuplicates(b, w)
    requires v !in RowValues(b, y) && v !in ColValues(b, x) && v !in BoxValues(b, w, BoxOf(w, x, y))
    ensures NoDuplicates(Place(b, x, y, v), w)
  {
  }

  /** Emptying a cell keeps the board free of duplicates. */
  lemma ClearKeepsNoDuplicates(b: Board, w: int, x: int, y: int)
    requires Shape(b, w) && InRange(w, x, y) && NoDuplicates(b, w)
    ensures NoDuplicates(Place(b, x, y, 0), w)
  {
  }

  // ---------------------------------------------------------------------------
  // How solutions carry over from a board to a fuller one

  /** A solution of a fuller board is a solution of the board it extends. */
  lemma FullerBoardFewerSolutions(b: Board, b': Board, w: int, s: Board)
    requires Shape(b, w) && Shape(b', w) && Extends(b', b) && IsSolution(s, b', w)
    ensures IsSolution(s, b, w)
  {
    forall y, x | 0 <= y < |b| && 0 <= x < |b[y]| && b[y][x] != 0
      ensures s[y][x] == b[y][x]
    {
      assert b'[y][x] == b[y][x];
    }
  }

  /** A puzzle with a solution repeats no digit within a unit. */
  lemma SolvableNoRepeats(s: Board, b: Board, w: int)
    requires IsSolution(s, b, w)
    ensures !Repeats(b, w)
  {
    forall x1, y1, x2, y2 | InRange(w, x1, y1) && InRange(w, x2, y2) && (x1 != x2 || y1 != y2) &&
        SameUnit(w, x1, y1, x2, y2) && Cell(b, (x1, y1)) != 0
      ensures Cell(b, (x1, y1)) != Cell(b, (x2, y2))
    {
      assert s[y1][x1] == b[y1][x1];
    }
  }

  /** A value forced on a board stays forced on every board that extends it. */
  lemma ForcedStaysForced(b: Board, b': Board, w: int, x: int, y: int, v: int)
    requires Shape(b, w) && Shape(b', w) && Extends(b', b) && InRange(w, x, y)
    requires Forced(b, w, x, y, v)
    ensures Forced(b', w, x, y, v)
  {
    forall s | IsSolution(s, b', w)
      ensures s[y][x] == v
    {
      FullerBoardFewerSolutions(b, b', w, s);
    }
  }

  /** A board without solutions cannot gain one by filling cells. */
  lemma UnsolvableStaysUnsolvable(b: Board, b': Board, w: int)
    requires Shape(b, w) && Shape(b', w) && Extends(b', b) && !Solvable(b, w)
    ensures !Solvable(b', w)
  {
    if s :| IsSolution(s, b', w) {
      FullerBoardFewerSolutions(b, b', w, s);
      assert false;
    }
  }

  lemma ExtendsTrans(a: Board, b: Board, c: Board)
    requires Extends(a, b) && Extends(b, c)
    ensures Extends(a, c)
  {
  }

  /** A filled cell of a unit keeps its value out of the candidates of every cell of that unit. */
  lemma UnitValueNotCandidate(b: Board, w: int, kind: UnitKind, i: int, x1: int, y1: int, x2: int, y2: int)
    requires Shape(b, w) && InRange(w, x1, y1) && InRange(w, x2, y2)
    requires InUnit(w, kind, i, x1, y1) && InUnit(w, kind, i, x2, y2) && b[y2][x2] != 0
    ensures b[y2][x2] !in Candidates(b, w, x1, y1)
  {
    match kind
    case Row =>
      assert b[y2][x2] in RowValues(b, y1);
    case Column =>
      assert b[y2][x2] in ColValues(b, x1);
    case Box =>
      assert b[y2][x2] in BoxValues(b, w, BoxOf(w, x1, y1));
  }

  /** The empty cells of a board. */
  ghost function Empties(b: Board): set<Coord> {
    set y, x | 0 <= y < |b| && 0 <= x < |b[y]| && b[y][x] == 0 :: (x, y)
  }

  /** Filling cells only removes empty cells; filling one that was empty removes at least that one. */
  lemma EmptiesShrink(b: Board, b': Board, w: int)
    requires Shape(b, w) && Shape(b', w) && Extends(b', b)
    ensures Empties(b') <= Empties(b)
    ensures forall x, y :: InRange(w, x, y) && b[y][x] == 0 && b'[y][x] != 0 ==> Empties(b') < Empties(b)
  {
    forall c | c in Empties(b')
      ensures c in Empties(b)
    {
      var y, x :| 0 <= y < |b'| && 0 <= x < |b'[y]| && b'[y][x] == 0 && c == (x, y);
      assert b[y][x] == 0;
    }
    forall x, y | InRange(w, x, y) && b[y][x] == 0 && b'[y][x] != 0
      ensures Empties(b') < Empties(b)
    {
      assert (x, y) in Empties(b);
    }
  }

  /** Filling cells only takes candidates away. */
  lemma CandidatesShrink(b: Board, b': Board, w: int, x: int, y: int)
    requires Shape(b, w) && Shape(b', w) && Extends(b', b) && InRange(w, x, y)
    ensures Candidates(b', w, x, y) <= Candidates(b, w, x, y)
  {
    assert RowValues(b, y) <= RowValues(b', y) by {
      forall v | v in RowValues(b, y) ensures v in RowValues(b', y) {
        var x' :| 0 <= x' < |b[y]| && b[y][x'] != 0 && b[y][x'] == v;
        assert b'[y][x'] == v;
      }
    }
    assert ColValues(b, x) <= ColValues(b', x) by {
      forall v | v in ColValues(b, x) ensures v in ColValues(b', x) {
        var y' :| 0 <= y' < |b| && 0 <= x < |b[y']| && b[y'][x] != 0 && b[y'][x] == v;
        assert b'[y'][x] == v;
      }
    }
    var k := BoxOf(w, x, y);
    assert BoxValues(b, w, k) <= BoxValues(b', w, k) by {
      forall v | v in BoxValues(b, w, k) ensures v in BoxValues(b', w, k) {
        var y', x' :| 0 <= y' < |b| && 0 <= x' < |b[y']| && BoxOf(w, x', y') == k && b[y'][x'] != 0 && b[y'][x'] == v;
        assert b'[y'][x'] == v;
      }
    }
  }

  /** A digit that unit i lacks and none of its cells admits. */
  ghost predicate DeadDigit(b: Board, w: int, kind: UnitKind, i: int, v: int)
    requires Shape(b, w)
  {
    && 1 <= v <= w * w && MissingFrom(b, w, kind, i, v)
    && forall x, y :: InRange(w, x, y) && InUnit(w, kind, i, x, y) ==> !Admits(b, w, x, y, v)
  }

  /** Boards with the same solutions agree on what is forced and on solvability. */
  lemma SameSolutionsForced(b: Board, b': Board, w: int, x: int, y: int, v: int)
    requires SameSolutions(b, b', w) && InRange(w, x, y) && Forced(b, w, x, y, v)
    ensures Forced(b', w, x, y, v)
  {
    forall s | IsSolution(s, b', w)
      ensures s[y][x] == v
    {
      assert s in Solutions(b', w);
    }
  }

  lemma SameSolvable(b: Board, b': Board, w: int)
    requires SameSolutions(b, b', w) && !Solvable(b', w)
    ensures !Solvable(b, w)
  {
    forall s
      ensures !IsSolution(s, b, w)
    {
      assert IsSolution(s, b, w) <==> s in Solutions(b', w);
    }
  }

  lemma SameSolutionsTrans(b0: Board, b1: Board, b2: Board, w: int)
    requires SameSolutions(b0, b1, w) && SameSolutions(b1, b2, w)
    ensures SameSolutions(b0, b2, w)
  {
  }
}

=== FILE: sudoku_grid.dfy ===
/**
 * SudokuGrid of Generator/sudoku_solver.py: an N x N cell array (0 = empty)
 * with three mirror families, the value sets of every row, column and box.
 * add and remove are the only mutators and keep the mirrors equal to the
 * values actually on the board.
 */
module ConstraintGrid {
  import opened Wrappers
  import opened SquareBoard

  /**
   * The exceptions of the grid and the solver: AlreadySetError, ConflictError
   * (with its type, coordinates and value), the KeyError of removing an empty
   * cell, UnsolvablePuzzle, the ValueError of a second breadcrumb on a cell,
   * the KeyError and ZeroDivisionError of a rating, and the model's own
   * OutOfFuel for a search cut short.
   */
  datatype SudokuError =
    | AlreadySet
    | Conflict(kind: UnitKind, x: int, y: int, val: int)
    | KeyError
    | Unsolvable
    | CrumbExists(cx: int, cy: int)
    | ZeroDivision
    | OutOfFuel

  /** A move (x, y, val), as recorded by the rater and the propagation rules. */
  datatype Move = Move(x: int, y: int, val: int)

  /**
   * What add does to a board: the error it raises, if any, and the board it
   * leaves.  With force an occupied cell is emptied first and stays empty when
   * a conflict follows.
   */
  function AddSpec(b: Board, w: int, x: int, y: int, val: int, force: bool): (Option<SudokuError>, Board)
    requires Shape(b, w) && InRange(w, x, y)
  {
    if b[y][x] != 0 && !force then (Some(AlreadySet), b)
    else
      var b1 := if b[y][x] != 0 then Place(b, x, y, 0) else b;
      if val in RowValues(b1, y) then (Some(Conflict(Row, x, y, val)), b1)
      else if val in ColValues(b1, x) then (Some(Conflict(Column, x, y, val)), b1)
      else if val in BoxValues(b1, w, BoxOf(w, x, y)) then (Some(Conflict(Box, x, y, val)), b1)
      else (None, Place(b, x, y, val))
  }

  /** What remove does to a board: a KeyError on an empty cell, otherwise the cell emptied. */
  function RemoveSpec(b: Board, x: int, y: int): (Option<SudokuError>, Board)
    requires 0 <= y < |b| && 0 <= x < |b[y]|
  {
    if b[y][x] == 0 then (Some(KeyError), b) else (None, Place(b, x, y, 0))
  }

  /**
   * add without force leaves the board as it was whenever it raises, and
   * otherwise fills exactly the one empty cell with a value its row, column and
   * box do not hold.
   */
  lemma AddSpecOutcome(b: Board, w: int, x: int, y: int, val: int)
    requires Shape(b, w) && InRange(w, x, y)
    ensures var (e, b') := AddSpec(b, w, x, y, val, false);
      (e.Some? ==> b' == b) &&
      (e == Some(AlreadySet) <==> b[y][x] != 0) &&
      (e.None? <==> b[y][x] == 0 && val !in RowValues(b, y) && val !in ColValues(b, x) &&
                    val !in BoxValues(b, w, BoxOf(w, x, y))) &&
      (e.None? ==> b' == Place(b, x, y, val))
  {
  }

  /** Whatever add without force does, every filled cell keeps its value. */
  lemma AddSpecExtends(b: Board, w: int, x: int, y: int, val: int)
    requires Shape(b, w) && InRange(w, x, y)
    ensures Shape(AddSpec(b, w, x, y, val, false).1, w) && Extends(AddSpec(b, w, x, y, val, false).1, b)
  {
    PlaceShape(b, w, x, y, val);
  }


  /**
   * add of a value every solution agrees on: on success the solutions stay the
   * same, and a conflict shows there are none.
   */
  lemma AddForcedOutcome(b: Board, w: int, x: int, y: int, val: int)
    requires Shape(b, w) && InRange(w, x, y) && 1 <= val <= w * w && Forced(b, w, x, y, val)
    ensures var (e, b') := AddSpec(b, w, x, y, val, false);
      (e.None? ==> SameSolutions(b, b', w)) &&
      (e.Some? && e != Some(AlreadySet) ==> !Solvable(b, w))
  {
    var (e, b') := AddSpec(b, w, x, y, val, false);
    if e.None? {
      PlaceForcedKeepsSolutions(b, w, x, y, val);
    } else if e != Some(AlreadySet) {
      ForcedClashUnsolvable(b, w, x, y, val);
    }
  }

  /** add of a candidate value to an empty cell never raises. */
  lemma AddCandidateSucceeds(b: Board, w: int, x: int, y: int, val: int)
    requires Shape(b, w) && InRange(w, x, y) && b[y][x] == 0 && val in Candidates(b, w, x, y)
    ensures AddSpec(b, w, x, y, val, false) == (None, Place(b, x, y, val))
  {
  }

  /** add followed by remove on the same cell gives the board back. */
  lemma AddRemoveRoundTrip(b: Board, w: int, x: int, y: int, val: int)
    requires Shape(b, w) && InRange(w, x, y) && val != 0
    requires AddSpec(b, w, x, y, val, false).0.None?
    ensures RemoveSpec(AddSpec(b, w, x, y, val, false).1, x, y) == (None, b)
  {
    var b' := AddSpec(b, w, x, y, val, false).1;
    assert Place(b', x, y, 0) == b by {
      assert b'[y][x := 0] == b[y];
    }
  }

  class SudokuGrid {
    const w: int
    /** group_size */
    const n: int
    /** gen_set: the digits 1..n */
    const genSet: set<int>
    /** grid, indexed [y, x] */
    const cells: array2<int>
    var rows: seq<set<int>>
    var cols: seq<set<int>>
    var boxes: seq<set<int>>

    ghost predicate Dims()
      reads this
    {
      w >= 1 && n == w * w && cells.Length0 == n && cells.Length1 == n
    }

    /** The board the cell array holds, kept beside it for the specification. */
    ghost var board: Board

    ghost predicate Valid()
      reads this, cells
    {
      Dims() && genSet == Digits(n) && Shape(board, w) &&
      (forall y, x :: 0 <= y < n && 0 <= x < n ==> board[y][x] == cells[y, x]) &&
      |rows| == n && |cols| == n && |boxes| == n &&
      InDigits(board, n) && NoDuplicates(board, w) &&
      (forall y :: 0 <= y < n ==> rows[y] == RowValues(board, y)) &&
      (forall x :: 0 <= x < n ==> cols[x] == ColValues(board, x)) &&
      (forall k :: 0 <= k < n ==> boxes[k] == BoxValues(board, w, k))
    }

    /** An empty grid of side w * w (SudokuGrid(group_size=w*w) with no grid). */
    constructor(w: int)
      requires w >= 1
      ensures Valid() && this.w == w && fresh(cells)
      ensures forall y, x :: 0 <= y < n && 0 <= x < n ==> board[y][x] == 0
    {
      this.w := w;
      n := w * w;
      genSet := Digits(w * w);
      cells := new int[w * w, w * w]((y, x) => 0);
      rows := seq(w * w, _ => {});
      cols := seq(w * w, _ => {});
      boxes := seq(w * w, _ => {});
      board := seq(w * w, _ => seq(w * w, _ => 0));
      new;
      EmptyMirrors(board, w);
    }

    /** A board with no filled cell has empty value sets and no duplicates. */
    static lemma EmptyMirrors(b: Board, w: int)
      requires Shape(b, w) && forall y, x :: 0 <= y < w * w && 0 <= x < w * w ==> b[y][x] == 0
      ensures NoDuplicates(b, w) && InDigits(b, w * w)
      ensures forall y :: 0 <= y < w * w ==> RowValues(b, y) == {}
      ensures forall x :: 0 <= x < w * w ==> ColValues(b, x) == {}
      ensures forall k :: 0 <= k < w * w ==> BoxValues(b, w, k) == {}
    {
    }

    /** _set_ together with the mirror update that follows it. */
    method Write(x: int, y: int, val: int)
      requires Valid() && InRange(w, x, y) && 0 <= val <= n
      requires val != 0 ==>
        (board[y][x] == 0 && val !in RowValues(board, y) &&
         val !in ColValues(board, x) && val !in BoxValues(board, w, BoxOf(w, x, y)))
      modifies this, cells
      ensures Valid() && board == Place(old(board), x, y, val)
    {
      ghost var b := board;
      MirrorsAfterPlace(b, w, x, y, val);
      BoxOfRange(w, x, y);
      var k := BoxOf(w, x, y);
      var old_val := cells[y, x];
      rows := rows[y := (rows[y] - {old_val}) + (if val != 0 then {val} else {})];
      cols := cols[x := (cols[x] - {old_val}) + (if val != 0 then {val} else {})];
      boxes := boxes[k := (boxes[k] - {old_val}) + (if val != 0 then {val} else {})];
      cells[y, x] := val;
      board := Place(b, x, y, val);
      if val == 0 {
        ClearKeepsNoDuplicates(b, w, x, y);
      } else {
        FillKeepsNoDuplicates(b, w, x, y, val);
      }
    }

    /** add(x, y, val, force) */
    method Add(x: int, y: int, val: int, force: bool) returns (e: Option<SudokuError>)
      requires Valid() && InRange(w, x, y) && 1 <= val <= n
      modifies this, cells
      ensures Valid()
      ensures (e, board) == AddSpec(old(board), w, x, y, val, force)
    {
      ghost var b := board;
      if cells[y, x] != 0 {
        if force {
          Write(x, y, 0);
        } else {
          return Some(AlreadySet);
        }
      }
      BoxOfRange(w, x, y);
      var k := BoxOf(w, x, y);
      if val in rows[y] {
        return Some(Conflict(Row, x, y, val));
      }
      if val in cols[x] {
        return Some(Conflict(Column, x, y, val));
      }
      if val in boxes[k] {
        return Some(Conflict(Box, x, y, val));
      }
      Write(x, y, val);
      assert board == Place(b, x, y, val) by {
        assert board[y] == b[y][x := val];
      }
      return None;
    }

    /** remove(x, y) */
    method Remove(x: int, y: int) returns (e: Option<SudokuError>)
      requires Valid() && InRange(w, x, y)
      modifies this, cells
      ensures Valid()
      ensures (e, board) == RemoveSpec(old(board), x, y)
    {
      if cells[y, x] == 0 {
        return Some(KeyError);
      }
      Write(x, y, 0);
      return None;
    }

    /** The cells as a value, row by row (the tuple of tuples solution_finder yields). */
    method Snapshot() returns (b: Board)
      requires Valid()
      ensures b == board
    {
      b := [];
      for y := 0 to n
        invariant |b| == y && forall yy :: 0 <= yy < y ==> b[yy] == board[yy]
      {
        var row := [];
        for x := 0 to n
          invariant row == board[y][..x]
        {
          row := row + [cells[y, x]];
        }
        b := b + [row];
      }
    }

    /** _get_(x, y) */
    function Get(x: int, y: int): (v: int)
      requires Valid() && InRange(w, x, y)
      reads this, cells
      ensures v == board[y][x] && 0 <= v <= n
    {
      cells[y, x]
    }

    /** possible_values(x, y), computed from the mirrors. */
    function PossibleValues(x: int, y: int): (r: set<int>)
      requires Valid() && InRange(w, x, y)
      reads this, cells
      ensures r == Candidates(board, w, x, y)
    {
      BoxOfRange(w, x, y);
      genSet - rows[y] - cols[x] - boxes[BoxOf(w, x, y)]
    }

    /**
     * calculate_open_squares: every empty cell with its candidates, in the
     * order the source inserts them (x outer, y inner).
     */
    method CalculateOpenSquares() returns (r: seq<(Coord, set<int>)>)
      requires Valid()
      ensures OpenSquaresOf(board, w, r)
    {
      r := [];
      for x := 0 to n
        invariant r == OpenBefore(board, w, x)
      {
        for y := 0 to n
          invariant r == OpenBefore(board, w, x) + OpenInColumn(board, w, x, y)
        {
          if cells[y, x] == 0 {
            ghost var col := OpenInColumn(board, w, x, y);
            r := r + [((x, y), PossibleValues(x, y))];
            assert r == OpenBefore(board, w, x) + (col + [((x, y), Candidates(board, w, x, y))]);
          }
        }
      }
      OpenBeforeFacts(board, w, n);
    }

    /**
     * find_conflict(x, y, val, type): the first cell of the row, column or box
     * of (x, y), in the source's listing order, that holds val.
     */
    method FindConflict(x: int, y: int, val: int, kind: UnitKind) returns (r: Option<Coord>)
      requires Valid() && InRange(w, x, y)
      ensures var i := UnitIndex(w, kind, x, y);
        match r
        case None => MissingFrom(board, w, kind, i, val)
        case Some(c) =>
          && InRange(w, c.0, c.1) && InUnit(w, kind, i, c.0, c.1) && board[c.1][c.0] == val
          && var u := UnitCoords(w, kind, i);
             forall k :: 0 <= k < |u| && k < IndexInUnit(w, kind, c.0, c.1) ==> Cell(board, u[k]) != val
    {
      var i := UnitIndex(w, kind, x, y);
      var coords := UnitCoords(w, kind, i);
      UnitCoordsInRange(w, kind, i);
      for k := 0 to n
        invariant forall k' :: 0 <= k' < k ==> Cell(board, coords[k']) != val
      {
        var c := coords[k];
        if cells[c.1, c.0] == val {
          UnitCoordAt(w, kind, i, k);
          return Some(c);
        }
      }
      forall x', y' | InRange(w, x', y') && InUnit(w, kind, i, x', y')
        ensures board[y'][x'] != val
      {
        UnitIndexAt(w, kind, i, x', y');
      }
      return None;
    }

    /**
     * populate_from_grid: add every non-zero cell of g, row by row; the first
     * add that raises ends the population with that error.
     */
    method PopulateFromGrid(g: Board) returns (e: Option<SudokuError>)
      requires Valid() && |g| <= n && forall y :: 0 <= y < |g| ==> |g[y]| <= n
      requires forall y, x :: 0 <= y < |g| && 0 <= x < |g[y]| ==> 0 <= g[y][x] <= n
      modifies this, cells
      ensures Valid()
      ensures Extends(board, old(board))
      ensures e.None? && (forall y, x :: InRange(w, x, y) ==> old(board)[y][x] == 0) ==>
        forall y, x :: InRange(w, x, y) ==> board[y][x] == Cell(g, (x, y))
      ensures (forall y, x :: InRange(w, x, y) ==> old(board)[y][x] == 0) ==>
        (e.Some? <==> Repeats(g, w)) && (e.Some? ==> e.value.Conflict?)
    {
      ghost var b0 := board;
      ghost var startsEmpty := forall y, x :: InRange(w, x, y) ==> b0[y][x] == 0;
      e := None;
      for y := 0 to |g|
        invariant Valid() && Extends(board, b0) && e.None?
        invariant startsEmpty ==> FilledBefore(board, w, g, y, 0)
      {
        e := PopulateRow(g, y, b0, startsEmpty);
        if e.Some? {
          return;
        }
      }
      if startsEmpty {
        PopulatedNoRepeats(board, w, g);
      }
    }

    /** One row of that loop: each non-zero value of g[y] is added in turn. */
    method PopulateRow(g: Board, y: int, ghost b0: Board, ghost startsEmpty: bool) returns (e: Option<SudokuError>)
      requires Valid() && 0 <= y < |g| <= n && |g[y]| <= n && Extends(board, b0)
      requires forall x :: 0 <= x < |g[y]| ==> 0 <= g[y][x] <= n
      requires startsEmpty ==> FilledBefore(board, w, g, y, 0)
      modifies this, cells
      ensures Valid() && Extends(board, b0)
      ensures e.None? && startsEmpty ==> FilledBefore(board, w, g, y + 1, 0)
      ensures e.Some? && startsEmpty ==> e.value.Conflict? && Repeats(g, w)
    {
      e := None;
      for x := 0 to |g[y]|
        invariant Valid() && Extends(board, b0) && e.None?
        invariant startsEmpty ==> FilledBefore(board, w, g, y, x)
      {
        ghost var b := board;
        if g[y][x] != 0 {
          e := Add(x, y, g[y][x], false);
          if e.Some? {
            if startsEmpty {
              PopulateConflict(b, w, g, y, x);
            }
            return;
          }
          AddSpecOutcome(b, w, x, y, g[y][x]);
        }
        if startsEmpty {
          FilledStep(b, board, w, g, y, x);
        }
      }
      if startsEmpty {
        FilledRowEnd(board, w, g, y);
      }
    }
  }

  /** The cells before (x, y) in row order hold g's values, the rest are empty. */
  ghost predicate FilledBefore(b: Board, w: int, g: Board, y: int, x: int)
    requires Shape(b, w)
  {
    forall yy, xx :: InRange(w, xx, yy) ==>
      b[yy][xx] == if yy < y || (yy == y && xx < x) then Cell(g, (xx, yy)) else 0
  }

  lemma FilledStep(b: Board, b': Board, w: int, g: Board, y: int, x: int)
    requires Shape(b, w) && 0 <= y < |g| && 0 <= x < |g[y]| && InRange(w, x, y) && FilledBefore(b, w, g, y, x)
    requires b' == if g[y][x] == 0 then b else Place(b, x, y, g[y][x])
    ensures Shape(b', w) && FilledBefore(b', w, g, y, x + 1)
  {
    PlaceShape(b, w, x, y, g[y][x]);
  }

  lemma FilledRowEnd(b: Board, w: int, g: Board, y: int)
    requires Shape(b, w) && 0 <= y < |g| && |g[y]| <= w * w && FilledBefore(b, w, g, y, |g[y]|)
    ensures FilledBefore(b, w, g, y + 1, 0)
  {
  }

  /**
   * An add that raises while an empty grid is populated in row order is a
   * ConflictError, and the given grid repeats that digit within a unit.
   */
  lemma PopulateConflict(b: Board, w: int, g: Board, y: int, x: int)
    requires Shape(b, w) && 0 <= y < |g| && 0 <= x < |g[y]| && InRange(w, x, y) && g[y][x] != 0
    requires FilledBefore(b, w, g, y, x)
    requires AddSpec(b, w, x, y, g[y][x], false).0.Some?
    ensures AddSpec(b, w, x, y, g[y][x], false).0.value.Conflict? && Repeats(g, w)
  {
    var v := g[y][x];
    assert b[y][x] == 0 && Cell(g, (x, y)) == v;
    if v in RowValues(b, y) {
      var x' :| 0 <= x' < |b[y]| && b[y][x'] != 0 && b[y][x'] == v;
      assert SameUnit(w, x', y, x, y) && Cell(g, (x', y)) == v;
    } else if v in ColValues(b, x) {
      var y' :| 0 <= y' < |b| && 0 <= x < |b[y']| && b[y'][x] != 0 && b[y'][x] == v;
      assert SameUnit(w, x, y', x, y) && Cell(g, (x, y')) == v;
    } else {
      assert v in BoxValues(b, w, BoxOf(w, x, y));
      var y', x' :| 0 <= y' < |b| && 0 <= x' < |b[y']| && BoxOf(w, x', y') == BoxOf(w, x, y) && b[y'][x'] != 0 && b[y'][x'] == v;
      assert SameUnit(w, x', y', x, y) && Cell(g, (x', y')) == v;
    }
  }

  /** A duplicate-free board that holds all of g shows that g repeats no digit within a unit. */
  lemma PopulatedNoRepeats(b: Board, w: int, g: Board)
    requires Shape(b, w) && NoDuplicates(b, w) && |g| <= w * w && FilledBefore(b, w, g, |g|, 0)
    ensures !Repeats(g, w)
  {
    forall y, x | InRange(w, x, y)
      ensures b[y][x] == Cell(g, (x, y))
    {
    }
    forall x1, y1, x2, y2 | InRange(w, x1, y1) && InRange(w, x2, y2) && (x1 != x2 || y1 != y2) &&
        SameUnit(w, x1, y1, x2, y2) && Cell(g, (x1, y1)) != 0
      ensures Cell(g, (x1, y1)) != Cell(g, (x2, y2))
    {
      assert b[y1][x1] == Cell(g, (x1, y1)) && b[y2][x2] == Cell(g, (x2, y2));
    }
  }

  /** calculate_open_squares' entries for column x, rows 0 to y - 1: the empty cells with their candidates. */
  ghost function OpenInColumn(b: Board, w: int, x: int, y: int): seq<(Coord, set<int>)>
    requires Shape(b, w) && 0 <= x < w * w && 0 <= y <= w * w
  {
    if y == 0 then []
    else
      OpenInColumn(b, w, x, y - 1) +
      (if b[y - 1][x] == 0 then [((x, y - 1), Candidates(b, w, x, y - 1))] else [])
  }

  /** calculate_open_squares' entries for columns 0 to x - 1. */
  ghost function OpenBefore(b: Board, w: int, x: int): seq<(Coord, set<int>)>
    requires Shape(b, w) && 0 <= x <= w * w
  {
    if x == 0 then [] else OpenBefore(b, w, x - 1) + OpenInColumn(b, w, x - 1, w * w)
  }

  /** Every entry is an empty cell of b with its candidates. */
  ghost predicate OpenEntries(b: Board, w: int, r: seq<(Coord, set<int>)>)
    requires Shape(b, w)
  {
    forall j :: 0 <= j < |r| ==>
      && InRange(w, r[j].0.0, r[j].0.1) && b[r[j].0.1][r[j].0.0] == 0
      && r[j].1 == Candidates(b, w, r[j].0.0, r[j].0.1)
  }

  /** The entries' cells ascend, x first. */
  predicate CoordsSorted<V>(r: seq<(Coord, V)>) {
    forall i, j :: 0 <= i < j < |r| ==> CoordLess(r[i].0, r[j].0)
  }

  /** What calculate_open_squares returns for b: every empty cell once, with its candidates, x first. */
  ghost predicate OpenSquaresOf(b: Board, w: int, r: seq<(Coord, set<int>)>)
    requires Shape(b, w)
  {
    && OpenEntries(b, w, r)
    && (forall x, y :: InRange(w, x, y) && b[y][x] == 0 ==> Lists(r, (x, y)))
    && CoordsSorted(r)
  }

  lemma OpenAppend(b: Board, w: int, p: seq<(Coord, set<int>)>, q: seq<(Coord, set<int>)>)
    requires Shape(b, w) && OpenEntries(b, w, p) && OpenEntries(b, w, q) && CoordsSorted(p) && CoordsSorted(q)
    requires forall i, j :: 0 <= i < |p| && 0 <= j < |q| ==> CoordLess(p[i].0, q[j].0)
    ensures OpenEntries(b, w, p + q) && CoordsSorted(p + q)
    ensures forall c :: Lists(p + q, c) <==> Lists(p, c) || Lists(q, c)
  {
    forall c | Lists(p + q, c)
      ensures Lists(p, c) || Lists(q, c)
    {
      var j :| 0 <= j < |p + q| && (p + q)[j].0 == c;
      if j >= |p| {
        assert q[j - |p|] == (p + q)[j];
      }
    }
    forall c | Lists(p, c) || Lists(q, c)
      ensures Lists(p + q, c)
    {
      if Lists(p, c) {
        var j :| 0 <= j < |p| && p[j].0 == c;
        assert (p + q)[j] == p[j];
      } else {
        var j :| 0 <= j < |q| && q[j].0 == c;
        assert (p + q)[|p| + j] == q[j];
      }
    }
  }

  /** Every entry's cell lies in columns lo to hi - 1 and above row yHi. */
  predicate CellsWithin<V>(r: seq<(Coord, V)>, lo: int, hi: int, yHi: int) {
    forall j :: 0 <= j < |r| ==> lo <= r[j].0.0 < hi && r[j].0.1 < yHi
  }

  lemma CellsWithinAppend<V>(p: seq<(Coord, V)>, q: seq<(Coord, V)>, lo: int, hi: int, yHi: int)
    requires CellsWithin(p, lo, hi, yHi) && CellsWithin(q, lo, hi, yHi)
    ensures CellsWithin(p + q, lo, hi, yHi)
  {
    forall j | 0 <= j < |p + q|
      ensures lo <= (p + q)[j].0.0 < hi && (p + q)[j].0.1 < yHi
    {
      if j < |p| {
        assert (p + q)[j] == p[j];
      } else {
        assert (p + q)[j] == q[j - |p|];
      }
    }
  }

  lemma {:induction false} OpenInColumnFacts(b: Board, w: int, x: int, y: int)
    requires Shape(b, w) && 0 <= x < w * w && 0 <= y <= w * w
    ensures OpenEntries(b, w, OpenInColumn(b, w, x, y)) && CoordsSorted(OpenInColumn(b, w, x, y))
    ensures CellsWithin(OpenInColumn(b, w, x, y), x, x + 1, y)
    ensures forall y' :: 0 <= y' < y && b[y'][x] == 0 ==> Lists(OpenInColumn(b, w, x, y), (x, y'))
  {
    if y > 0 {
      var c' := OpenInColumn(b, w, x, y - 1);
      OpenInColumnFacts(b, w, x, y - 1);
      var e := if b[y - 1][x] == 0 then [((x, y - 1), Candidates(b, w, x, y - 1))] else [];
      forall i, j | 0 <= i < |c'| && 0 <= j < |e|
        ensures CoordLess(c'[i].0, e[j].0)
      {
        assert c'[i].0.0 == x && c'[i].0.1 < y - 1;
      }
      OpenAppend(b, w, c', e);
      CellsWithinAppend(c', e, x, x + 1, y);
      assert OpenInColumn(b, w, x, y) == c' + e;
      if b[y - 1][x] == 0 {
        assert e[0].0 == (x, y - 1);
      }
    }
  }

  lemma {:induction false} OpenBeforeFacts(b: Board, w: int, x: int)
    requires Shape(b, w) && 0 <= x <= w * w
    ensures OpenEntries(b, w, OpenBefore(b, w, x)) && CoordsSorted(OpenBefore(b, w, x))
    ensures CellsWithin(OpenBefore(b, w, x), 0, x, w * w)
    ensures forall x', y' :: 0 <= x' < x && 0 <= y' < w * w && b[y'][x'] == 0 ==> Lists(OpenBefore(b, w, x), (x', y'))
  {
    if x > 0 {
      var r' := OpenBefore(b, w, x - 1);
      var c := OpenInColumn(b, w, x - 1, w * w);
      OpenBeforeFacts(b, w, x - 1);
      OpenInColumnFacts(b, w, x - 1, w * w);
      forall i, j | 0 <= i < |r'| && 0 <= j < |c|
        ensures CoordLess(r'[i].0, c[j].0)
      {
        assert r'[i].0.0 < x - 1 && c[j].0.0 == x - 1;
      }
      assert OpenBefore(b, w, x) == r' + c;
      OpenAppend(b, w, r', c);
      CellsWithinAppend(r', c, 0, x, w * w);
      forall x', y' | 0 <= x' < x && 0 <= y' < w * w && b[y'][x'] == 0
        ensures Lists(r' + c, (x', y'))
      {
        if x' < x - 1 {
          assert Lists(r', (x', y'));
        } else {
          assert Lists(c, (x', y'));
        }
      }
    }
  }

  /** Some entry of r is keyed by c. */
  predicate Lists<V>(r: seq<(Coord, V)>, c: Coord) {
    exists j :: 0 <= j < |r| && r[j].0 == c
  }

  lemma ListsAppend<V>(r: seq<(Coord, V)>, e: (Coord, V))
    ensures forall c :: Lists(r + [e], c) <==> Lists(r, c) || c == e.0
  {
    forall c | Lists(r, c) ensures Lists(r + [e], c) {
      var j :| 0 <= j < |r| && r[j].0 == c;
      assert (r + [e])[j] == r[j];
    }
    assert (r + [e])[|r|] == e;
    forall c | Lists(r + [e], c) && c != e.0 ensures Lists(r, c) {
      var j :| 0 <= j < |r + [e]| && (r + [e])[j].0 == c;
      assert j < |r| && r[j] == (r + [e])[j];
    }
  }

  /** Lexicographic order on (x, y): the order calculate_open_squares lists cells in. */
  predicate CoordLess(a: Coord, b: Coord) {
    a.0 < b.0 || (a.0 == b.0 && a.1 < b.1)
  }

  /** The unit of (x, y) in a family: row y, column x, or its box. */
  function UnitIndex(w: int, kind: UnitKind, x: int, y: int): (i: int)
    requires w >= 1
    ensures InRange(w, x, y) ==> 0 <= i < w * w && InUnit(w, kind, i, x, y)
  {
    BoxOfRange(w, x, y);
    match kind
    case Row => y
    case Column => x
    case Box => BoxOf(w, x, y)
  }
}

=== FILE: wrappers.dfy ===
/** Option and Result: the values the model returns where the source returns None or raises. */
module Wrappers {

  datatype Option<+T> = None | Some(value: T)

  datatype Result<+T, +E> = Ok(value: T) | Err(error: E)
}
